=== FILE: README.md ===
# Dogfight core in Dafny

This project models the game logic of a browser dogfight game. It covers two
variants.

**The campaign game (`game.js`).** The player and nine allies fly from the
bottom-right airport. Ten opponents fly from the top-left airport. Planes taxi
and take off on a staggered schedule. They fight with machine guns, homing
missiles and decoy flares. Shot-down planes respawn at their own airport after
a retry loop that avoids the player.

**The arcade variant (`sample.js`).** One player, five opponents and three allies
start at random places. Weapons are gated by cooldown counters. Missiles chase
an assigned target or a decoy flare. A dead player resets the whole arena.

Each pass of the game's frame update is a pure function over immutable records.
Each carries a contract, and lemmas about the model relate several passes or
ticks. The model covers:

- planes and shots (`Entities`, `Arcade`);
- the nearest-target scans (`Targeting`, `Scans`);
- firing, the lock timer and the flare launcher (`Weapons`, `Tactics`);
- taxi and take-off (`Takeoff`);
- each side's per-tick update (`Pilots`, `Arcade`);
- bullets, missiles and flares in flight (`Projectiles`, `ArcadeShots`);
- the crash pass and anti-stacking (`Collision`).

The backward "iterate and splice" loops of both files are modelled literally in
`Splicing`. They are compared there with the intended "keep what is not spent"
filter.

Distances are compared squared, so `Math.hypot` never appears. The following
are parameters of the operations that use them:

- trigonometry: headings, `atan2` bearings, `cos`/`sin` steps;
- kinematics: `moveForward`, `bounceOffWalls`, `rotateToward`,
  `predictTargetPosition`, `applyHoming`;
- every `Math.random()` draw.

A value in `[0, 1)` is written `UnitRoll`.

## Model

| member | source | states |
|---|---|---|
| Geometry.Clamp | game.js:37-39 | the result lies between the bounds; a value inside is returned unchanged, one below is raised to the low bound and one above is lowered to the high bound |
| Geometry.ClampIdempotent | game.js:37-39 | clamping an already clamped value changes nothing |
| Geometry.ClampToWorld | game.js:1263-1264 | the player's clamped position is inside the 4000 by 4000 world, and a position already inside is kept |
| Geometry.JsRemTurn | game.js:688-690 | JavaScript's `%` by a full turn: the remainder has the sign of the dividend and is smaller than one turn in magnitude |
| Geometry.Wrap | game.js:688-690 | the intended wrap of an angle difference lies in [-π, π), differs from the input by whole turns, and no whole-turn shift has a smaller magnitude |
| Geometry.Misalignment | game.js:688-691 | the intended angular error between heading and bearing lies in [0, π] and is the smallest over all whole-turn shifts |
| Geometry.MisalignmentAsWritten | game.js:688-690 | the expression as written is never negative |
| Geometry.AsWrittenAgreesWhenNotBehind | game.js:688-690 | the expression as written equals the intended error whenever heading − bearing + π ≥ 0, so JavaScript's `%` differs only when that sum is negative |
| Geometry.MisalignmentAsWrittenRejectsAlignedTarget | game.js:688-695 | with heading −π and bearing π − 0.1 the code computes more than π/6 and refuses to launch, though the target is 0.1 rad off the nose |
| Targeting.ScanFrom | game.js:457-470 | the scan loop's invariant: if the best-so-far is the first nearest eligible candidate of the prefix, the result is the first nearest of the whole list |
| Targeting.Nearest | game.js:454-472 | the result is an eligible candidate under the cap, no eligible candidate is nearer, and every earlier eligible one is strictly farther (ties go to the earliest); none exactly when no eligible candidate is under the cap |
| Targeting.FirstNearestUnique | game.js:454-472 | the first-nearest description fixes a single answer, so any two scans meeting it agree |
| Targeting.NearestBelowIffAnyBelow | game.js:981-993 | the nearest candidate is within a limit if and only if some eligible candidate is |
| Targeting.FirstWithin | game.js:1449-1460 | the first point within the radius is found; none exactly when no point is within it |
| Scans.NearestOpponent | game.js:454-472 | only living opponents are considered; none exactly when every opponent is dead; otherwise a living opponent that is first nearest |
| Scans.NearestOfAll | game.js:1507-1525 | the player-missile scan considers dead opponents too; none exactly when the roster is empty |
| Scans.NearestFlare | game.js:474-489 | the first nearest flare; none exactly when there are no flares |
| Scans.NearestEnemy | game.js:491-505 | the player is chosen exactly when no living ally is strictly nearer than the player; otherwise the living ally chosen is strictly nearer than the player, nearest among living allies, and first among equals |
| Scans.NearestEnemyNoFartherThanPlayer | game.js:491-505 | the enemy an opponent picks is never farther away than the player |
| Entities.OrbitDirection | game.js:362 | the orbit direction is ±1, and +1 exactly when the coin is below one half |
| Entities.CreatePlane | game.js:349-369 | a new plane is rearmed: full health 100, 200 rounds, 4 missiles, thrust 1, no dodge state, at the given spot, on the ground and not taxiing |
| Entities.InitialPlayer | game.js:270-273 | the player starts rearmed at (3850, 3850), taking off with a 120-tick taxi |
| Entities.InitialOpponents | game.js:276-295 | ten rearmed opponents parked on the two-column grid from (50, 50) in steps of 60; opponent i waits 90·i ticks and then taxis for 90 |
| Entities.ParkedOpponent | game.js:281-294 | opponent i's parking spot, take-off delay and taxi time |
| Entities.InitialAllies | game.js:299-317 | nine rearmed allies on the three-by-three grid from (3800, 3800) in steps of 50; ally i waits 60·i ticks |
| Entities.ParkedAlly | game.js:303-316 | ally i's parking spot and take-off delay |
| Entities.PickAttempt | game.js:375-404 | the spawn retry loop stops at the first of ten drawn slots that is more than 300 from the player, and falls back to the tenth when none is |
| Entities.RespawnPlane | game.js:371-429 | a respawned plane is rearmed at its maximum health and taking off, with taxi 90 (opponent) or 120 (friendly). It sits on the slot of the draw the retry loop stops at (the first safe one, else the tenth), so it is on its own airport and more than 300 from the player whenever any drawn slot was. It heads π/2 (opponent) or −π/2 (friendly). Its flare cooldown, lock timer, take-off delay and speed are untouched |
| Entities.PlayerRespawnUsesLastAttempt | game.js:397-403 | when the player itself respawns there is no one to avoid, and the tenth draw is always used |
| Weapons.FireMachineGun | game.js:560-575 | with ammunition, one bullet is appended at the nose and one round is spent; without, nothing changes |
| Weapons.HoldTriggerFiresUntilEmpty | game.js:163-191 | holding the trigger for n repeats fires exactly min(n, ammo) bullets and spends as many rounds |
| Weapons.FireAllyMachineGun | game.js:577-597 | an ally fires exactly when it has rounds and some opponent is alive; the bullet flies toward the nearest living opponent |
| Weapons.FireOpponentMachineGun | game.js:929-949 | an opponent with rounds appends exactly one bullet toward its aim and spends one round; otherwise it is unchanged |
| Weapons.RangeVerdict | game.js:677-695 | a launch is allowed exactly when the target is 300 to 900 away and the angle expression as the code writes it, with JavaScript's `%`, is at most π/6; the refusal says out of range or not aligned |
| Weapons.RangeVerdictIntended | game.js:677-695 | the evidently intended verdict: a launch is allowed exactly when the target is 300 to 900 away and the true angle between heading and bearing is at most π/6 |
| Weapons.RangeVerdictAgreesWhenNotBehind | game.js:688-695 | the written and intended verdicts agree whenever heading − bearing + π ≥ 0, and they always agree on an out-of-range refusal |
| Weapons.LaunchersRefuseAlignedTarget | game.js:688-695 | a shooter heading −π with its target 500 away at bearing π − 0.1 is refused as not aligned by the written verdict, though the intended verdict launches |
| Weapons.FireMissile | game.js:644-709 | refuses with no missiles exactly when the count is not positive, and with no target exactly when no opponent exists; a refusal changes nothing; a launch appends one missile aimed at the nearest opponent, spends one missile and clears the lock |
| Weapons.FireAllyMissile | game.js:599-642 | an ally launches exactly when it has missiles left, some opponent exists (dead ones included) and the nearest one passes the written range and alignment verdict; a launch spends one missile and flies at that opponent |
| Weapons.FireOpponentMissile | game.js:951-978 | an opponent launches exactly when it has missiles and passes the written range and alignment verdict (so it refuses a target just off the nose when heading − bearing + π < 0); a launch appends one untargeted missile along the bearing and spends one |
| Weapons.MissileCountConserved | game.js:644-709 | missiles in flight plus missiles aboard are the same before and after a launch attempt |
| Weapons.ReleaseFlares | game.js:711-745 | the burst appends twenty flares and keeps the old ones; each lives 180 ticks; each pair leaves symmetrically either side of the plane, with bounded spread and speed |
| Weapons.UpdatePlayerMissileLock | game.js:980-1002 | with an opponent within 1000 the timer grows by one and the lock is ready once it exceeds 300; with none in range the lock is reset; a valid lock stays valid |
| Weapons.DistSqFlip | game.js:984-986 | the range test is the same measured from either end |
| Weapons.LockReadyAfter301Ticks | game.js:993-997 | from a reset lock, n ticks in range give timer n, ready exactly when n > 300 |
| Weapons.LockRun | game.js:993-997 | ticks in range from any valid lock add their count to the timer, and the lock is ready once the timer passes 300 |
| Weapons.OutOfRangeTickForgets | game.js:998-1001 | a single tick with no opponent in range wipes everything before it |
| Weapons.UpdateAlert | game.js:1470-1504 | the "missile locked" banner appears exactly when a missile is within 300 and the alert is not yet announced. A threat re-arms the 60-tick hold. A quiet tick counts the hold down and clears the announcement at zero |
| Weapons.AlertRearmsAfterHold | game.js:1496-1503 | after at least as many quiet ticks as the hold left, the alert is back to unannounced with zero hold |
| Takeoff.TaxiTick | game.js:776-786 | a taxi tick spends one unit of taxi time at thrust 0.5; the plane is airborne at thrust 5 once the timer reaches zero, and only its position changes otherwise |
| Takeoff.OpponentTakeoff | game.js:757-786 | the ground logic takes over exactly when the opponent is not yet airborne; the countdown only counts down, and the taxi timer moves only once the countdown is over |
| Takeoff.CountdownOnly | game.js:757-760 | a parked opponent only counts its delay down for that many ticks |
| Takeoff.TaxiCountsDown | game.js:776-785 | each of the taxi ticks lowers the timer by one at taxi thrust |
| Takeoff.StartTick | game.js:762-774 | the tick after the countdown starts the taxi with the full 90 ticks |
| Takeoff.TaxiPhase | game.js:776-786 | t ticks into the taxi the timer shows 90 − t, and the plane is airborne at combat thrust exactly at t = 90 |
| Takeoff.TakeoffSchedule | game.js:757-786 | a parked opponent with delay d spends d ticks counting down, one tick starting the taxi and 90 taxiing, and is then airborne at thrust 5 |
| Takeoff.GroundedSplit | game.js:750-786 | running a + b ground ticks is running a and then b |
| Takeoff.GroundedFixed | game.js:752-756 | ground logic leaves an airborne opponent alone |
| Takeoff.AllyTakeoff | game.js:822-839 | the ground logic takes over exactly when the ally is still counting down or has started the taxi; it never moves the plane itself and keeps the ally's ground state consistent |
| Takeoff.AllyResumeTaxi | game.js:841-844 | a parked ally whose countdown is over is put back on the taxi; any other ally is unchanged |
| Takeoff.AllyResumeTaxiIsDead | game.js:841-844 | for allies in a consistent ground state the resume branch never changes anything |
| Takeoff.AllyShapeKept | game.js:371-429 | respawn keeps an ally's ground state consistent |
| Takeoff.InitialAlliesShaped | game.js:299-317 | every ally starts in a consistent ground state |
| Tactics.OpponentLockTimer | game.js:807-815 | an opponent attempts a missile exactly when the target is in range, the grown timer exceeds 300 and the 2% draw succeeds; an attempt resets the timer; out of range it decays but never below zero |
| Tactics.NoAttemptBeforeLock | game.js:807-815 | no missile is attempted in the first 300 ticks of holding a target, and the timer never exceeds its start plus the ticks elapsed |
| Tactics.Burst | game.js:1409-1410 | a flare burst sets the cooldown to 300 and adds twenty flares after the existing ones |
| Tactics.DeployFlaresFor | game.js:1396-1412 | a positive cooldown is only decremented; flares are released exactly when the cooldown is spent, a missile is within 250 and the 2% draw succeeds; a valid cooldown stays valid |
| Tactics.Bursts | game.js:1395-1413 | no more planes burst than there are |
| Tactics.BurstsNoneOrAll | game.js:1395-1413 | no plane bursts exactly when no plane's flare check passes, and every plane bursts exactly when every plane's check passes |
| Tactics.MaybeDeployFlares | game.js:1395-1413 | every plane goes through the flare check in order; the flare list grows by exactly twenty for each plane that bursts and keeps the old flares first |
| Tactics.DeployKeepsCooldowns | game.js:1395-1413 | flare cooldowns stay within [0, 300] for the whole fleet |
| Tactics.DeployIndependentOfList | game.js:1396-1412 | a plane's new state does not depend on the flares already in the air |
| Tactics.PlayerFlareKey | game.js:219-232 | the flare key fires a burst exactly when the cooldown is spent, and does nothing otherwise |
| Tactics.SilenceAfterBurst | game.js:1397-1400 | while the cooldown lasts, no burst happens and the flare list is untouched |
| Tactics.DecayOffset | game.js:1389-1392 | the dodge offset decay never increases its size and leaves zero at zero |
| Tactics.DodgeHold | game.js:1370 | a dodge lasts between 45 and 89 ticks |
| Tactics.MaybeDodge | game.js:1354-1393 | a running dodge only counts down and fades its offset. Once it is over, a new dodge starts exactly when a bullet is within 150 or a missile within 250 and the 40% draw succeeds; it holds 45 to 89 ticks at ±60°. Flares go out exactly when the flare cooldown is spent, a missile is within 200 and the 10% draw succeeds. Nothing else in the plane changes, and the counters stay within their ranges |
| Pilots.PlayerRespawn | game.js:1113-1114 | the player respawns rearmed and taxiing for 120 ticks at the tenth drawn airport slot |
| Pilots.UpdatePlayerLife | game.js:1084-1129 | taxiing, the first dead tick, the respawn countdown and the alive tick each do what the frame update does; the death bookkeeping and the flare cooldown stay valid |
| Pilots.CountdownToRespawn | game.js:1106-1126 | while the player is dead, each tick lowers the respawn counter by one and changes nothing else |
| Pilots.PlayerDeathTimeline | game.js:1106-1126 | a player shot down stays down through tick 60 with counter 61 − k, and is respawned taxiing on tick 61 |
| Pilots.AutopilotMissile | game.js:1176-1188 | the autopilot launches exactly when missiles are left, the lock is ready, the target has more than 30 health, the 3% draw passes and the launcher's range and cone test at the nearest opponent (dead or alive) passes; a launch clears the lock, a refusal keeps it; gun rounds, health and position are untouched |
| Pilots.AutopilotGun | game.js:1171-1174 | the autopilot gun adds exactly one bullet when allowed and rounds are left, none otherwise, spends exactly the rounds it fires and changes nothing else about the plane |
| Pilots.AutopilotFire | game.js:1130-1199 | with no living opponent nothing happens; otherwise a missile leaves exactly when missiles are left, the lock is ready, the target has more than 30 health, the 3% draw passes and the range and cone test passes, and the bullets added are exactly one for the 15% chance within 800 with rounds left plus one for the 10% fallback within 800 when no missile left (or the last one did) and rounds are still left; ammunition is conserved and the lock clears only on a launch |
| Pilots.AutopilotFlares | game.js:1201-1205 | the autopilot releases flares exactly when the cooldown is spent and an opponent missile is within 300 |
| Pilots.OpponentTick | game.js:750-818 | a dead opponent is respawned at its airport; a grounded one runs only the take-off logic; an airborne one flies. Shot lists only grow and the counters stay valid |
| Pilots.OpponentFlight | game.js:788-815 | an airborne opponent steers at combat thrust and keeps its health; it adds a bullet exactly when the nearest enemy is within 800, its 5% draw passes and rounds are left, and a missile exactly when the lock timer makes an attempt and the launcher has missiles and passes its range and cone test; the lock timer follows the 1000-range rule |
| Pilots.Maneuver | game.js:790-801 | steering and dodging set combat thrust and never touch health, lock, ammunition or ground state |
| Pilots.AllyWeapons | game.js:877-879 | an ally adds a bullet exactly when its opponent is within 600, its 4% draw passes, rounds are left and some opponent is alive, and a missile exactly when the opponent is within 1000, its 1% draw passes, missiles are left and the range and cone test at the nearest opponent passes; only ammunition changes |
| Pilots.AllyCombat | game.js:851-880 | with no opponents the ally does nothing; otherwise, against the nearest opponent dead or alive, it adds a bullet exactly when that opponent is within 600, the 4% draw passes, rounds are left and some opponent is alive, and a missile exactly when it is within 1000, the 1% draw passes, missiles are left and the steered ally's range and cone test passes; health and ground state are untouched |
| Pilots.AllyFlight | game.js:851-894 | an airborne ally fires only if some opponent exists and keeps its health; it adds a bullet and a missile under exactly the conditions of its combat step |
| Pilots.AllyTick | game.js:821-895 | the take-off, respawn and flight branches are taken exactly as the code orders them, and the counters stay valid |
| Pilots.OpponentTickStep | game.js:750-818 | one opponent's tick only grows its side's lists; a dead opponent comes back at full health and taking off, a living one keeps its health, and valid counters stay valid |
| Pilots.AllyTickFate | game.js:821-880 | one ally's tick: a dead ally past its take-off branches comes back at full health and taking off, a living one keeps its health, and valid counters stay valid |
| Pilots.UpdateOpponentsFrom | game.js:751-817 | the roster loop keeps the invariant that the untouched opponents, the player and the allies are unchanged |
| Pilots.UpdateOpponents | game.js:750-818 | the roster keeps its size; the player and allies are untouched; opponent bullets, missiles and flares only grow; every dead opponent comes back at full health and taking off; every living opponent keeps its health; every opponent whose counters were valid (flare cooldown, dodge counter, lock timer ≥ 0) keeps them valid when its dodge draw is in [0, 1) |
| Pilots.UpdateAlliesFrom | game.js:821-895 | the ally loop keeps the invariant that the untouched allies, the player and the opponents are unchanged |
| Pilots.UpdateAllies | game.js:820-896 | each ally adds at most one bullet and one missile, the other rosters are untouched, and consistent ground states stay consistent; a dead ally that is past its take-off branches comes back at full health and taking off; every living ally keeps its health, and valid counters stay valid when the dodge draw is in [0, 1) |
| Projectiles.Strike | game.js:1455 | one hit subtracts the damage from exactly the plane hit |
| Projectiles.ApplyHitsCounts | game.js:1449-1460 | after a volley each plane has lost the damage times the number of bullets that hit it |
| Projectiles.BulletFate | game.js:1442-1465 | a bullet moves and ages by one; it hits the first opponent within 30 of its new position, none exactly when none is close; the code splices it once for a hit and once more if it expired |
| Projectiles.UpdateBulletsAsWritten | game.js:1441-1467 | the bullet loop as written: 10 damage per hit, and when no bullet is spliced twice the bullets kept are exactly those that neither hit nor expired |
| Projectiles.UpdateBullets | game.js:1441-1467 | the intended bullet pass: 10 damage per hit, and the survivors are exactly the bullets that neither hit nor expired, in order, all with life left |
| Projectiles.BulletsAsWrittenAgree | game.js:1441-1467 | when no bullet both hits and expires on the same tick, the code and the intended pass agree |
| Projectiles.MiddleHitAndExpired | game.js:1453-1465 | three bullets whose middle one both hits and expires lose a neighbour as written: one bullet is left instead of two |
| Projectiles.BulletDoubleSpliceLosesNeighbour | game.js:1453-1465 | a concrete row of three bullets and one opponent in which the code keeps one bullet and the intended pass keeps two |
| Projectiles.Defenders | game.js:899-913 | the opponent bullets test the player first, then the allies in order |
| Projectiles.OpponentBulletFate | game.js:899-926 | an opponent bullet hits the first defender within 30 and is removed at most once per tick, exactly when it hit or expired |
| Projectiles.UpdateOpponentBullets | game.js:898-927 | the survivors are exactly the opponent bullets that neither hit nor expired, and each hit costs its defender 10 health |
| Projectiles.DefendersHit | game.js:907-913 | the player loses 10 per bullet that hit it, and each ally loses 10 per bullet that hit it |
| Projectiles.AllyHit | game.js:907-913 | ally k loses 10 for each bullet that hit it |
| Projectiles.MissileFate | game.js:1507-1556 | with no opponents a player missile is left alone; otherwise it hits the nearest opponent, dead or alive, when that one is within 40, and is removed at most once |
| Projectiles.UpdatePlayerMissiles | game.js:1506-1557 | the survivors are exactly the missiles that neither hit nor expired, each hit costing 25; with no opponents nothing happens |
| Projectiles.MissileOutcome | game.js:1560-1617 | an opponent missile is decoyed exactly when a flare is in the air and the nearest flare is within 20 of it, and then that flare is the one captured; it hits the player exactly when no flare is in the air and the player is within 40; it keeps flying only with life left |
| Projectiles.Settle | game.js:1595-1616 | a decoy removes exactly the flare reached; a player hit subtracts 25; an expired missile changes nothing; a flying one is kept |
| Projectiles.VisitShield | game.js:1565-1611 | while any flare is in the air a missile cannot hurt the player, and a change to the player is a 25-point hit |
| Projectiles.KeptFlyingFrom | game.js:1560-1617 | every missile the pass keeps still has life left |
| Projectiles.MissileBudgetFrom | game.js:1560-1617 | the pass's loop invariant: after j visits the player has lost exactly 25 per hit, and hits, captured flares and newly kept missiles together are at most j |
| Projectiles.FlaresShieldFrom | game.js:1565-1611 | with at least as many flares as missiles left to visit, the player is untouched |
| Projectiles.UpdateOpponentMissiles | game.js:1559-1617 | every opponent missile still flying after the pass has life left |
| Projectiles.OpponentMissileBudget | game.js:1559-1617 | a whole pass costs the player exactly 25 per hit and nothing else; the flare list never grows; hits, captured flares and surviving missiles together are at most the number of missiles |
| Projectiles.FlaresShieldPlayer | game.js:1559-1617 | enough flares in the air (at least one per missile) make the player untouchable this tick |
| Projectiles.UpdateFlares | game.js:1620-1630 | flares drift and age by one, and exactly those with life left stay, in order |
| Projectiles.UpdateFlaresBurning | game.js:1620-1630 | no burnt-out flare survives, and when every flare has more than one tick left all of them stay |
| Projectiles.LoneFlareTick | game.js:1620-1630 | one flare survives a tick exactly when it had more than one tick of life |
| Projectiles.FlareBurning | game.js:1620-1630 | for n ticks fewer than its life a released flare is still the only one in the list, aged by n |
| Projectiles.FlareBurnsOut | game.js:1620-1630 | a flare is gone exactly after as many ticks as it had life, so a released flare lasts 180 ticks |
| Splicing.SpliceOne | game.js:1457 | one `splice(i, 1)` removes exactly the element at i and keeps the rest in order |
| Splicing.Keep | game.js:1442-1466 | the intended filter keeps exactly the unspent elements |
| Splicing.KeepOnlyUnspent | game.js:1442-1466 | anything kept was an element that was not spent |
| Splicing.KeepAllWhenUnspent | game.js:1442-1466 | with nothing spent the whole list is kept |
| Splicing.SpliceLoopKeeps | game.js:1442-1466 | the backward splice loop equals the intended filter when no element is spliced twice |
| Splicing.SpliceLoopKeepsFrom | game.js:1442-1466 | the splice loop's invariant: the unvisited prefix plus the filtered suffix |
| Splicing.DoubleSpliceDropsNeighbour | game.js:1453-1465 | splicing the middle of three twice drops its kept right neighbour, where the filter keeps two |
| Collision.Wreck | game.js:1040-1041 | a crash sets health to zero and leaves the plane where it was |
| Collision.FirstCrash | game.js:1036-1046 | the first living opponent within 40 of a living plane; none exactly when there is none |
| Collision.RowFromFirstCrash | game.js:1036-1046 | the inner loop from any index wrecks exactly the first crashing opponent of the rest and the plane itself |
| Collision.CrashRow | game.js:1036-1046 | one plane against the opponent row: if any opponent crashes, that first one and the plane are wrecked and nothing else changes |
| Collision.CrashRowFacts | game.js:1036-1046 | after a row, the plane either is wrecked together with exactly one opponent or has no crashing opponent left |
| Collision.StaysSeparated | game.js:1034-1049 | wrecking opponents never makes an already separated plane crash |
| Collision.AlliesFromFacts | game.js:1034-1049 | the ally loop's invariant: allies processed are separated, changes are only wrecks, and opponents wrecked equal allies wrecked |
| Collision.ChangedCount | game.js:1036-1046 | each ally step wrecks as many opponents as allies |
| Collision.CrashPass | game.js:1034-1073 | the crash pass keeps every roster's size |
| Collision.CrashPassFacts | game.js:1034-1073 | after the pass no living ally or player is within 40 of a living opponent; planes only die, never change otherwise; opponents lost equals allies lost plus the player if it was lost |
| Collision.NudgeKeepsSum | game.js:531-545 | a pair push moves the two planes by opposite amounts, so the sum of positions is unchanged and nothing but positions changes |
| Collision.StackFromKeepsSum | game.js:528-547 | the pair loop's invariant: the sum of positions is kept and only positions change |
| Collision.AntiStackingKeepsSum | game.js:527-548 | anti-stacking never moves the fleet's centre, and only positions change |
| Arcade.FreshDrone | sample.js:54-76 | a new drone has full health, no velocity, both cooldowns zero, and lies in the world when its draws are unit rolls |
| Arcade.InitEntities | sample.js:40-78 | the reset empties the shot lists, puts the player at the centre with 100 rounds and 5 missiles, and creates five opponents (alternately aggressive and defensive) and three balanced allies, all at full health |
| Arcade.PlayerGate | sample.js:127-140 | a cooldown gate fires exactly when the shot is wanted and its counter is zero, and keeps its counter below the period |
| Arcade.GateRun | sample.js:127-140 | over a run of ticks the gate never fires on a tick the shot was not wanted, and fires on the first tick exactly when wanted at cooldown zero |
| Arcade.GateRunTick | sample.js:127-140 | tick k of a run fires exactly when the shot is wanted and the cooldown left by the first k ticks is zero |
| Arcade.GateShut | sample.js:127-140 | a gate cannot fire during the first ticks its cooldown still covers |
| Arcade.GateSpacing | sample.js:127-140 | two shots through one gate are at least a period apart |
| Arcade.GateReopens | sample.js:127-140 | holding the trigger, the gate fires again as soon as the cooldown has run out |
| Arcade.PlayerMotion | sample.js:107-125 | steering turns by the key, the position stays inside the world, and nothing but position, heading and velocity changes |
| Arcade.PlayerGun | sample.js:127-140 | the gun fires exactly when the trigger is down, rounds are left and the cooldown is zero; it appends one round at the muzzle, spends exactly that round and changes nothing else in the player |
| Arcade.PlayerFlare | sample.js:142-154 | a flare is dropped behind the player exactly when the key is down and the flare cooldown is zero; only the cooldown changes in the player |
| Arcade.PlayerMissileTarget | sample.js:156-164 | the target is the first nearest opponent inside the cone and strictly within 900; none exactly when no opponent in the cone is that close |
| Arcade.PlayerMissile | sample.js:156-179 | a missile goes out exactly when the key is down, a missile is left, the cooldown is zero and a target exists; it is assigned that target and spends one missile, and otherwise only the cooldown counts down |
| Arcade.UpdatePlayer | sample.js:99-187 | a dead player resets the arena; otherwise the player moves, and a round is appended exactly when the gun key is held with bullets left at gun cooldown 0, a flare exactly when the flare key is held at flare cooldown 0, and a missile exactly when the missile key is held with missiles left at cooldown 0 and a target in the cone within 900; each appended shot's position and velocity are given, each cooldown is what its gate leaves, and the enemy rosters are untouched |
| Arcade.UpdatePlayerKeepsValid | sample.js:99-187 | ammunition and cooldowns stay within their ranges across a player update |
| Arcade.DroneGate | sample.js:211-223 | a drone fires exactly when its cooldown is spent and the condition holds; firing resets the cooldown to the period, otherwise it counts down |
| Arcade.DroneRun | sample.js:211-223 | over a run of ticks a drone never fires on a tick its shot was off, and fires on the first tick exactly when the shot is on at a cooldown of at most zero |
| Arcade.DroneRunTick | sample.js:211-223 | tick k of a drone run fires exactly when the shot is on and the cooldown left by the first k ticks is at most zero |
| Arcade.DroneCooldownFalls | sample.js:211-223 | without firing, a drone's cooldown drops by one per tick |
| Arcade.DroneGateShut | sample.js:211-223 | a drone cannot fire while its cooldown is still running |
| Arcade.DroneSpacing | sample.js:211-223 | two drone shots are at least period + 1 ticks apart |
| Arcade.Revive | sample.js:241-248 | a dead drone comes back at full health with no velocity, inside the world; a living drone is untouched |
| Arcade.OpponentSortie | sample.js:196-249 | an opponent fires a round exactly when its gun gate opens with the player within 600 and aligned, and a missile at the player exactly when its missile gate opens with the player within 900 and in its cone; a downed opponent is revived |
| Arcade.AllyTarget | sample.js:277-284 | the ally's target is the first nearest opponent in its cone within 700 |
| Arcade.AllySortie | sample.js:259-323 | an ally fires a round exactly when it has a target, its gun cooldown is spent and the target is aligned, and a missile at that target exactly when it has a target and its missile cooldown is spent; after the tick it is the flown ally with both cooldowns as its gates leave them, revived to full health at rest if it was down; the round leaves 20 ahead of the nose along the heading at bullet speed plus the ally's velocity, the missile from the ally's position at twice the heading plus its velocity |
| Arcade.Gather | sample.js:189-250 | the roster loop collects each drone's result in order and appends exactly the rounds and missiles the drones fired, in roster order, after the existing ones; at most one of each per drone, and every added shot is one a drone fired |
| Arcade.GatherFrom | sample.js:189-250 | the loop from the current lists: pushing each drone's fired round and missile in turn leaves the lists equal to the old ones followed by the fired shots in roster order |
| Arcade.UpdateOpponents | sample.js:189-250 | every opponent is updated by its own sortie and all are alive afterwards; the rounds and missiles added are exactly those the opponents fired, in roster order; every added round is an opponent round and every added missile is an opponent missile homing on the player |
| Arcade.OpponentRoundsPushed | sample.js:211-222 | every round an opponent's sortie fires is among the added rounds, and every added round is one that some opponent's sortie fired |
| Arcade.OpponentRocketsPushed | sample.js:225-238 | the same for opponent missiles |
| Arcade.UpdateAllies | sample.js:252-324 | every ally is updated by its own sortie and all are alive afterwards; the rounds and missiles added are exactly those the allies fired, in roster order; every added round is an ally round and every added missile is an ally missile at an existing opponent |
| Arcade.AllyRoundsPushed | sample.js:286-298 | every round an ally's sortie fires is among the added rounds, and every added round is one that some ally's sortie fired |
| Arcade.AllyRocketsPushed | sample.js:300-313 | the same for ally missiles |
| ArcadeShots.Hurt | sample.js:335-355 | each drone loses the damage times the rounds that struck it |
| ArcadeShots.RoundVisit | sample.js:327-360 | a round moves and ages; it is removed once when it leaves the world or expires. A friendly round strikes the first opponent within 20. An opponent round can strike the player and an ally in the same tick, with one splice for each |
| ArcadeShots.RoundVisitOnce | sample.js:327-360 | the intended visit removes a round at most once, exactly when it expired, left or struck, and never strikes both the player and an ally |
| ArcadeShots.Resolve | sample.js:327-360 | the player, opponents and allies lose 20 per strike, and the rounds kept are exactly those not removed when no round is removed twice |
| ArcadeShots.UpdateRoundsAsWritten | sample.js:326-362 | the round pass as written: 20 damage per strike, and when no round is removed twice the rounds kept are exactly those neither removed nor striking |
| ArcadeShots.UpdateRounds | sample.js:326-362 | the intended round pass: every surviving round has life left and is inside the world, and damage is 20 per strike |
| ArcadeShots.RoundsAsWrittenAgree | sample.js:326-362 | when no opponent round strikes the player, the code and the intended pass agree |
| ArcadeShots.MiddleStrikesTwice | sample.js:344-359 | three rounds whose middle one strikes both the player and an ally keep one round as written, two as intended |
| ArcadeShots.OpponentBulletDoubleSplice | sample.js:344-359 | a concrete player, ally and row of three opponent rounds on which the code keeps one round and the intended pass two |
| ArcadeShots.FirstDecoy | sample.js:367-370 | the flare loop stops at the first flare in list order that is within 150 and wins its 20% draw; none exactly when no flare does |
| ArcadeShots.AimPoint | sample.js:367-376 | when some flare within 150 wins its 20% draw, the missile aims at the first such flare in list order; otherwise it aims at the player for a missile aimed at the player, at its opponent when that opponent exists, and nowhere otherwise |
| ArcadeShots.RocketVisit | sample.js:365-394 | a missile moves and ages; it is removed when it leaves or expires; a friendly missile hits only its own target within 25, and an opponent missile within 25 of the player hits the player |
| ArcadeShots.UpdateRockets | sample.js:364-396 | every surviving missile has life left and is inside the world, and damage goes 50 per hit to whoever was hit |
| ArcadeShots.RocketDamageGoesToTarget | sample.js:383-388 | an opponent that no missile targets takes no missile damage |
| ArcadeShots.PlayerSafeFromFriendlyMissiles | sample.js:389-394 | with no opponent missiles in the air the player takes no missile damage |
| ArcadeShots.UpdateSparks | sample.js:398-409 | flares drift and age, exactly those with life left stay in order, and the list never grows |

## Left out

- Drawing, the HUD, camera, images, particles, trails, explosions and floating
  texts are not modelled (game.js:1269-1334, 1632-2040; sample.js:411-560). They
  have no effect on the game state. The out-of-ammunition messages go with them.
- The joystick, throttle and thrust controls are left out (game.js:55-152,
  1226-1243). So is the player's manual turning and the speed limit
  (game.js:1244-1261). These are analogue input plumbing. Only the fire and flare
  keys are modelled.
- Trigonometry, `moveForward`, `bounceOffWalls`, `rotateToward`,
  `predictTargetPosition` and the missile homing step are left out: they are
  floating-point kinematics. They enter as parameters (`Motion`, `Aim`,
  `flight`, `homing`, `drift`, `course`, `heading`). Headings stay real numbers.
- Every `Math.random()` draw is a parameter. Where the source draws in [0, 1), a
  contract assumes it only where the conclusion needs it (`UnitRoll`).
- Floating-point rounding is not modelled: numbers are exact reals, and π is
  the exact decimal 3.141592653589793.
- The staggering of the flare burst with `setTimeout` is left out
  (game.js:717-743): the source appends one pair every 80 ms, at the plane's
  position at that moment. The model appends all twenty flares in one step, at
  the position of the release. The flare size draw is cosmetic and dropped.
- updateOpponentMissileLock (game.js:1004-1018) is not modelled. The frame
  update calls it, but the timer and flag it writes (game.js:345-346) are never
  read, so it has no effect on play. Each opponent's own lock timer is
  modelled by Tactics.OpponentLockTimer.
- The autopilot's steering, obstacle avoidance and separation push are left out
  (game.js:1136-1169). They are kinematics; only its firing and flare decisions
  are modelled.
- The allies' own anti-stacking push is left out (game.js:884-894). It is a
  normalised floating-point vector; only the pair push of `applyAntiStacking`
  is modelled.
- Collision.ApplyAntiStacking: the push for each close pair is a parameter. The
  contract states that the sum of positions is kept and only positions change.
  It does not state the push's size.
- The arcade flare trail counter is left out (sample.js:402-406): it only spawns
  particles.
- The arcade homing and steering angle arithmetic is left out (`isInMissileCone`
  and `isAngleAligned`, sample.js:85-97). It enters as per-drone booleans
  (`Sense`).
- The arcade missile's target object is modelled as an opponent index. The
  opponent array is only replaced together with the missile list (sample.js:41),
  so an index and the object always name the same drone.
- Pilots.UpdatePlayerLife: the alive branch covers only the flare cooldown and
  the clamp. The player's firing and flares under the autopilot are stated
  separately by Pilots.AutopilotFire and Pilots.AutopilotFlares. The player's
  dodge is stated by Tactics.MaybeDodge. The three are not chained into one
  tick.
- The frame driver that chains the passes is not modelled as one function
  (`update`, game.js:1023-1082; `gameLoop` in both files). Each pass it calls is
  modelled and stated on its own.
- Projectiles.UpdateOpponentMissiles: the function's own contract states only
  that every kept missile has life left. The damage budget and the flare shield
  are separate lemmas (Projectiles.OpponentMissileBudget,
  Projectiles.FlaresShieldPlayer).
- Health is never clamped in the source, and the model keeps it so: a plane can
  go below zero.
- The campaign player's missile launch does not consult the lock timer
  (game.js:644-709); the model follows the code. The lock only clears on a
  launch.

## Findings

| source | as written | input that shows it | evidently intended | confidence | as-written member | corrected member |
|---|---|---|---|---|---|---|
| game.js:688-690 | the angle difference is wrapped with JavaScript `%`, whose result has the sign of the dividend, so a negative heading − bearing + π is not wrapped into [-π, π) | heading −π, bearing π − 0.1 (0.1 rad apart), distance 500: the code computes 2π − 0.1 and refuses as not aligned | the smallest angle between heading and bearing, in [0, π] | high; not executed | Weapons.LaunchersRefuseAlignedTarget | Weapons.RangeVerdictIntended |
| game.js:1453-1465 | a bullet that hits on the tick its life runs out is spliced twice; the second splice removes the bullet after it, which had already been kept | three bullets, the middle one hitting with one tick of life left: one bullet survives instead of two | each spent bullet removed once | high; not executed | Projectiles.BulletDoubleSpliceLosesNeighbour | Projectiles.UpdateBullets |
| sample.js:344-359 | an opponent round within 20 of both the player and an ally damages both and is spliced twice, dropping its right neighbour | player at (100, 100), ally at (110, 100), three rounds with the middle one landing between them: one round survives instead of two | a round strikes once and is removed once | medium; not executed | ArcadeShots.OpponentBulletDoubleSplice | ArcadeShots.UpdateRounds |

The three missile launchers (`FireMissile`, `FireAllyMissile`,
`FireOpponentMissile`) decide with the verdict as the code writes it,
`Weapons.RangeVerdict`. The corrected verdict is `Weapons.RangeVerdictIntended`.
`Weapons.RangeVerdictAgreesWhenNotBehind` shows where the two coincide. The
headings the launchers compare are never normalised in the code: manual
turning and `rotateToward` let them grow past ±π (game.js:1228-1231,
1415-1423). So the refused input is reachable in play.

=== FILE: arcade.dfy ===
/** sample.js, the arcade variant of the dogfight: one player with limited
    ammunition, five opponents and three allies with unlimited guns, and
    cooldown counters that gate every weapon.

    Trigonometry is supplied: `heading(angle)` is `(cos angle, sin angle)`,
    and the steering of the drones (turn toward a desired heading, thrust,
    friction, clamp) is a supplied `Flight`. Cone and alignment tests
    (`isInMissileCone`, `isAngleAligned`) arrive as booleans. */
module Arcade {
  import opened Geometry
  import opened Targeting

  // ------------------------------------------------------------- records

  datatype Ammo = Ammo(bullets: int, missiles: int)

  /** The player object. */
  datatype Ace = Ace(pos: Point, angle: real, vel: Point, health: int, ammo: Ammo,
                     bulletCooldown: int, missileCooldown: int, flareCooldown: int)

  datatype Mode = Aggressive | Defensive | Balanced

  /** An opponent or an ally. */
  datatype Drone = Drone(pos: Point, angle: real, vel: Point, health: int, mode: Mode,
                         bulletCooldown: int, missileCooldown: int)

  datatype Owner = ByPlayer | ByOpponent | ByAlly

  /** A bullet: it moves by its own velocity. */
  datatype Round = Round(pos: Point, vel: Point, owner: Owner, life: int)

  /** What a missile was launched at: the player, or an opponent by index. */
  datatype Mark = AtPlayer | AtOpponent(index: nat)

  datatype Rocket = Rocket(pos: Point, vel: Point, speed: real, target: Mark, owner: Owner, life: int)

  /** A flare. Its trail counter only paces cosmetic text and is not kept. */
  datatype Spark = Spark(pos: Point, vel: Point, life: int)

  datatype Arena = Arena(player: Ace, opps: seq<Drone>, allies: seq<Drone>,
                         rounds: seq<Round>, rockets: seq<Rocket>, sparks: seq<Spark>)

  const FULL_HEALTH: int := 100
  const START_BULLETS: int := 100
  const START_MISSILES: int := 5
  const OPPONENTS: nat := 5
  const ALLIES: nat := 3
  const ROUND_LIFE: int := 60
  const ROCKET_LIFE: int := 300
  const ROCKET_SPEED: real := 6.0
  const SPARK_LIFE: int := 120
  const LOCK_RANGE: real := 900.0
  const MUZZLE: real := 20.0

  const ORIGIN: Point := Point(0.0, 0.0)

  // ---------------------------------------------------------- initEntities

  /** A drone placed by three draws of `Math.random()`: x, y and heading. */
  function FreshDrone(draws: seq<real>, k: nat, mode: Mode): (d: Drone)
    requires 3 * k + 2 < |draws|
    ensures d.health == FULL_HEALTH && d.vel == ORIGIN && d.mode == mode
    ensures d.bulletCooldown == 0 && d.missileCooldown == 0
    ensures UnitRoll(draws[3 * k]) && UnitRoll(draws[3 * k + 1]) ==> InWorld(d.pos)
  {
    Drone(Point(draws[3 * k] * WORLD_WIDTH, draws[3 * k + 1] * WORLD_HEIGHT),
          draws[3 * k + 2] * PI * 2.0, ORIGIN, FULL_HEALTH, mode, 0, 0)
  }

  function OpponentMode(i: nat): Mode {
    if i % 2 == 0 then Aggressive else Defensive
  }

  /** `initEntities()`: every list emptied, the player reset to the centre
      with full health, ammunition {100, 5} and idle cooldowns, then five
      opponents (alternately aggressive and defensive) and three balanced
      allies, each placed by three draws. */
  function InitEntities(draws: seq<real>): (w: Arena)
    requires |draws| == 3 * (OPPONENTS + ALLIES)
    ensures w.rounds == [] && w.rockets == [] && w.sparks == []
    ensures w.player == Ace(Point(WORLD_WIDTH / 2.0, WORLD_HEIGHT / 2.0), 0.0, ORIGIN, FULL_HEALTH,
                            Ammo(START_BULLETS, START_MISSILES), 0, 0, 0)
    ensures |w.opps| == OPPONENTS && |w.allies| == ALLIES
    ensures forall i :: 0 <= i < |w.opps| ==>
      && w.opps[i].health == FULL_HEALTH && w.opps[i].vel == ORIGIN
      && w.opps[i].bulletCooldown == 0 && w.opps[i].missileCooldown == 0
      && w.opps[i].mode == (if i % 2 == 0 then Aggressive else Defensive)
    ensures forall i :: 0 <= i < |w.allies| ==>
      && w.allies[i].health == FULL_HEALTH && w.allies[i].vel == ORIGIN
      && w.allies[i].bulletCooldown == 0 && w.allies[i].missileCooldown == 0
      && w.allies[i].mode == Balanced
    ensures (forall k :: 0 <= k < |draws| ==> UnitRoll(draws[k])) ==>
      (forall i :: 0 <= i < |w.opps| ==> InWorld(w.opps[i].pos))
      && (forall i :: 0 <= i < |w.allies| ==> InWorld(w.allies[i].pos))
  {
    var opps := seq(OPPONENTS, i requires 0 <= i < OPPONENTS => FreshDrone(draws, i, OpponentMode(i)));
    var allies := seq(ALLIES, i requires 0 <= i < ALLIES => FreshDrone(draws, OPPONENTS + i, Balanced));
    assert forall i :: 0 <= i < ALLIES ==> allies[i] == FreshDrone(draws, OPPONENTS + i, Balanced);
    Arena(Ace(Point(WORLD_WIDTH / 2.0, WORLD_HEIGHT / 2.0), 0.0, ORIGIN, FULL_HEALTH,
              Ammo(START_BULLETS, START_MISSILES), 0, 0, 0),
          opps, allies, [], [], [])
  }

  // ----------------------------------------------------------- player gates

  /** A weapon decision and the cooldown it leaves. */
  datatype Gate = Gate(fired: bool, cooldown: int)

  /** The player's gate: fire when wanted and the cooldown is exactly 0,
      which sets it to `period`; then a positive cooldown drops by 1 in
      the same tick. */
  function PlayerGate(cd: int, period: int, want: bool): (g: Gate)
    ensures g.fired <==> want && cd == 0
    ensures 0 <= cd < period ==> 0 <= g.cooldown < period
  {
    var fired := want && cd == 0;
    var armed := if fired then period else cd;
    Gate(fired, if armed > 0 then armed - 1 else armed)
  }

  /** Whether each tick of a run fired, from cooldown `cd`: never on a
      tick the shot was not asked for, and on the first tick exactly when
      it was asked for and the cooldown is 0. */
  function GateRun(cd: int, period: int, wants: seq<bool>): (r: seq<bool>)
    ensures |r| == |wants|
    ensures forall k :: 0 <= k < |wants| && r[k] ==> wants[k]
    ensures |wants| > 0 ==> (r[0] <==> wants[0] && cd == 0)
    decreases |wants|
  {
    if |wants| == 0 then []
    else
      var g := PlayerGate(cd, period, wants[0]);
      [g.fired] + GateRun(g.cooldown, period, wants[1..])
  }

  /** The cooldown a player gate holds after a run, from cooldown `cd`. */
  function GateCooldownAfter(cd: int, period: int, wants: seq<bool>): int
    decreases |wants|
  {
    if |wants| == 0 then cd
    else GateCooldownAfter(PlayerGate(cd, period, wants[0]).cooldown, period, wants[1..])
  }

  /** Tick `k` of a run fires exactly when the shot is asked for and the
      cooldown carried over from the first `k` ticks is 0. */
  lemma {:induction false} GateRunTick(cd: int, period: int, wants: seq<bool>, k: nat)
    requires k < |wants|
    ensures GateRun(cd, period, wants)[k] <==> wants[k] && GateCooldownAfter(cd, period, wants[..k]) == 0
    decreases k
  {
    if k > 0 {
      var g := PlayerGate(cd, period, wants[0]);
      assert wants[..k][1..] == wants[1..][..k - 1];
      GateRunTick(g.cooldown, period, wants[1..], k - 1);
    }
  }

  /** A cooldown of `cd` keeps the gate shut for `cd` ticks whatever is asked. */
  lemma {:induction false} GateShut(cd: int, period: int, wants: seq<bool>, k: nat)
    requires k < |wants| && k < cd
    ensures !GateRun(cd, period, wants)[k]
    decreases k
  {
    if k > 0 {
      GateShut(cd - 1, period, wants[1..], k - 1);
    }
  }

  /** Two shots of the same player gate are at least `period` ticks apart. */
  lemma {:induction false} GateSpacing(cd: int, period: int, wants: seq<bool>, t: nat, u: nat)
    requires period >= 1 && t < u < |wants|
    requires GateRun(cd, period, wants)[t] && GateRun(cd, period, wants)[u]
    ensures u - t >= period
    decreases t
  {
    var g := PlayerGate(cd, period, wants[0]);
    if t == 0 {
      if u - 1 < period - 1 {
        GateShut(period - 1, period, wants[1..], u - 1);
      }
    } else {
      GateSpacing(g.cooldown, period, wants[1..], t - 1, u - 1);
    }
  }

  /** A gate that has been asked every tick fires again exactly `period`
      ticks after a shot. */
  lemma {:induction false} GateReopens(cd: int, period: int, n: nat)
    requires 0 <= cd <= n
    ensures GateRun(cd, period, seq(n + 1, _ => true))[cd]
    decreases cd
  {
    var wants := seq(n + 1, _ => true);
    if cd > 0 {
      assert wants[1..] == seq(n, _ => true);
      GateReopens(cd - 1, period, n - 1);
    }
  }

  // ----------------------------------------------------------- the player

  datatype Keys = Keys(left: bool, right: bool, thrust: bool, gun: bool, flare: bool, missile: bool)

  const PLAYER_TURN: real := 0.05
  const PLAYER_THRUST: real := 0.3
  const PLAYER_MAX_STEP: real := 5.0
  const FRICTION: real := 0.98
  const PLAYER_BULLET_SPEED: real := 10.0
  const GUN_PERIOD: int := 10
  const FLARE_PERIOD: int := 120
  const MISSILE_PERIOD: int := 60

  /** Turn, thrust, friction, a per-axis step of at most 5, then the clamp
      onto the world. */
  function PlayerMotion(a: Ace, keys: Keys, heading: real -> Point): (r: Ace)
    ensures r == a.(pos := r.pos, angle := r.angle, vel := r.vel)
    ensures InWorld(r.pos)
    ensures InWorld(a.pos) ==>
      Abs(r.pos.x - a.pos.x) <= PLAYER_MAX_STEP && Abs(r.pos.y - a.pos.y) <= PLAYER_MAX_STEP
    ensures r.angle == a.angle - (if keys.left then PLAYER_TURN else 0.0) + (if keys.right then PLAYER_TURN else 0.0)
  {
    var angle := a.angle - (if keys.left then PLAYER_TURN else 0.0) + (if keys.right then PLAYER_TURN else 0.0);
    var pushed := if keys.thrust then a.vel.Plus(heading(angle).Scale(PLAYER_THRUST)) else a.vel;
    var vel := pushed.Scale(FRICTION);
    var moved := Point(a.pos.x + Clamp(vel.x, -PLAYER_MAX_STEP, PLAYER_MAX_STEP),
                       a.pos.y + Clamp(vel.y, -PLAYER_MAX_STEP, PLAYER_MAX_STEP));
    a.(pos := ClampToWorld(moved), angle := angle, vel := vel)
  }

  /** `f` held: fire a bullet from 20 ahead at 10 plus the player's own
      velocity, when ammunition is left and the cooldown is exactly 0. */
  function PlayerGun(a: Ace, want: bool, dir: Point, rounds: seq<Round>): (r: (Ace, seq<Round>))
    ensures var (b, rs) := r;
      var fired := want && a.ammo.bullets > 0 && a.bulletCooldown == 0;
      && b == a.(ammo := b.ammo, bulletCooldown := b.bulletCooldown)
      && b.ammo == a.ammo.(bullets := a.ammo.bullets - if fired then 1 else 0)
      && (fired ==> rs == rounds + [Round(a.pos.Plus(dir.Scale(MUZZLE)),
                                         dir.Scale(PLAYER_BULLET_SPEED).Plus(a.vel), ByPlayer, ROUND_LIFE)])
      && (!fired ==> rs == rounds)
      && b.bulletCooldown == PlayerGate(a.bulletCooldown, GUN_PERIOD, want && a.ammo.bullets > 0).cooldown
  {
    var g := PlayerGate(a.bulletCooldown, GUN_PERIOD, want && a.ammo.bullets > 0);
    if g.fired then
      (a.(ammo := a.ammo.(bullets := a.ammo.bullets - 1), bulletCooldown := g.cooldown),
       rounds + [Round(a.pos.Plus(dir.Scale(MUZZLE)), dir.Scale(PLAYER_BULLET_SPEED).Plus(a.vel), ByPlayer, ROUND_LIFE)])
    else (a.(bulletCooldown := g.cooldown), rounds)
  }

  /** `h` held: one flare behind the player, life 120, when the flare
      cooldown is exactly 0. */
  function PlayerFlare(a: Ace, want: bool, dir: Point, sparks: seq<Spark>): (r: (Ace, seq<Spark>))
    ensures var (b, ss) := r;
      var fired := want && a.flareCooldown == 0;
      && b == a.(flareCooldown := PlayerGate(a.flareCooldown, FLARE_PERIOD, want).cooldown)
      && (fired ==> ss == sparks + [Spark(a.pos, dir.Scale(-2.0), SPARK_LIFE)])
      && (!fired ==> ss == sparks)
  {
    var g := PlayerGate(a.flareCooldown, FLARE_PERIOD, want);
    (a.(flareCooldown := g.cooldown),
     if g.fired then sparks + [Spark(a.pos, dir.Scale(-2.0), SPARK_LIFE)] else sparks)
  }

  /** The missile target: among the opponents in the cone, the first that
      is strictly nearer than the running best, which starts at 900. The
      cone test's own range check (at most 900) is implied by that bound. */
  function PlayerMissileTarget(from: Point, opps: seq<Drone>, cone: seq<bool>): (r: Option<nat>)
    requires |cone| == |opps|
    ensures IsFirstNearest(Spread(DronePositions(opps), from, cone), Cap(LOCK_RANGE * LOCK_RANGE), r)
    ensures r.Some? ==> r.value < |opps| && cone[r.value] && Within(from, opps[r.value].pos, LOCK_RANGE)
    ensures r.None? <==> forall k :: 0 <= k < |opps| && cone[k] ==> !Within(from, opps[k].pos, LOCK_RANGE)
  {
    var cs := Spread(DronePositions(opps), from, cone);
    var r := Nearest(cs, Cap(LOCK_RANGE * LOCK_RANGE));
    forall k | 0 <= k < |opps|
      ensures DistSq(opps[k].pos, from) == DistSq(from, opps[k].pos)
    {
      DistSqSymmetric(opps[k].pos, from);
    }
    r
  }

  function DronePositions(ds: seq<Drone>): (r: seq<Point>)
    ensures |r| == |ds| && forall i :: 0 <= i < |ds| ==> r[i] == ds[i].pos
  {
    seq(|ds|, i requires 0 <= i < |ds| => ds[i].pos)
  }

  /** `g` held: with ammunition left, the cooldown exactly 0 and a target,
      launch a missile at that target; otherwise nothing but the usual
      cooldown decrement happens. */
  function PlayerMissile(a: Ace, want: bool, dir: Point, opps: seq<Drone>, cone: seq<bool>,
                         rockets: seq<Rocket>): (r: (Ace, seq<Rocket>))
    requires |cone| == |opps|
    ensures var (b, rs) := r;
      var target := PlayerMissileTarget(a.pos, opps, cone);
      var fired := want && a.ammo.missiles > 0 && a.missileCooldown == 0 && target.Some?;
      && (fired ==> b == a.(ammo := a.ammo.(missiles := a.ammo.missiles - 1), missileCooldown := MISSILE_PERIOD - 1)
                    && rs == rockets + [Rocket(a.pos, dir.Scale(2.0).Plus(a.vel), ROCKET_SPEED,
                                               AtOpponent(target.value), ByPlayer, ROCKET_LIFE)])
      && (!fired ==> rs == rockets && b == a.(missileCooldown := if a.missileCooldown > 0 then a.missileCooldown - 1 else a.missileCooldown))
  {
    var target := PlayerMissileTarget(a.pos, opps, cone);
    var g := PlayerGate(a.missileCooldown, MISSILE_PERIOD, want && a.ammo.missiles > 0 && target.Some?);
    if g.fired then
      (a.(ammo := a.ammo.(missiles := a.ammo.missiles - 1), missileCooldown := g.cooldown),
       rockets + [Rocket(a.pos, dir.Scale(2.0).Plus(a.vel), ROCKET_SPEED, AtOpponent(target.value), ByPlayer, ROCKET_LIFE)])
    else (a.(missileCooldown := g.cooldown), rockets)
  }

  /** What `updatePlayer()` needs besides the arena: the keys held, the
      trigonometry, the cone flags of the moved player against each
      opponent, and the draws a reset would use. */
  datatype PlayerInput = PlayerInput(keys: Keys, cone: seq<bool>, draws: seq<real>)

  /** `updatePlayer()`: move, then the gun, flare and missile gates in that
      order; a player at health 0 or below resets the whole arena. */
  function UpdatePlayer(w: Arena, input: PlayerInput, heading: real -> Point): (r: Arena)
    requires |input.cone| == |w.opps| && |input.draws| == 3 * (OPPONENTS + ALLIES)
    ensures w.player.health <= 0 ==> r == InitEntities(input.draws)
    ensures w.player.health > 0 ==>
      && r.opps == w.opps && r.allies == w.allies
      && w.rounds <= r.rounds && |r.rounds| <= |w.rounds| + 1
      && w.sparks <= r.sparks && |r.sparks| <= |w.sparks| + 1
      && w.rockets <= r.rockets && |r.rockets| <= |w.rockets| + 1
      && r.player.health == w.player.health
      && InWorld(r.player.pos)
      && r.player.ammo.bullets == w.player.ammo.bullets - (|r.rounds| - |w.rounds|)
      && r.player.ammo.missiles == w.player.ammo.missiles - (|r.rockets| - |w.rockets|)
    ensures w.player.health > 0 ==>
      var a := w.player;
      var keys := input.keys;
      var dir := heading(r.player.angle);
      var target := PlayerMissileTarget(r.player.pos, w.opps, input.cone);
      var gun := keys.gun && a.ammo.bullets > 0 && a.bulletCooldown == 0;
      var flare := keys.flare && a.flareCooldown == 0;
      var missile := keys.missile && a.ammo.missiles > 0 && a.missileCooldown == 0 && target.Some?;
      && r.player == PlayerMotion(a, keys, heading).(ammo := r.player.ammo, bulletCooldown := r.player.bulletCooldown,
                                                     flareCooldown := r.player.flareCooldown,
                                                     missileCooldown := r.player.missileCooldown)
      && r.rounds == w.rounds + (if gun then [Round(r.player.pos.Plus(dir.Scale(MUZZLE)),
                                                    dir.Scale(PLAYER_BULLET_SPEED).Plus(r.player.vel),
                                                    ByPlayer, ROUND_LIFE)] else [])
      && r.sparks == w.sparks + (if flare then [Spark(r.player.pos, dir.Scale(-2.0), SPARK_LIFE)] else [])
      && r.rockets == w.rockets + (if missile then [Rocket(r.player.pos, dir.Scale(2.0).Plus(r.player.vel), ROCKET_SPEED,
                                                           AtOpponent(target.value), ByPlayer, ROCKET_LIFE)] else [])
      && r.player.bulletCooldown == PlayerGate(a.bulletCooldown, GUN_PERIOD, keys.gun && a.ammo.bullets > 0).cooldown
      && r.player.flareCooldown == PlayerGate(a.flareCooldown, FLARE_PERIOD, keys.flare).cooldown
      && r.player.missileCooldown ==
           PlayerGate(a.missileCooldown, MISSILE_PERIOD, keys.missile && a.ammo.missiles > 0 && target.Some?).cooldown
  {
    var moved := PlayerMotion(w.player, input.keys, heading);
    var dir := heading(moved.angle);
    var (a1, rounds) := PlayerGun(moved, input.keys.gun, dir, w.rounds);
    var (a2, sparks) := PlayerFlare(a1, input.keys.flare, dir, w.sparks);
    var (a3, rockets) := PlayerMissile(a2, input.keys.missile, dir, w.opps, input.cone, w.rockets);
    if a3.health <= 0 then InitEntities(input.draws)
    else Arena(a3, w.opps, w.allies, rounds, rockets, sparks)
  }

  /** The player's cooldowns stay in [0, period): each gate can always open
      again. */
  predicate AceValid(a: Ace) {
    && 0 <= a.bulletCooldown < GUN_PERIOD
    && 0 <= a.flareCooldown < FLARE_PERIOD
    && 0 <= a.missileCooldown < MISSILE_PERIOD
  }

  lemma UpdatePlayerKeepsValid(w: Arena, input: PlayerInput, heading: real -> Point)
    requires |input.cone| == |w.opps| && |input.draws| == 3 * (OPPONENTS + ALLIES)
    requires AceValid(w.player)
    ensures AceValid(UpdatePlayer(w, input, heading).player)
  {
  }

  // ------------------------------------------------------------ AI gates

  /** The drones' gate: fire when the cooldown is at most 0 and the shot
      is on; otherwise the cooldown drops by 1 with no floor. */
  function DroneGate(cd: int, period: int, on: bool): (g: Gate)
    ensures g.fired <==> cd <= 0 && on
    ensures g.cooldown == if g.fired then period else cd - 1
  {
    if cd <= 0 && on then Gate(true, period) else Gate(false, cd - 1)
  }

  /** Whether each tick of a drone gate's run fired, from cooldown `cd`:
      never on a tick the shot was off, and on the first tick exactly when
      it is on and the cooldown is at most 0. */
  function DroneRun(cd: int, period: int, ons: seq<bool>): (r: seq<bool>)
    ensures |r| == |ons|
    ensures forall k :: 0 <= k < |ons| && r[k] ==> ons[k]
    ensures |ons| > 0 ==> (r[0] <==> ons[0] && cd <= 0)
    decreases |ons|
  {
    if |ons| == 0 then []
    else
      var g := DroneGate(cd, period, ons[0]);
      [g.fired] + DroneRun(g.cooldown, period, ons[1..])
  }

  function DroneCooldownAfter(cd: int, period: int, ons: seq<bool>): int
    decreases |ons|
  {
    if |ons| == 0 then cd
    else DroneCooldownAfter(DroneGate(cd, period, ons[0]).cooldown, period, ons[1..])
  }

  /** Tick `k` of a drone run fires exactly when the shot is on and the
      cooldown carried over from the first `k` ticks is at most 0. */
  lemma {:induction false} DroneRunTick(cd: int, period: int, ons: seq<bool>, k: nat)
    requires k < |ons|
    ensures DroneRun(cd, period, ons)[k] <==> ons[k] && DroneCooldownAfter(cd, period, ons[..k]) <= 0
    decreases k
  {
    if k > 0 {
      var g := DroneGate(cd, period, ons[0]);
      assert ons[..k][1..] == ons[1..][..k - 1];
      DroneRunTick(g.cooldown, period, ons[1..], k - 1);
    }
  }

  /** While no shot is on, a drone's cooldown keeps falling below 0, so it
      fires on the first tick a shot is on again. */
  lemma {:induction false} DroneCooldownFalls(cd: int, period: int, ons: seq<bool>)
    requires forall k :: 0 <= k < |ons| ==> !ons[k]
    ensures DroneCooldownAfter(cd, period, ons) == cd - |ons|
    decreases |ons|
  {
    if |ons| > 0 {
      DroneCooldownFalls(cd - 1, period, ons[1..]);
    }
  }

  lemma {:induction false} DroneGateShut(cd: int, period: int, ons: seq<bool>, k: nat)
    requires k < |ons| && k < cd
    ensures !DroneRun(cd, period, ons)[k]
    decreases k
  {
    if k > 0 {
      DroneGateShut(cd - 1, period, ons[1..], k - 1);
    }
  }

  /** Two shots of a drone gate are at least `period + 1` ticks apart: the
      tick after a shot starts at the full period. */
  lemma {:induction false} DroneSpacing(cd: int, period: int, ons: seq<bool>, t: nat, u: nat)
    requires period >= 0 && t < u < |ons|
    requires DroneRun(cd, period, ons)[t] && DroneRun(cd, period, ons)[u]
    ensures u - t >= period + 1
    decreases t
  {
    var g := DroneGate(cd, period, ons[0]);
    if t == 0 {
      if u - 1 < period {
        DroneGateShut(period, period, ons[1..], u - 1);
      }
    } else {
      DroneSpacing(g.cooldown, period, ons[1..], t - 1, u - 1);
    }
  }

  // ------------------------------------------------------------- the drones

  const OPPONENT_GUN_PERIOD: int := 30
  const ALLY_GUN_PERIOD: int := 20
  const DRONE_MISSILE_PERIOD: int := 100
  const DRONE_BULLET_SPEED: real := 8.0
  const OPPONENT_GUN_RANGE: real := 600.0
  const ALLY_SCAN_RANGE: real := 700.0

  /** Where the steering step leaves a drone. */
  datatype Flight = Flight(pos: Point, vel: Point, angle: real)

  /** What one drone's tick draws on: its flight, the heading vector of its
      new angle, two draws for a respawn position, and the cone and
      alignment tests. For an opponent `inCone[0]` and `aligned[0]` are
      about the player; for an ally they are about each opponent. */
  datatype Sense = Sense(flight: Flight, dir: Point, spawnX: real, spawnY: real,
                         inCone: seq<bool>, aligned: seq<bool>)

  /** A drone after its tick, with the bullet and missile it fired, if any. */
  datatype Sortie = Sortie(drone: Drone, round: Option<Round>, rocket: Option<Rocket>)

  function Fly(d: Drone, f: Flight): Drone {
    d.(pos := f.pos, vel := f.vel, angle := f.angle)
  }

  /** The respawn at the end of a drone's tick: health 100, velocity 0, at
      a fresh position; a live drone is left alone. */
  function Revive(d: Drone, s: Sense): (r: Drone)
    ensures r.health > 0
    ensures d.health > 0 ==> r == d
    ensures d.health <= 0 ==> r == d.(pos := r.pos, vel := ORIGIN, health := FULL_HEALTH)
    ensures d.health <= 0 && UnitRoll(s.spawnX) && UnitRoll(s.spawnY) ==> InWorld(r.pos)
  {
    if d.health <= 0 then
      d.(pos := Point(s.spawnX * WORLD_WIDTH, s.spawnY * WORLD_HEIGHT), vel := ORIGIN, health := FULL_HEALTH)
    else d
  }

  /** One opponent of `updateOpponents()`: fly, shoot the player when
      within 600 and aligned, launch at the player when within 900 and in
      the cone, then respawn if down. A drone at health 0 still shoots in
      the tick it respawns. */
  function OpponentSortie(o: Drone, player: Point, s: Sense): (r: Sortie)
    requires |s.inCone| == 1 && |s.aligned| == 1
    ensures var d := Fly(o, s.flight);
      var gun := DroneGate(o.bulletCooldown, OPPONENT_GUN_PERIOD,
                           Within(d.pos, player, OPPONENT_GUN_RANGE) && s.aligned[0]);
      var missile := DroneGate(o.missileCooldown, DRONE_MISSILE_PERIOD,
                               Within(d.pos, player, LOCK_RANGE) && s.inCone[0]);
      && r.drone == Revive(d.(bulletCooldown := gun.cooldown, missileCooldown := missile.cooldown), s)
      && (r.round.Some? <==> gun.fired)
      && (r.round.Some? ==> r.round.value == Round(d.pos.Plus(s.dir.Scale(MUZZLE)),
                                                    s.dir.Scale(DRONE_BULLET_SPEED).Plus(d.vel), ByOpponent, ROUND_LIFE))
      && (r.rocket.Some? <==> missile.fired)
      && (r.rocket.Some? ==> r.rocket.value == Rocket(d.pos, s.dir.Scale(2.0).Plus(d.vel), ROCKET_SPEED,
                                                      AtPlayer, ByOpponent, ROCKET_LIFE))
  {
    var d := Fly(o, s.flight);
    var gun := DroneGate(o.bulletCooldown, OPPONENT_GUN_PERIOD, Within(d.pos, player, OPPONENT_GUN_RANGE) && s.aligned[0]);
    var missile := DroneGate(o.missileCooldown, DRONE_MISSILE_PERIOD, Within(d.pos, player, LOCK_RANGE) && s.inCone[0]);
    Sortie(Revive(d.(bulletCooldown := gun.cooldown, missileCooldown := missile.cooldown), s),
           if gun.fired then Some(Round(d.pos.Plus(s.dir.Scale(MUZZLE)), s.dir.Scale(DRONE_BULLET_SPEED).Plus(d.vel), ByOpponent, ROUND_LIFE)) else None,
           if missile.fired then Some(Rocket(d.pos, s.dir.Scale(2.0).Plus(d.vel), ROCKET_SPEED, AtPlayer, ByOpponent, ROCKET_LIFE)) else None)
  }

  /** An ally's target: among the opponents in its cone and within 700,
      the first of the nearest. */
  function AllyTarget(from: Point, opps: seq<Drone>, cone: seq<bool>): (r: Option<nat>)
    requires |cone| == |opps|
    ensures IsFirstNearest(Spread(DronePositions(opps), from, cone), Cap(ALLY_SCAN_RANGE * ALLY_SCAN_RANGE), r)
    ensures r.Some? ==> r.value < |opps| && cone[r.value]
  {
    Nearest(Spread(DronePositions(opps), from, cone), Cap(ALLY_SCAN_RANGE * ALLY_SCAN_RANGE))
  }

  /** One ally of `updateAllies()`: fly, pick a target, shoot it when
      aligned, launch at it, then respawn if down. The launch repeats the
      cone test the target already passed, so an ally launches whenever it
      has a target and its missile cooldown is at most 0. */
  function AllySortie(a: Drone, opps: seq<Drone>, s: Sense): (r: Sortie)
    requires |s.inCone| == |opps| && |s.aligned| == |opps|
    ensures var d := Fly(a, s.flight);
      var target := AllyTarget(d.pos, opps, s.inCone);
      && (r.round.Some? <==> target.Some? && d.bulletCooldown <= 0 && s.aligned[target.value])
      && (r.rocket.Some? <==> target.Some? && d.missileCooldown <= 0)
      && (r.round.Some? ==> r.round.value.owner == ByAlly)
      && (r.rocket.Some? ==> r.rocket.value.target == AtOpponent(target.value) && r.rocket.value.owner == ByAlly)
      && r.drone.bulletCooldown == (if r.round.Some? then ALLY_GUN_PERIOD else a.bulletCooldown - 1)
      && r.drone.missileCooldown == (if r.rocket.Some? then DRONE_MISSILE_PERIOD else a.missileCooldown - 1)
      && r.drone.health > 0
    ensures var d := Fly(a, s.flight);
      var target := AllyTarget(d.pos, opps, s.inCone);
      var gun := DroneGate(d.bulletCooldown, ALLY_GUN_PERIOD, target.Some? && s.aligned[target.value]);
      var missile := DroneGate(d.missileCooldown, DRONE_MISSILE_PERIOD, target.Some?);
      && r.drone == Revive(d.(bulletCooldown := gun.cooldown, missileCooldown := missile.cooldown), s)
      && (r.round.Some? ==> r.round.value == Round(d.pos.Plus(s.dir.Scale(MUZZLE)),
                                                    s.dir.Scale(DRONE_BULLET_SPEED).Plus(d.vel), ByAlly, ROUND_LIFE))
      && (r.rocket.Some? ==> r.rocket.value == Rocket(d.pos, s.dir.Scale(2.0).Plus(d.vel), ROCKET_SPEED,
                                                      AtOpponent(target.value), ByAlly, ROCKET_LIFE))
  {
    var d := Fly(a, s.flight);
    var target := AllyTarget(d.pos, opps, s.inCone);
    var gun := DroneGate(d.bulletCooldown, ALLY_GUN_PERIOD, target.Some? && s.aligned[target.value]);
    var missile := DroneGate(d.missileCooldown, DRONE_MISSILE_PERIOD, target.Some? && s.inCone[target.value]);
    Sortie(Revive(d.(bulletCooldown := gun.cooldown, missileCooldown := missile.cooldown), s),
           if gun.fired then Some(Round(d.pos.Plus(s.dir.Scale(MUZZLE)), s.dir.Scale(DRONE_BULLET_SPEED).Plus(d.vel), ByAlly, ROUND_LIFE)) else None,
           if missile.fired then Some(Rocket(d.pos, s.dir.Scale(2.0).Plus(d.vel), ROCKET_SPEED, AtOpponent(target.value), ByAlly, ROCKET_LIFE)) else None)
  }

  function Fired<T>(shot: Option<T>): seq<T> {
    if shot.Some? then [shot.value] else []
  }

  predicate IsSome<T>(o: Option<T>) { o.Some? }

  /** The values of the present entries of a list of options, in list
      order: one per present entry, and nothing else. */
  function Somes<T>(xs: seq<Option<T>>): (r: seq<T>)
    ensures |r| == CountWhere(xs, IsSome)
    ensures forall i :: 0 <= i < |xs| && xs[i].Some? ==> xs[i].value in r
    ensures forall x :: x in r ==> exists i :: 0 <= i < |xs| && xs[i] == Some(x)
    decreases |xs|
  {
    if |xs| == 0 then []
    else
      var rest := Somes(xs[1..]);
      assert forall i :: 1 <= i < |xs| ==> xs[i] == xs[1..][i - 1];
      Fired(xs[0]) + rest
  }

  /** The present values of one field of a list: none for the empty list,
      otherwise the first element's followed by the rest's. */
  lemma SomesOfEach<T, U>(xs: seq<T>, f: T -> Option<U>)
    ensures |xs| == 0 ==> Somes(Each(xs, f)) == []
    ensures |xs| > 0 ==> Somes(Each(xs, f)) == Fired(f(xs[0])) + Somes(Each(xs[1..], f))
  {
    if |xs| > 0 {
      assert Each(xs, f)[1..] == Each(xs[1..], f);
    }
  }

  /** One more pass of a roster loop pushes the next sortie's shot. */
  lemma PushedInOrder<T, U>(xs: seq<T>, f: T -> Option<U>, before: seq<U>, after: seq<U>)
    requires |xs| > 0
    requires after == before + Fired(f(xs[0])) + Somes(Each(xs[1..], f))
    ensures after == before + Somes(Each(xs, f))
  {
    calc {
      before + Somes(Each(xs, f));
      { SomesOfEach(xs, f); }
      before + (Fired(f(xs[0])) + Somes(Each(xs[1..], f)));
      before + Fired(f(xs[0])) + Somes(Each(xs[1..], f));
    }
  }

  /** What a roster loop's pushes add: at most one entry per element, each
      the present value of some element's field. */
  lemma PushedFrom<T, U>(xs: seq<T>, f: T -> Option<U>, before: seq<U>, after: seq<U>)
    requires after == before + Somes(Each(xs, f))
    ensures before <= after && |after| <= |before| + |xs|
    ensures forall j :: |before| <= j < |after| ==> exists i :: 0 <= i < |xs| && f(xs[i]) == Some(after[j])
    ensures forall i :: 0 <= i < |xs| && f(xs[i]).Some? ==> f(xs[i]).value in after[|before|..]
  {
    assert after[|before|..] == Somes(Each(xs, f));
    forall j | |before| <= j < |after|
      ensures exists i :: 0 <= i < |xs| && f(xs[i]) == Some(after[j])
    {
      assert after[j] in Somes(Each(xs, f));
    }
  }

  function SortieRound(s: Sortie): Option<Round> { s.round }
  function SortieRocket(s: Sortie): Option<Rocket> { s.rocket }

  /** A squadron after its loop: drones in order, and the shots they added. */
  datatype Flock = Flock(drones: seq<Drone>, rounds: seq<Round>, rockets: seq<Rocket>)

  /** The roster loop from the current lists: each drone's result in
      order, and each drone's round and missile, when it fired one, pushed
      onto the shared lists in roster order inside the loop. */
  function GatherFrom(sorties: seq<Sortie>, rounds: seq<Round>, rockets: seq<Rocket>): (r: Flock)
    ensures |r.drones| == |sorties| && forall i :: 0 <= i < |sorties| ==> r.drones[i] == sorties[i].drone
    ensures r.rounds == rounds + Somes(Each(sorties, SortieRound))
    ensures r.rockets == rockets + Somes(Each(sorties, SortieRocket))
    decreases |sorties|
  {
    if |sorties| == 0 then
      SomesOfEach(sorties, SortieRound);
      SomesOfEach(sorties, SortieRocket);
      Flock([], rounds, rockets)
    else
      var rest := GatherFrom(sorties[1..], rounds + Fired(sorties[0].round), rockets + Fired(sorties[0].rocket));
      PushedInOrder(sorties, SortieRound, rounds, rest.rounds);
      PushedInOrder(sorties, SortieRocket, rockets, rest.rockets);
      Flock([sorties[0].drone] + rest.drones, rest.rounds, rest.rockets)
  }

  /** A whole roster loop: the drones in order, the fired shots appended in
      roster order, at most one of each per drone, and nothing added that
      no drone fired. */
  function Gather(sorties: seq<Sortie>, rounds: seq<Round>, rockets: seq<Rocket>): (r: Flock)
    ensures |r.drones| == |sorties| && forall i :: 0 <= i < |sorties| ==> r.drones[i] == sorties[i].drone
    ensures r.rounds == rounds + Somes(Each(sorties, SortieRound))
    ensures r.rockets == rockets + Somes(Each(sorties, SortieRocket))
    ensures rounds <= r.rounds && rockets <= r.rockets
    ensures |r.rounds| <= |rounds| + |sorties| && |r.rockets| <= |rockets| + |sorties|
    ensures forall j :: |rounds| <= j < |r.rounds| ==>
      exists i :: 0 <= i < |sorties| && sorties[i].round == Some(r.rounds[j])
    ensures forall j :: |rockets| <= j < |r.rockets| ==>
      exists i :: 0 <= i < |sorties| && sorties[i].rocket == Some(r.rockets[j])
  {
    var r := GatherFrom(sorties, rounds, rockets);
    PushedFrom(sorties, SortieRound, rounds, r.rounds);
    PushedFrom(sorties, SortieRocket, rockets, r.rockets);
    r
  }

  /** Every opponent's sortie, in roster order. */
  function OpponentSorties(opps: seq<Drone>, player: Point, senses: seq<Sense>): (r: seq<Sortie>)
    requires |senses| == |opps|
    requires forall i :: 0 <= i < |senses| ==> |senses[i].inCone| == 1 && |senses[i].aligned| == 1
    ensures |r| == |opps| && forall i :: 0 <= i < |opps| ==> r[i] == OpponentSortie(opps[i], player, senses[i])
    ensures forall i :: 0 <= i < |r| && r[i].round.Some? ==> r[i].round.value.owner == ByOpponent
    ensures forall i :: 0 <= i < |r| && r[i].rocket.Some? ==>
      r[i].rocket.value.owner == ByOpponent && r[i].rocket.value.target == AtPlayer
  {
    seq(|opps|, i requires 0 <= i < |opps| => OpponentSortie(opps[i], player, senses[i]))
  }

  /** `updateOpponents()`: every opponent's tick in order, each pushing the
      round and the missile it fired, if any, in roster order. Afterwards
      every opponent is alive; a round or missile is added exactly when an
      opponent fired it, and all are opponent bullets and opponent missiles
      homing on the player. */
  function UpdateOpponents(opps: seq<Drone>, player: Point, senses: seq<Sense>,
                           rounds: seq<Round>, rockets: seq<Rocket>): (r: Flock)
    requires |senses| == |opps|
    requires forall i :: 0 <= i < |senses| ==> |senses[i].inCone| == 1 && |senses[i].aligned| == 1
    ensures |r.drones| == |opps|
    ensures forall i :: 0 <= i < |opps| ==> r.drones[i] == OpponentSortie(opps[i], player, senses[i]).drone
    ensures forall i :: 0 <= i < |opps| ==> r.drones[i].health > 0
    ensures r.rounds == rounds + Somes(Each(OpponentSorties(opps, player, senses), SortieRound))
    ensures r.rockets == rockets + Somes(Each(OpponentSorties(opps, player, senses), SortieRocket))
    ensures rounds <= r.rounds && rockets <= r.rockets
    ensures |r.rounds| <= |rounds| + |opps| && |r.rockets| <= |rockets| + |opps|
    ensures forall j :: |rounds| <= j < |r.rounds| ==> r.rounds[j].owner == ByOpponent
    ensures forall j :: |rockets| <= j < |r.rockets| ==>
      r.rockets[j].owner == ByOpponent && r.rockets[j].target == AtPlayer
  {
    Gather(OpponentSorties(opps, player, senses), rounds, rockets)
  }

  /** Every ally's sortie, in roster order. */
  function AllySorties(allies: seq<Drone>, opps: seq<Drone>, senses: seq<Sense>): (r: seq<Sortie>)
    requires |senses| == |allies|
    requires forall i :: 0 <= i < |senses| ==> |senses[i].inCone| == |opps| && |senses[i].aligned| == |opps|
    ensures |r| == |allies| && forall i :: 0 <= i < |allies| ==> r[i] == AllySortie(allies[i], opps, senses[i])
    ensures forall i :: 0 <= i < |r| && r[i].round.Some? ==> r[i].round.value.owner == ByAlly
    ensures forall i :: 0 <= i < |r| && r[i].rocket.Some? ==>
      r[i].rocket.value.owner == ByAlly && r[i].rocket.value.target.AtOpponent? && r[i].rocket.value.target.index < |opps|
  {
    seq(|allies|, i requires 0 <= i < |allies| => AllySortie(allies[i], opps, senses[i]))
  }

  /** `updateAllies()`: every ally's tick in order, each pushing the round
      and the missile it fired, if any, in roster order. */
  function UpdateAllies(allies: seq<Drone>, opps: seq<Drone>, senses: seq<Sense>,
                        rounds: seq<Round>, rockets: seq<Rocket>): (r: Flock)
    requires |senses| == |allies|
    requires forall i :: 0 <= i < |senses| ==> |senses[i].inCone| == |opps| && |senses[i].aligned| == |opps|
    ensures |r.drones| == |allies|
    ensures forall i :: 0 <= i < |allies| ==> r.drones[i] == AllySortie(allies[i], opps, senses[i]).drone
    ensures forall i :: 0 <= i < |allies| ==> r.drones[i].health > 0
    ensures r.rounds == rounds + Somes(Each(AllySorties(allies, opps, senses), SortieRound))
    ensures r.rockets == rockets + Somes(Each(AllySorties(allies, opps, senses), SortieRocket))
    ensures rounds <= r.rounds && rockets <= r.rockets
    ensures |r.rounds| <= |rounds| + |allies| && |r.rockets| <= |rockets| + |allies|
    ensures forall j :: |rounds| <= j < |r.rounds| ==> r.rounds[j].owner == ByAlly
    ensures forall j :: |rockets| <= j < |r.rockets| ==>
      r.rockets[j].owner == ByAlly && r.rockets[j].target.AtOpponent? && r.rockets[j].target.index < |opps|
  {
    Gather(AllySorties(allies, opps, senses), rounds, rockets)
  }

  /** An opponent's round reaches the shared list exactly when its sortie fired
      it: each fired round is among the added ones, and each added one was
      fired by some opponent. */
  lemma OpponentRoundsPushed(opps: seq<Drone>, player: Point, senses: seq<Sense>,
      rounds: seq<Round>, rockets: seq<Rocket>)
    requires |senses| == |opps|
    requires forall i :: 0 <= i < |senses| ==> |senses[i].inCone| == 1 && |senses[i].aligned| == 1
    ensures var r := UpdateOpponents(opps, player, senses, rounds, rockets);
      && (forall k :: 0 <= k < |opps| && OpponentSortie(opps[k], player, senses[k]).round.Some? ==>
            OpponentSortie(opps[k], player, senses[k]).round.value in r.rounds[|rounds|..])
      && (forall j :: |rounds| <= j < |r.rounds| ==>
            exists k :: 0 <= k < |opps| && OpponentSortie(opps[k], player, senses[k]).round == Some(r.rounds[j]))
  {
    var r := UpdateOpponents(opps, player, senses, rounds, rockets);
    var sorties := OpponentSorties(opps, player, senses);
    PushedFrom(sorties, SortieRound, rounds, r.rounds);
    forall k | 0 <= k < |opps| && OpponentSortie(opps[k], player, senses[k]).round.Some?
      ensures OpponentSortie(opps[k], player, senses[k]).round.value in r.rounds[|rounds|..]
    {
      assert SortieRound(sorties[k]).Some?;
    }
    forall j | |rounds| <= j < |r.rounds|
      ensures exists k :: 0 <= k < |opps| && OpponentSortie(opps[k], player, senses[k]).round == Some(r.rounds[j])
    {
      var k :| 0 <= k < |sorties| && SortieRound(sorties[k]) == Some(r.rounds[j]);
      assert OpponentSortie(opps[k], player, senses[k]).round == Some(r.rounds[j]);
    }
  }

  /** An opponent's missile reaches the shared list exactly when its sortie fired
      it: each fired missile is among the added ones, and each added one was
      fired by some opponent. */
  lemma OpponentRocketsPushed(opps: seq<Drone>, player: Point, senses: seq<Sense>,
      rounds: seq<Round>, rockets: seq<Rocket>)
    requires |senses| == |opps|
    requires forall i :: 0 <= i < |senses| ==> |senses[i].inCone| == 1 && |senses[i].aligned| == 1
    ensures var r := UpdateOpponents(opps, player, senses, rounds, rockets);
      && (forall k :: 0 <= k < |opps| && OpponentSortie(opps[k], player, senses[k]).rocket.Some? ==>
            OpponentSortie(opps[k], player, senses[k]).rocket.value in r.rockets[|rockets|..])
      && (forall j :: |rockets| <= j < |r.rockets| ==>
            exists k :: 0 <= k < |opps| && OpponentSortie(opps[k], player, senses[k]).rocket == Some(r.rockets[j]))
  {
    var r := UpdateOpponents(opps, player, senses, rounds, rockets);
    var sorties := OpponentSorties(opps, player, senses);
    PushedFrom(sorties, SortieRocket, rockets, r.rockets);
    forall k | 0 <= k < |opps| && OpponentSortie(opps[k], player, senses[k]).rocket.Some?
      ensures OpponentSortie(opps[k], player, senses[k]).rocket.value in r.rockets[|rockets|..]
    {
      assert SortieRocket(sorties[k]).Some?;
    }
    forall j | |rockets| <= j < |r.rockets|
      ensures exists k :: 0 <= k < |opps| && OpponentSortie(opps[k], player, senses[k]).rocket == Some(r.rockets[j])
    {
      var k :| 0 <= k < |sorties| && SortieRocket(sorties[k]) == Some(r.rockets[j]);
      assert OpponentSortie(opps[k], player, senses[k]).rocket == Some(r.rockets[j]);
    }
  }

  /** An ally's round reaches the shared list exactly when its sortie fired
      it: each fired round is among the added ones, and each added one was
      fired by some ally. */
  lemma AllyRoundsPushed(allies: seq<Drone>, opps: seq<Drone>, senses: seq<Sense>,
      rounds: seq<Round>, rockets: seq<Rocket>)
    requires |senses| == |allies|
    requires forall i :: 0 <= i < |senses| ==> |senses[i].inCone| == |opps| && |senses[i].aligned| == |opps|
    ensures var r := UpdateAllies(allies, opps, senses, rounds, rockets);
      && (forall k :: 0 <= k < |allies| && AllySortie(allies[k], opps, senses[k]).round.Some? ==>
            AllySortie(allies[k], opps, senses[k]).round.value in r.rounds[|rounds|..])
      && (forall j :: |rounds| <= j < |r.rounds| ==>
            exists k :: 0 <= k < |allies| && AllySortie(allies[k], opps, senses[k]).round == Some(r.rounds[j]))
  {
    var r := UpdateAllies(allies, opps, senses, rounds, rockets);
    var sorties := AllySorties(allies, opps, senses);
    PushedFrom(sorties, SortieRound, rounds, r.rounds);
    forall k | 0 <= k < |allies| && AllySortie(allies[k], opps, senses[k]).round.Some?
      ensures AllySortie(allies[k], opps, senses[k]).round.value in r.rounds[|rounds|..]
    {
      assert SortieRound(sorties[k]).Some?;
    }
    forall j | |rounds| <= j < |r.rounds|
      ensures exists k :: 0 <= k < |allies| && AllySortie(allies[k], opps, senses[k]).round == Some(r.rounds[j])
    {
      var k :| 0 <= k < |sorties| && SortieRound(sorties[k]) == Some(r.rounds[j]);
      assert AllySortie(allies[k], opps, senses[k]).round == Some(r.rounds[j]);
    }
  }

  /** An ally's missile reaches the shared list exactly when its sortie fired
      it: each fired missile is among the added ones, and each added one was
      fired by some ally. */
  lemma AllyRocketsPushed(allies: seq<Drone>, opps: seq<Drone>, senses: seq<Sense>,
      rounds: seq<Round>, rockets: seq<Rocket>)
    requires |senses| == |allies|
    requires forall i :: 0 <= i < |senses| ==> |senses[i].inCone| == |opps| && |senses[i].aligned| == |opps|
    ensures var r := UpdateAllies(allies, opps, senses, rounds, rockets);
      && (forall k :: 0 <= k < |allies| && AllySortie(allies[k], opps, senses[k]).rocket.Some? ==>
            AllySortie(allies[k], opps, senses[k]).rocket.value in r.rockets[|rockets|..])
      && (forall j :: |rockets| <= j < |r.rockets| ==>
            exists k :: 0 <= k < |allies| && AllySortie(allies[k], opps, senses[k]).rocket == Some(r.rockets[j]))
  {
    var r := UpdateAllies(allies, opps, senses, rounds, rockets);
    var sorties := AllySorties(allies, opps, senses);
    PushedFrom(sorties, SortieRocket, rockets, r.rockets);
    forall k | 0 <= k < |allies| && AllySortie(allies[k], opps, senses[k]).rocket.Some?
      ensures AllySortie(allies[k], opps, senses[k]).rocket.value in r.rockets[|rockets|..]
    {
      assert SortieRocket(sorties[k]).Some?;
    }
    forall j | |rockets| <= j < |r.rockets|
      ensures exists k :: 0 <= k < |allies| && AllySortie(allies[k], opps, senses[k]).rocket == Some(r.rockets[j])
    {
      var k :| 0 <= k < |sorties| && SortieRocket(sorties[k]) == Some(r.rockets[j]);
      assert AllySortie(allies[k], opps, senses[k]).rocket == Some(r.rockets[j]);
    }
  }
}

=== FILE: arcade_shots.dfy ===
/** The projectile passes of sample.js: `updateBullets`, `updateMissiles`
    and `updateFlares`. Every pass walks its list from the back and
    splices out what is spent; out-of-world and expired projectiles are
    removed before any hit test, and hits deal a fixed amount of damage
    with no clamp. */
module ArcadeShots {
  import opened Geometry
  import opened Targeting
  import opened Splicing
  import opened Arcade

  const ROUND_HIT_RADIUS: real := 20.0
  const ROUND_DAMAGE: int := 20
  const ROCKET_HIT_RADIUS: real := 25.0
  const ROCKET_DAMAGE: int := 50
  const DECOY_RADIUS: real := 150.0
  const DECOY_CHANCE: real := 0.2

  /** Occurrences of `Some(k)` among the hits: how many projectiles struck
      target `k`. */
  function Tally(hits: seq<Option<nat>>, k: nat): nat {
    multiset(hits)[Some(k)]
  }

  /** The drones after a pass: each loses `dmg` per hit naming it. The
      subtractions commute, so the loop's order does not matter. */
  function Hurt(ds: seq<Drone>, hits: seq<Option<nat>>, dmg: int): (r: seq<Drone>)
    ensures |r| == |ds|
    ensures forall k :: 0 <= k < |ds| ==> r[k] == ds[k].(health := ds[k].health - dmg * Tally(hits, k))
  {
    seq(|ds|, k requires 0 <= k < |ds| => ds[k].(health := ds[k].health - dmg * Tally(hits, k)))
  }

  /** `b.life <= 0 || b.x < 0 || b.x > WORLD_WIDTH || ...` after the move. */
  predicate Gone(pos: Point, life: int) {
    life <= 0 || !InWorld(pos)
  }

  // ------------------------------------------------------------- bullets

  /** A bullet's visit: where it ended, whether it was removed before the hit
      test, the opponent it struck, whether it struck the player, the ally it
      struck, and how many times it was spliced. */
  datatype Strike = Strike(round: Round, gone: bool, opp: Option<nat>, player: bool,
                           ally: Option<nat>, splices: nat)

  /** One visit of `updateBullets()` as sample.js writes it. A bullet of the
      player or an ally strikes the first opponent within 20. An opponent
      bullet within 20 of the player strikes the player, and then the
      allies are still tested: it also strikes the first ally within 20, and
      each strike splices it once more. */
  function RoundVisit(b: Round, player: Point, opps: seq<Drone>, allies: seq<Drone>): (s: Strike)
    ensures s.round == b.(pos := b.pos.Plus(b.vel), life := b.life - 1)
    ensures s.gone <==> Gone(s.round.pos, s.round.life)
    ensures s.gone ==> s.opp.None? && !s.player && s.ally.None? && s.splices == 1
    ensures !s.gone && b.owner != ByOpponent ==>
      && s.opp == FirstWithin(DronePositions(opps), s.round.pos, ROUND_HIT_RADIUS)
      && !s.player && s.ally.None?
      && s.splices == (if s.opp.Some? then 1 else 0)
    ensures !s.gone && b.owner == ByOpponent ==>
      && s.opp.None?
      && (s.player <==> Within(player, s.round.pos, ROUND_HIT_RADIUS))
      && s.ally == FirstWithin(DronePositions(allies), s.round.pos, ROUND_HIT_RADIUS)
      && s.splices == (if s.player then 1 else 0) + (if s.ally.Some? then 1 else 0)
  {
    var moved := b.(pos := b.pos.Plus(b.vel), life := b.life - 1);
    if Gone(moved.pos, moved.life) then Strike(moved, true, None, false, None, 1)
    else if b.owner != ByOpponent then
      var hit := FirstWithin(DronePositions(opps), moved.pos, ROUND_HIT_RADIUS);
      Strike(moved, false, hit, false, None, if hit.Some? then 1 else 0)
    else
      var onPlayer := Within(player, moved.pos, ROUND_HIT_RADIUS);
      var hit := FirstWithin(DronePositions(allies), moved.pos, ROUND_HIT_RADIUS);
      Strike(moved, false, None, onPlayer, hit, (if onPlayer then 1 else 0) + (if hit.Some? then 1 else 0))
  }

  /** The intended visit: an opponent bullet stops at its first target, the
      player first and then the allies in order, as game.js's
      `updateOpponentBullets` does; every bullet is spliced at most once. */
  function RoundVisitOnce(b: Round, player: Point, opps: seq<Drone>, allies: seq<Drone>): (s: Strike)
    ensures s.splices <= 1
    ensures s.splices == 0 <==> !s.gone && s.opp.None? && !s.player && s.ally.None?
    ensures !(s.player && s.ally.Some?)
    ensures var v := RoundVisit(b, player, opps, allies);
      && s.round == v.round && s.gone == v.gone && s.opp == v.opp && s.player == v.player
      && (!v.player ==> s == v)
  {
    var v := RoundVisit(b, player, opps, allies);
    if v.player then v.(ally := None, splices := 1) else v
  }

  datatype Volley = Volley(rounds: seq<Round>, player: Ace, opps: seq<Drone>, allies: seq<Drone>)

  function Visits(rs: seq<Round>, player: Point, opps: seq<Drone>, allies: seq<Drone>, once: bool): (vs: seq<Strike>)
    ensures |vs| == |rs|
    ensures forall i :: 0 <= i < |rs| ==>
      vs[i] == if once then RoundVisitOnce(rs[i], player, opps, allies) else RoundVisit(rs[i], player, opps, allies)
  {
    seq(|rs|, i requires 0 <= i < |rs| =>
      if once then RoundVisitOnce(rs[i], player, opps, allies) else RoundVisit(rs[i], player, opps, allies))
  }

  function StrikeRound(v: Strike): Round { v.round }
  function StrikeSplices(v: Strike): nat { v.splices }
  function StrikeOpp(v: Strike): Option<nat> { v.opp }
  function StrikeAlly(v: Strike): Option<nat> { v.ally }
  function StrikePlayer(v: Strike): bool { v.player }

  function Moved(vs: seq<Strike>): seq<Round> { Each(vs, StrikeRound) }
  function Counts(vs: seq<Strike>): seq<nat> { Each(vs, StrikeSplices) }
  function OppHits(vs: seq<Strike>): seq<Option<nat>> { Each(vs, StrikeOpp) }
  function AllyHits(vs: seq<Strike>): seq<Option<nat>> { Each(vs, StrikeAlly) }

  /** How many of the visits struck the player. */
  function PlayerHits(vs: seq<Strike>): nat { CountWhere(vs, StrikePlayer) }

  /** The pass built from visits: the splice loop over their counts, and
      20 damage per strike. */
  function Resolve(vs: seq<Strike>, player: Ace, opps: seq<Drone>, allies: seq<Drone>): (r: Volley)
    ensures r.player == player.(health := player.health - ROUND_DAMAGE * PlayerHits(vs))
    ensures r.opps == Hurt(opps, OppHits(vs), ROUND_DAMAGE)
    ensures r.allies == Hurt(allies, AllyHits(vs), ROUND_DAMAGE)
    ensures SingleSplices(Counts(vs)) ==> r.rounds == Keep(Moved(vs), Counts(vs))
  {
    assert SingleSplices(Counts(vs)) ==> SpliceLoop(Moved(vs), Counts(vs), |vs|) == Keep(Moved(vs), Counts(vs)) by {
      if SingleSplices(Counts(vs)) {
        SpliceLoopKeeps(Moved(vs), Counts(vs));
      }
    }
    Volley(SpliceLoop(Moved(vs), Counts(vs), |vs|),
           player.(health := player.health - ROUND_DAMAGE * PlayerHits(vs)),
           Hurt(opps, OppHits(vs), ROUND_DAMAGE), Hurt(allies, AllyHits(vs), ROUND_DAMAGE))
  }

  /** `updateBullets()` as sample.js writes it. */
  function UpdateRoundsAsWritten(rs: seq<Round>, player: Ace, opps: seq<Drone>, allies: seq<Drone>): (r: Volley)
    ensures var vs := Visits(rs, player.pos, opps, allies, false);
      && r.player == player.(health := player.health - ROUND_DAMAGE * PlayerHits(vs))
      && r.opps == Hurt(opps, OppHits(vs), ROUND_DAMAGE)
      && r.allies == Hurt(allies, AllyHits(vs), ROUND_DAMAGE)
      && (SingleSplices(Counts(vs)) ==> r.rounds == Keep(Moved(vs), Counts(vs)))
  {
    Resolve(Visits(rs, player.pos, opps, allies, false), player, opps, allies)
  }

  /** `updateBullets()` as intended: the bullets that were neither removed
      nor struck anything survive, in order and each with life left inside
      the world; every strike costs its one target 20. */
  function UpdateRounds(rs: seq<Round>, player: Ace, opps: seq<Drone>, allies: seq<Drone>): (r: Volley)
    ensures var vs := Visits(rs, player.pos, opps, allies, true);
      && r.rounds == Keep(Moved(vs), Counts(vs))
      && r.player == player.(health := player.health - ROUND_DAMAGE * PlayerHits(vs))
      && r.opps == Hurt(opps, OppHits(vs), ROUND_DAMAGE)
      && r.allies == Hurt(allies, AllyHits(vs), ROUND_DAMAGE)
    ensures forall b :: b in r.rounds ==> b.life > 0 && InWorld(b.pos)
  {
    var vs := Visits(rs, player.pos, opps, allies, true);
    var r := Resolve(vs, player, opps, allies);
    forall b | b in r.rounds
      ensures b.life > 0 && InWorld(b.pos)
    {
      KeepOnlyUnspent(Moved(vs), Counts(vs), b);
    }
    r
  }

  /** When no opponent bullet is within 20 of the player, the code as
      written does what is intended. */
  lemma RoundsAsWrittenAgree(rs: seq<Round>, player: Ace, opps: seq<Drone>, allies: seq<Drone>)
    requires forall i :: 0 <= i < |rs| ==> !RoundVisit(rs[i], player.pos, opps, allies).player
    ensures UpdateRoundsAsWritten(rs, player, opps, allies) == UpdateRounds(rs, player, opps, allies)
  {
    assert Visits(rs, player.pos, opps, allies, true) == Visits(rs, player.pos, opps, allies, false);
  }

  // The counterexample: the player at (100, 100), one ally at (110, 100),
  // and three opponent bullets; the middle one reaches (105, 100), within
  // 20 of both.
  const CROSS_PLAYER: Ace := Ace(Point(100.0, 100.0), 0.0, ORIGIN, FULL_HEALTH, Ammo(100, 5), 0, 0, 0)
  const CROSS_ALLY: Drone := Drone(Point(110.0, 100.0), 0.0, ORIGIN, FULL_HEALTH, Balanced, 0, 0)
  const CROSS_ROUNDS: seq<Round> := [
    Round(Point(1000.0, 1000.0), Point(5.0, 0.0), ByOpponent, 10),
    Round(Point(100.0, 100.0), Point(5.0, 0.0), ByOpponent, 10),
    Round(Point(2000.0, 2000.0), Point(5.0, 0.0), ByOpponent, 10)]

  /** An opponent bullet, alive and in the world after its move, that ends
      within 20 of neither the player nor a lone ally is not spliced. */
  lemma OpponentRoundMisses(b: Round, player: Point, a: Drone)
    requires b.owner == ByOpponent && b.life > 1 && InWorld(b.pos.Plus(b.vel))
    requires !Within(player, b.pos.Plus(b.vel), ROUND_HIT_RADIUS)
    requires !Within(a.pos, b.pos.Plus(b.vel), ROUND_HIT_RADIUS)
    ensures RoundVisit(b, player, [], [a]).splices == 0
  {
    assert DronePositions([a]) == [a.pos];
  }

  lemma LonePosition(a: Drone)
    ensures DronePositions([a]) == [a.pos]
  {
  }

  lemma WithinLone(q: Point, p: Point, radius: real)
    requires Within(q, p, radius)
    ensures FirstWithin([q], p, radius) == Some(0)
  {
  }

  /** The middle bullet lands at (105, 100), 5 from the player and 5 from the ally. */
  lemma CrossLanding()
    ensures InWorld(CROSS_ROUNDS[1].pos.Plus(CROSS_ROUNDS[1].vel))
    ensures Within(CROSS_PLAYER.pos, CROSS_ROUNDS[1].pos.Plus(CROSS_ROUNDS[1].vel), ROUND_HIT_RADIUS)
    ensures Within(CROSS_ALLY.pos, CROSS_ROUNDS[1].pos.Plus(CROSS_ROUNDS[1].vel), ROUND_HIT_RADIUS)
  {
    var p := CROSS_ROUNDS[1].pos.Plus(CROSS_ROUNDS[1].vel);
    assert p.x - CROSS_PLAYER.pos.x == 5.0 && p.y - CROSS_PLAYER.pos.y == 0.0;
    assert p.x - CROSS_ALLY.pos.x == -5.0 && p.y - CROSS_ALLY.pos.y == 0.0;
    assert Sq(5.0) == 25.0 && Sq(-5.0) == 25.0 && Sq(0.0) == 0.0;
  }

  lemma CrossVisit0()
    ensures RoundVisit(CROSS_ROUNDS[0], CROSS_PLAYER.pos, [], [CROSS_ALLY]).splices == 0
  {
    var b := CROSS_ROUNDS[0];
    var p := Point(1005.0, 1000.0);
    assert b.pos.Plus(b.vel) == p;
    assert !Within(CROSS_ALLY.pos, p, ROUND_HIT_RADIUS);
    assert !Within(CROSS_PLAYER.pos, p, ROUND_HIT_RADIUS);
    OpponentRoundMisses(b, CROSS_PLAYER.pos, CROSS_ALLY);
  }

  lemma CrossStrikesPlayer()
    ensures !RoundVisit(CROSS_ROUNDS[1], CROSS_PLAYER.pos, [], [CROSS_ALLY]).gone
    ensures RoundVisit(CROSS_ROUNDS[1], CROSS_PLAYER.pos, [], [CROSS_ALLY]).player
  {
    var s := RoundVisit(CROSS_ROUNDS[1], CROSS_PLAYER.pos, [], [CROSS_ALLY]);
    CrossLanding();
    assert !s.gone;
  }

  lemma CrossStrikesAlly()
    ensures RoundVisit(CROSS_ROUNDS[1], CROSS_PLAYER.pos, [], [CROSS_ALLY]).ally.Some?
  {
    var s := RoundVisit(CROSS_ROUNDS[1], CROSS_PLAYER.pos, [], [CROSS_ALLY]);
    CrossLanding();
    assert !s.gone;
    LonePosition(CROSS_ALLY);
    WithinLone(CROSS_ALLY.pos, s.round.pos, ROUND_HIT_RADIUS);
  }

  lemma CrossVisit1()
    ensures RoundVisit(CROSS_ROUNDS[1], CROSS_PLAYER.pos, [], [CROSS_ALLY]).player
    ensures RoundVisit(CROSS_ROUNDS[1], CROSS_PLAYER.pos, [], [CROSS_ALLY]).splices == 2
  {
    CrossStrikesPlayer();
    CrossStrikesAlly();
  }

  lemma CrossVisit2()
    ensures RoundVisit(CROSS_ROUNDS[2], CROSS_PLAYER.pos, [], [CROSS_ALLY]).splices == 0
  {
    var b := CROSS_ROUNDS[2];
    var p := Point(2005.0, 2000.0);
    assert b.pos.Plus(b.vel) == p;
    assert !Within(CROSS_ALLY.pos, p, ROUND_HIT_RADIUS);
    assert !Within(CROSS_PLAYER.pos, p, ROUND_HIT_RADIUS);
    OpponentRoundMisses(b, CROSS_PLAYER.pos, CROSS_ALLY);
  }

  lemma CrossRow()
    ensures |CROSS_ROUNDS| == 3
    ensures RoundVisit(CROSS_ROUNDS[0], CROSS_PLAYER.pos, [], [CROSS_ALLY]).splices == 0
    ensures RoundVisit(CROSS_ROUNDS[1], CROSS_PLAYER.pos, [], [CROSS_ALLY]).player
    ensures RoundVisit(CROSS_ROUNDS[1], CROSS_PLAYER.pos, [], [CROSS_ALLY]).splices == 2
    ensures RoundVisit(CROSS_ROUNDS[2], CROSS_PLAYER.pos, [], [CROSS_ALLY]).splices == 0
  {
    CrossVisit0();
    CrossVisit1();
    CrossVisit2();
  }

  /** Three bullets of which only the middle one strikes the player and an
      ally: the code as written keeps one bullet where two should survive. */
  lemma MiddleStrikesTwice(rs: seq<Round>, player: Ace, allies: seq<Drone>)
    requires |rs| == 3
    requires RoundVisit(rs[0], player.pos, [], allies).splices == 0
    requires RoundVisit(rs[1], player.pos, [], allies).player
    requires RoundVisit(rs[1], player.pos, [], allies).splices == 2
    requires RoundVisit(rs[2], player.pos, [], allies).splices == 0
    ensures |UpdateRoundsAsWritten(rs, player, [], allies).rounds| == 1
    ensures |UpdateRounds(rs, player, [], allies).rounds| == 2
  {
    var vs := Visits(rs, player.pos, [], allies, false);
    var ws := Visits(rs, player.pos, [], allies, true);
    assert Counts(vs) == [0, 2, 0];
    assert Counts(ws) == [0, 1, 0];
    var moved := Moved(vs);
    assert moved == [moved[0], moved[1], moved[2]];
    DoubleSpliceDropsNeighbour(moved[0], moved[1], moved[2]);
  }

  /** An opponent bullet that reaches both the player and an ally in the
      same tick: as written, it loses the neighbouring bullet, which was
      never spent; the intended pass keeps it. */
  lemma OpponentBulletDoubleSplice()
    ensures |UpdateRoundsAsWritten(CROSS_ROUNDS, CROSS_PLAYER, [], [CROSS_ALLY]).rounds| == 1
    ensures |UpdateRounds(CROSS_ROUNDS, CROSS_PLAYER, [], [CROSS_ALLY]).rounds| == 2
  {
    CrossRow();
    MiddleStrikesTwice(CROSS_ROUNDS, CROSS_PLAYER, [CROSS_ALLY]);
  }

  // ------------------------------------------------------------- missiles

  /** Flare `k` diverts a rocket at `at` when it is within 150 and its draw
      is under 0.2. */
  predicate Decoys(at: Point, sparks: seq<Spark>, rolls: seq<real>, k: nat)
    requires |rolls| == |sparks| && k < |sparks|
  {
    Within(at, sparks[k].pos, DECOY_RADIUS) && rolls[k] < DECOY_CHANCE
  }

  /** The flare loop of `updateMissiles()` from index `i` on: the first
      diverting flare, since the loop breaks on it. */
  function FirstDecoy(at: Point, sparks: seq<Spark>, rolls: seq<real>, i: nat): (r: Option<nat>)
    requires |rolls| == |sparks|
    ensures r.Some? ==>
      && i <= r.value < |sparks| && Decoys(at, sparks, rolls, r.value)
      && forall j :: i <= j < r.value ==> !Decoys(at, sparks, rolls, j)
    ensures r.None? ==> forall j :: i <= j < |sparks| ==> !Decoys(at, sparks, rolls, j)
    decreases |sparks| - i
  {
    if i >= |sparks| then None
    else if Decoys(at, sparks, rolls, i) then Some(i)
    else FirstDecoy(at, sparks, rolls, i + 1)
  }

  /** The rocket's aim this tick: the first flare in list order within 150
      whose draw is under 0.2; failing that, the player for a rocket aimed
      at the player, or the opponent it was launched at, if that still
      exists. */
  function AimPoint(m: Rocket, player: Point, opps: seq<Drone>, sparks: seq<Spark>, rolls: seq<real>): (r: Option<Point>)
    requires |rolls| == |sparks|
    ensures (exists k :: 0 <= k < |sparks| && Decoys(m.pos, sparks, rolls, k)) ==>
      exists j :: && 0 <= j < |sparks| && Decoys(m.pos, sparks, rolls, j)
                  && (forall i :: 0 <= i < j ==> !Decoys(m.pos, sparks, rolls, i))
                  && r == Some(sparks[j].pos)
    ensures (forall k :: 0 <= k < |sparks| ==> !Decoys(m.pos, sparks, rolls, k)) ==>
      && (m.target == AtPlayer ==> r == Some(player))
      && (m.target.AtOpponent? && m.target.index < |opps| ==> r == Some(opps[m.target.index].pos))
      && (m.target.AtOpponent? && m.target.index >= |opps| ==> r == None)
  {
    match FirstDecoy(m.pos, sparks, rolls, 0)
    case Some(k) => Some(sparks[k].pos)
    case None =>
      match m.target
      case AtPlayer => Some(player)
      case AtOpponent(k) => if k < |opps| then Some(opps[k].pos) else None
  }

  /** A missile's visit: where it ended, whether it was removed before the
      hit test, and what it struck. */
  datatype Blast = Blast(rocket: Rocket, gone: bool, opp: Option<nat>, player: bool)

  /** One visit of `updateMissiles()`: steer toward the aim at the rocket's
      speed (the velocity is supplied by `course`), move, age; removed when
      expired or outside the world; otherwise a player or ally missile
      strikes the opponent it was launched at when within 25 of it, and an
      opponent missile strikes the player when within 25. A flare only
      bends the course: it never absorbs a missile. */
  function RocketVisit(m: Rocket, player: Point, opps: seq<Drone>, sparks: seq<Spark>, rolls: seq<real>,
                       course: (Rocket, Point) -> Point): (s: Blast)
    requires |rolls| == |sparks|
    ensures s.gone <==> Gone(s.rocket.pos, s.rocket.life)
    ensures s.rocket.life == m.life - 1 && s.rocket.target == m.target && s.rocket.owner == m.owner
    ensures s.gone ==> s.opp.None? && !s.player
    ensures s.opp.Some? ==>
      && m.owner != ByOpponent && m.target == AtOpponent(s.opp.value) && s.opp.value < |opps|
      && Within(s.rocket.pos, opps[s.opp.value].pos, ROCKET_HIT_RADIUS)
    ensures s.player ==> m.owner == ByOpponent && Within(s.rocket.pos, player, ROCKET_HIT_RADIUS)
    ensures (!s.gone && m.owner != ByOpponent && m.target.AtOpponent? && m.target.index < |opps|
             && Within(s.rocket.pos, opps[m.target.index].pos, ROCKET_HIT_RADIUS)) ==> s.opp.Some?
    ensures !s.gone && m.owner == ByOpponent && Within(s.rocket.pos, player, ROCKET_HIT_RADIUS) ==> s.player
  {
    var aim := AimPoint(m, player, opps, sparks, rolls);
    var vel := if aim.Some? then course(m, aim.value) else m.vel;
    var moved := m.(pos := m.pos.Plus(vel), vel := vel, life := m.life - 1);
    if Gone(moved.pos, moved.life) then Blast(moved, true, None, false)
    else if m.owner != ByOpponent && m.target.AtOpponent? && m.target.index < |opps|
            && Within(moved.pos, opps[m.target.index].pos, ROCKET_HIT_RADIUS) then
      Blast(moved, false, Some(m.target.index), false)
    else if m.owner == ByOpponent && Within(moved.pos, player, ROCKET_HIT_RADIUS) then
      Blast(moved, false, None, true)
    else Blast(moved, false, None, false)
  }

  /** What `updateMissiles()` draws on: one draw per flare for each
      missile, and the steering. */
  datatype Guidance = Guidance(rolls: seq<seq<real>>, course: (Rocket, Point) -> Point)

  function Blasts(ms: seq<Rocket>, player: Point, opps: seq<Drone>, sparks: seq<Spark>, g: Guidance): (bs: seq<Blast>)
    requires |g.rolls| == |ms| && forall i :: 0 <= i < |ms| ==> |g.rolls[i]| == |sparks|
    ensures |bs| == |ms|
    ensures forall i :: 0 <= i < |ms| ==> bs[i] == RocketVisit(ms[i], player, opps, sparks, g.rolls[i], g.course)
  {
    seq(|ms|, i requires 0 <= i < |ms| => RocketVisit(ms[i], player, opps, sparks, g.rolls[i], g.course))
  }

  function Spent(bs: seq<Blast>): (r: seq<nat>)
    ensures |r| == |bs| && SingleSplices(r)
    ensures forall i :: 0 <= i < |bs| ==> (r[i] == 0 <==> !bs[i].gone && bs[i].opp.None? && !bs[i].player)
  {
    seq(|bs|, i requires 0 <= i < |bs| => if bs[i].gone || bs[i].opp.Some? || bs[i].player then 1 else 0)
  }

  function BlastRocket(b: Blast): Rocket { b.rocket }
  function BlastOpp(b: Blast): Option<nat> { b.opp }
  function BlastPlayer(b: Blast): bool { b.player }

  function Flown(bs: seq<Blast>): seq<Rocket> { Each(bs, BlastRocket) }
  function BlastHits(bs: seq<Blast>): seq<Option<nat>> { Each(bs, BlastOpp) }

  /** How many of the missiles reached the player. */
  function PlayerBlasts(bs: seq<Blast>): nat { CountWhere(bs, BlastPlayer) }

  datatype Salvo = Salvo(rockets: seq<Rocket>, player: Ace, opps: seq<Drone>)

  /** `updateMissiles()`: the spent missiles leave the list and the rest
      keep their order; each opponent loses 50 per missile launched at it
      that reached it, the player 50 per opponent missile that reached it,
      and the allies are never hurt by a missile. */
  function UpdateRockets(ms: seq<Rocket>, player: Ace, opps: seq<Drone>, sparks: seq<Spark>, g: Guidance): (r: Salvo)
    requires |g.rolls| == |ms| && forall i :: 0 <= i < |ms| ==> |g.rolls[i]| == |sparks|
    ensures var bs := Blasts(ms, player.pos, opps, sparks, g);
      && r.rockets == Keep(Flown(bs), Spent(bs))
      && r.opps == Hurt(opps, BlastHits(bs), ROCKET_DAMAGE)
      && r.player == player.(health := player.health - ROCKET_DAMAGE * PlayerBlasts(bs))
    ensures forall m :: m in r.rockets ==> m.life > 0 && InWorld(m.pos)
  {
    var bs := Blasts(ms, player.pos, opps, sparks, g);
    SpliceLoopKeeps(Flown(bs), Spent(bs));
    var kept := SpliceLoop(Flown(bs), Spent(bs), |bs|);
    forall m | m in kept
      ensures m.life > 0 && InWorld(m.pos)
    {
      KeepOnlyUnspent(Flown(bs), Spent(bs), m);
    }
    Salvo(kept, player.(health := player.health - ROCKET_DAMAGE * PlayerBlasts(bs)),
          Hurt(opps, BlastHits(bs), ROCKET_DAMAGE))
  }

  /** Only opponent missiles hurt the player, and a missile hurts an
      opponent only if it was launched at that very opponent. */
  lemma RocketDamageGoesToTarget(ms: seq<Rocket>, player: Ace, opps: seq<Drone>, sparks: seq<Spark>, g: Guidance, k: nat)
    requires |g.rolls| == |ms| && forall i :: 0 <= i < |ms| ==> |g.rolls[i]| == |sparks|
    requires k < |opps|
    requires forall i :: 0 <= i < |ms| ==> ms[i].target != AtOpponent(k)
    ensures UpdateRockets(ms, player, opps, sparks, g).opps[k] == opps[k]
  {
    var bs := Blasts(ms, player.pos, opps, sparks, g);
    assert forall i :: 0 <= i < |bs| ==> BlastHits(bs)[i] != Some(k);
    assert Some(k) !in BlastHits(bs);
  }

  /** With no opponent missile in the air the player takes no missile damage. */
  lemma PlayerSafeFromFriendlyMissiles(ms: seq<Rocket>, player: Ace, opps: seq<Drone>, sparks: seq<Spark>, g: Guidance)
    requires |g.rolls| == |ms| && forall i :: 0 <= i < |ms| ==> |g.rolls[i]| == |sparks|
    requires forall i :: 0 <= i < |ms| ==> ms[i].owner != ByOpponent
    ensures UpdateRockets(ms, player, opps, sparks, g).player == player
  {
  }

  // ------------------------------------------------------------- flares

  function Drifted(ss: seq<Spark>): (r: seq<Spark>)
    ensures |r| == |ss| && forall i :: 0 <= i < |ss| ==> r[i] == ss[i].(pos := ss[i].pos.Plus(ss[i].vel), life := ss[i].life - 1)
  {
    seq(|ss|, i requires 0 <= i < |ss| => ss[i].(pos := ss[i].pos.Plus(ss[i].vel), life := ss[i].life - 1))
  }

  function SparkLife(s: Spark): int { s.life }

  function Burnt(ss: seq<Spark>): seq<nat> { Lapsed(ss, SparkLife) }

  /** `updateFlares()`: drift by the flare's velocity, age, and drop the
      burnt-out ones; the rest keep their order. */
  function UpdateSparks(ss: seq<Spark>): (r: seq<Spark>)
    ensures r == Keep(Drifted(ss), Burnt(Drifted(ss)))
    ensures forall f :: f in r ==> f.life > 0
    ensures |r| <= |ss|
  {
    var d := Drifted(ss);
    SpliceLoopKeeps(d, Burnt(d));
    forall f | f in Keep(d, Burnt(d))
      ensures f.life > 0
    {
      KeepOnlyUnspent(d, Burnt(d), f);
    }
    SpliceLoop(d, Burnt(d), |d|)
  }
}

=== FILE: collision.dfy ===
/** The end-of-tick resolution in game.js `update()`: the crash pass, in
    which a live ally or the player within 40 of a live opponent destroys
    both, and the anti-stacking nudge, which pushes close planes apart by
    equal and opposite amounts. */
module Collision {
  import opened Geometry
  import opened Targeting
  import opened Entities

  const CRASH_RADIUS: real := 40.0

  /** `a.health > 0 && o.health > 0 && checkCollision(a, o, 40)`. */
  predicate Crashing(a: Plane, o: Plane) {
    a.Alive() && o.Alive() && Within(a.pos, o.pos, CRASH_RADIUS)
  }

  function Wreck(p: Plane): (q: Plane)
    ensures !q.Alive() && q.pos == p.pos
  {
    p.(health := 0)
  }

  /** A plane the pass either left alone or, being alive, destroyed. */
  predicate WreckedOrSame(before: Plane, after: Plane) {
    after == before || (before.Alive() && after == Wreck(before))
  }

  predicate AllWreckedOrSame(before: seq<Plane>, after: seq<Plane>) {
    |after| == |before| && forall k :: 0 <= k < |before| ==> WreckedOrSame(before[k], after[k])
  }

  /** No live plane of `side` is within 40 of a live opponent. */
  predicate Separated(side: seq<Plane>, opps: seq<Plane>) {
    forall i, k :: 0 <= i < |side| && 0 <= k < |opps| ==> !Crashing(side[i], opps[k])
  }

  /** How many planes the pass changed. */
  function Changed(before: seq<Plane>, after: seq<Plane>): (n: nat)
    requires |before| == |after|
    ensures n <= |before|
    decreases |before|
  {
    if |before| == 0 then 0
    else
      var m := |before| - 1;
      Changed(before[..m], after[..m]) + if before[m] != after[m] then 1 else 0
  }

  lemma {:induction false} ChangedNone(ps: seq<Plane>)
    ensures Changed(ps, ps) == 0
    decreases |ps|
  {
    if |ps| > 0 {
      ChangedNone(ps[..|ps| - 1]);
    }
  }

  /** Changing one more plane, at an index still untouched, adds one. */
  lemma {:induction false} ChangedOneMore(before: seq<Plane>, after: seq<Plane>, k: nat, x: Plane)
    requires |before| == |after| && k < |after| && after[k] == before[k] && x != before[k]
    ensures Changed(before, after[k := x]) == Changed(before, after) + 1
    decreases |before|
  {
    var m := |before| - 1;
    var after' := after[k := x];
    if k < m {
      assert after'[..m] == after[..m][k := x];
      ChangedOneMore(before[..m], after[..m], k, x);
    } else {
      assert after'[..m] == after[..m];
    }
  }

  // ------------------------------------------------------------- one row

  /** The first opponent in array order a live plane crashes into. */
  function FirstCrash(a: Plane, opps: seq<Plane>): (r: Option<nat>)
    ensures r.None? <==> forall k :: 0 <= k < |opps| ==> !Crashing(a, opps[k])
    ensures r.Some? ==>
      && r.value < |opps| && Crashing(a, opps[r.value])
      && forall k :: 0 <= k < r.value ==> !Crashing(a, opps[k])
  {
    if |opps| == 0 then None
    else if Crashing(a, opps[0]) then Some(0)
    else
      match FirstCrash(a, opps[1..])
      case None => None
      case Some(k) => Some(k + 1)
  }

  /** One plane and the opponents, as the inner loop leaves them. */
  datatype Pair = Pair(plane: Plane, opps: seq<Plane>)

  /** The inner `for (const opp of opponents)` loop from index `j` on. */
  function RowFrom(a: Plane, opps: seq<Plane>, j: nat): Pair
    requires j <= |opps|
    decreases |opps| - j
  {
    if j == |opps| then Pair(a, opps)
    else if Crashing(a, opps[j]) then RowFrom(Wreck(a), opps[j := Wreck(opps[j])], j + 1)
    else RowFrom(a, opps, j + 1)
  }

  /** Once the plane is down, the rest of the row changes nothing. */
  lemma {:induction false} DownRowIdle(a: Plane, opps: seq<Plane>, j: nat)
    requires j <= |opps| && !a.Alive()
    ensures RowFrom(a, opps, j) == Pair(a, opps)
    decreases |opps| - j
  {
    if j < |opps| {
      DownRowIdle(a, opps, j + 1);
    }
  }

  lemma {:induction false} RowFromFirstCrash(a: Plane, opps: seq<Plane>, j: nat)
    requires j <= |opps|
    ensures match FirstCrash(a, opps[j..])
      case None => RowFrom(a, opps, j) == Pair(a, opps)
      case Some(k) => RowFrom(a, opps, j) == Pair(Wreck(a), opps[j + k := Wreck(opps[j + k])])
    decreases |opps| - j
  {
    if j < |opps| {
      assert opps[j..][1..] == opps[j + 1..];
      if Crashing(a, opps[j]) {
        DownRowIdle(Wreck(a), opps[j := Wreck(opps[j])], j + 1);
      } else {
        RowFromFirstCrash(a, opps, j + 1);
      }
    }
  }

  /** One plane against every opponent: it collides with the first live
      opponent within 40, if it is alive itself, and both go to health 0;
      nothing else changes. */
  function CrashRow(a: Plane, opps: seq<Plane>): (r: Pair)
    ensures match FirstCrash(a, opps)
      case None => r == Pair(a, opps)
      case Some(k) => r == Pair(Wreck(a), opps[k := Wreck(opps[k])])
  {
    RowFromFirstCrash(a, opps, 0);
    assert opps[0..] == opps;
    RowFrom(a, opps, 0)
  }

  /** After its row the plane is down or clear of every live opponent, and
      the row destroyed exactly as many opponents as it destroyed of that
      plane (0 or 1). */
  lemma CrashRowFacts(a: Plane, opps: seq<Plane>)
    ensures var r := CrashRow(a, opps);
      && WreckedOrSame(a, r.plane) && AllWreckedOrSame(opps, r.opps)
      && (forall k :: 0 <= k < |opps| ==> !Crashing(r.plane, r.opps[k]))
      && Changed(opps, r.opps) == if r.plane == a then 0 else 1
  {
    var r := CrashRow(a, opps);
    ChangedNone(opps);
    match FirstCrash(a, opps)
    case None =>
    case Some(k) =>
      assert Wreck(a) != a;
      ChangedOneMore(opps, opps, k, Wreck(opps[k]));
  }

  // ------------------------------------------------------------- the pass

  datatype Field = Field(allies: seq<Plane>, opps: seq<Plane>)

  /** The outer `for (const ally of allies)` loop from ally `i` on. */
  function AlliesFrom(f: Field, i: nat): Field
    requires i <= |f.allies|
    decreases |f.allies| - i
  {
    if i == |f.allies| then f
    else
      var r := CrashRow(f.allies[i], f.opps);
      AlliesFrom(Field(f.allies[i := r.plane], r.opps), i + 1)
  }

  /** Destroying more of the opponents never brings a pair into collision. */
  lemma StaysSeparated(side: seq<Plane>, opps: seq<Plane>, opps': seq<Plane>)
    requires AllWreckedOrSame(opps, opps')
    ensures forall i, k :: 0 <= i < |side| && 0 <= k < |opps| && !Crashing(side[i], opps[k]) ==>
      !Crashing(side[i], opps'[k])
  {
  }

  /** The loop invariant of the ally loop: rows before `i` are done and
      separated, rows from `i` on untouched, every change is a kill, and
      allies and opponents have lost the same number of planes. */
  predicate AllyLoop(allies: seq<Plane>, opps: seq<Plane>, f: Field, i: nat) {
    && i <= |f.allies| == |allies|
    && AllWreckedOrSame(allies, f.allies) && AllWreckedOrSame(opps, f.opps)
    && f.allies[i..] == allies[i..]
    && Separated(f.allies[..i], f.opps)
    && Changed(opps, f.opps) == Changed(allies, f.allies)
  }

  lemma {:induction false} AlliesFromFacts(allies: seq<Plane>, opps: seq<Plane>, f: Field, i: nat)
    requires AllyLoop(allies, opps, f, i)
    ensures AllyLoop(allies, opps, AlliesFrom(f, i), |allies|)
    decreases |f.allies| - i
  {
    if i < |f.allies| {
      var a := f.allies[i];
      assert a == allies[i] by {
        assert f.allies[i..][0] == allies[i..][0];
      }
      var r := CrashRow(a, f.opps);
      CrashRowFacts(a, f.opps);
      var g := Field(f.allies[i := r.plane], r.opps);
      StaysSeparated(f.allies[..i], f.opps, r.opps);
      assert g.allies[..i + 1] == f.allies[..i] + [r.plane];
      assert g.allies[i + 1..] == allies[i + 1..] by {
        assert g.allies[i + 1..] == f.allies[i..][1..];
      }
      assert AllWreckedOrSame(opps, g.opps) by {
        forall k | 0 <= k < |opps|
          ensures WreckedOrSame(opps[k], g.opps[k])
        {
          assert WreckedOrSame(f.opps[k], g.opps[k]);
        }
      }
      ChangedCount(allies, opps, f, g, i, r);
      AlliesFromFacts(allies, opps, g, i + 1);
    }
  }

  /** The count step of the ally loop: the row killed the ally exactly when
      it killed one opponent, each for the first time. */
  lemma ChangedCount(allies: seq<Plane>, opps: seq<Plane>, f: Field, g: Field, i: nat, r: Pair)
    requires AllyLoop(allies, opps, f, i) && i < |allies|
    requires r == CrashRow(f.allies[i], f.opps) && g == Field(f.allies[i := r.plane], r.opps)
    requires f.allies[i] == allies[i]
    ensures Changed(opps, g.opps) == Changed(allies, g.allies)
  {
    var a := f.allies[i];
    match FirstCrash(a, f.opps)
    case None =>
      assert g.allies == f.allies;
    case Some(k) =>
      assert f.opps[k] == opps[k];
      ChangedOneMore(opps, f.opps, k, Wreck(f.opps[k]));
      ChangedOneMore(allies, f.allies, i, Wreck(a));
  }

  /** The player, allies and opponents as the crash pass leaves them. */
  datatype Wreckage = Wreckage(player: Plane, allies: seq<Plane>, opps: seq<Plane>)

  /** The crash pass of game.js `update()`: every ally against every
      opponent, then the player against every opponent. */
  function CrashPass(player: Plane, allies: seq<Plane>, opps: seq<Plane>): (w: Wreckage)
    ensures |w.allies| == |allies| && |w.opps| == |opps|
  {
    var f := AlliesFrom(Field(allies, opps), 0);
    assert AllyLoop(allies, opps, AlliesFrom(Field(allies, opps), 0), |allies|) by {
      ChangedNone(allies);
      ChangedNone(opps);
      AlliesFromFacts(allies, opps, Field(allies, opps), 0);
    }
    var r := CrashRow(player, f.opps);
    Wreckage(r.plane, f.allies, r.opps)
  }

  /** After the pass no live ally and no live player is within 40 of a live
      opponent; every plane the pass touched was alive and now has health
      exactly 0, with its position and everything else unchanged; and the
      opponents lost exactly as many planes as the allies and the player
      together, since every crash destroys one of each. */
  lemma CrashPassFacts(player: Plane, allies: seq<Plane>, opps: seq<Plane>)
    ensures var w := CrashPass(player, allies, opps);
      && Separated(w.allies, w.opps)
      && (forall k :: 0 <= k < |w.opps| ==> !Crashing(w.player, w.opps[k]))
      && WreckedOrSame(player, w.player)
      && AllWreckedOrSame(allies, w.allies) && AllWreckedOrSame(opps, w.opps)
      && Changed(opps, w.opps) == Changed(allies, w.allies) + if w.player == player then 0 else 1
  {
    var f := AlliesFrom(Field(allies, opps), 0);
    ChangedNone(allies);
    ChangedNone(opps);
    AlliesFromFacts(allies, opps, Field(allies, opps), 0);
    assert f.allies[..|allies|] == f.allies;
    var r := CrashRow(player, f.opps);
    CrashRowFacts(player, f.opps);
    StaysSeparated(f.allies, f.opps, r.opps);
    forall k | 0 <= k < |opps|
      ensures WreckedOrSame(opps[k], r.opps[k])
    {
      assert WreckedOrSame(f.opps[k], r.opps[k]);
    }
    match FirstCrash(player, f.opps)
    case None =>
    case Some(k) =>
      assert f.opps[k] == opps[k];
      assert Wreck(player) != player;
      ChangedOneMore(opps, f.opps, k, Wreck(f.opps[k]));
  }

  // --------------------------------------------------------- anti-stacking

  const STACK_DISTANCE: real := 80.0
  const STACK_FLOOR: real := 0.01

  /** `dist < 80 && dist > 0.01`, on squared distances. */
  predicate TooClose(a: Point, b: Point) {
    DistSq(a, b) < STACK_DISTANCE * STACK_DISTANCE && DistSq(a, b) > STACK_FLOOR * STACK_FLOOR
  }

  function SumPoints(ps: seq<Point>): Point
    decreases |ps|
  {
    if |ps| == 0 then Point(0.0, 0.0) else SumPoints(ps[..|ps| - 1]).Plus(ps[|ps| - 1])
  }

  /** Moving one point by `v` moves the sum by `v`. */
  lemma {:induction false} SumMoved(ps: seq<Point>, k: nat, v: Point)
    requires k < |ps|
    ensures SumPoints(ps[k := ps[k].Plus(v)]) == SumPoints(ps).Plus(v)
    decreases |ps|
  {
    var m := |ps| - 1;
    var qs := ps[k := ps[k].Plus(v)];
    if k < m {
      assert qs[..m] == ps[..m][k := ps[k].Plus(v)];
      SumMoved(ps[..m], k, v);
    } else {
      assert qs[..m] == ps[..m];
    }
  }

  function MovedBy(p: Plane, v: Point): Plane {
    p.(pos := p.pos.Plus(v))
  }

  /** One pair `(i, j)` of `applyAntiStacking`: when the planes are too
      close, `a` moves by the repulsion `v` and `b` by `-v`. The repulsion
      vector, `(80 - dist) * 0.05` along the unit line from `b` to `a`, is
      supplied. */
  function Nudge(ps: seq<Plane>, i: nat, j: nat, repel: (Point, Point) -> Point): (r: seq<Plane>)
    requires i < j < |ps|
    ensures |r| == |ps|
  {
    if TooClose(ps[i].pos, ps[j].pos) then
      var v := repel(ps[i].pos, ps[j].pos);
      var moved := ps[i := MovedBy(ps[i], v)];
      moved[j := MovedBy(moved[j], v.Scale(-1.0))]
    else ps
  }

  /** The pair loop: `i` from 0, `j` from `i + 1`, both to the end. */
  function StackFrom(ps: seq<Plane>, i: nat, j: nat, repel: (Point, Point) -> Point): (r: seq<Plane>)
    requires i < j <= |ps| || (i == |ps| && j == |ps|)
    ensures |r| == |ps|
    decreases |ps| - i, |ps| - j
  {
    if i == |ps| then ps
    else if j == |ps| then
      if i + 1 < |ps| then StackFrom(ps, i + 1, i + 2, repel) else StackFrom(ps, |ps|, |ps|, repel)
    else StackFrom(Nudge(ps, i, j, repel), i, j + 1, repel)
  }

  function ApplyAntiStacking(ps: seq<Plane>, repel: (Point, Point) -> Point): (r: seq<Plane>)
    ensures |r| == |ps|
  {
    if |ps| < 2 then ps else StackFrom(ps, 0, 1, repel)
  }

  /** Each nudge is equal and opposite: the sum of positions is kept and no
      field but the position changes. */
  lemma NudgeKeepsSum(ps: seq<Plane>, i: nat, j: nat, repel: (Point, Point) -> Point)
    requires i < j < |ps|
    ensures SumPoints(Positions(Nudge(ps, i, j, repel))) == SumPoints(Positions(ps))
    ensures forall k :: 0 <= k < |ps| ==> Nudge(ps, i, j, repel)[k] == ps[k].(pos := Nudge(ps, i, j, repel)[k].pos)
  {
    if TooClose(ps[i].pos, ps[j].pos) {
      var v := repel(ps[i].pos, ps[j].pos);
      var moved := ps[i := MovedBy(ps[i], v)];
      var w := v.Scale(-1.0);
      assert Positions(moved) == Positions(ps)[i := Positions(ps)[i].Plus(v)];
      SumMoved(Positions(ps), i, v);
      assert Positions(moved[j := MovedBy(moved[j], w)]) == Positions(moved)[j := Positions(moved)[j].Plus(w)];
      SumMoved(Positions(moved), j, w);
      assert SumPoints(Positions(ps)).Plus(v).Plus(w) == SumPoints(Positions(ps));
    }
  }

  lemma {:induction false} StackFromKeepsSum(ps: seq<Plane>, i: nat, j: nat, repel: (Point, Point) -> Point)
    requires i < j <= |ps| || (i == |ps| && j == |ps|)
    ensures SumPoints(Positions(StackFrom(ps, i, j, repel))) == SumPoints(Positions(ps))
    ensures forall k :: 0 <= k < |ps| ==>
      StackFrom(ps, i, j, repel)[k] == ps[k].(pos := StackFrom(ps, i, j, repel)[k].pos)
    decreases |ps| - i, |ps| - j
  {
    if i == |ps| {
    } else if j == |ps| {
      if i + 1 < |ps| {
        StackFromKeepsSum(ps, i + 1, i + 2, repel);
      } else {
        StackFromKeepsSum(ps, |ps|, |ps|, repel);
      }
    } else {
      NudgeKeepsSum(ps, i, j, repel);
      StackFromKeepsSum(Nudge(ps, i, j, repel), i, j + 1, repel);
    }
  }

  /** `applyAntiStacking` moves planes only, and keeps the sum of their
      positions: the fleet's centre does not drift. */
  lemma AntiStackingKeepsSum(ps: seq<Plane>, repel: (Point, Point) -> Point)
    ensures SumPoints(Positions(ApplyAntiStacking(ps, repel))) == SumPoints(Positions(ps))
    ensures forall k :: 0 <= k < |ps| ==>
      ApplyAntiStacking(ps, repel)[k] == ps[k].(pos := ApplyAntiStacking(ps, repel)[k].pos)
  {
    if |ps| >= 2 {
      StackFromKeepsSum(ps, 0, 1, repel);
    }
  }
}

=== FILE: entities.dfy ===
/** The records of game.js: planes (player, allies and opponents share one
    shape), projectiles and flares, the plane factory, the starting rosters
    and the in-place respawn. */
module Entities {
  import opened Geometry
  import opened Targeting

  const FULL_HEALTH: int := 100
  const GUN_AMMO: int := 200
  const MISSILE_AMMO: int := 4
  const FLARE_COOLDOWN: int := 300
  /** Taxi ticks of an opponent once it starts rolling. */
  const OPPONENT_TAXI: int := 90
  /** Taxi ticks set by a respawn of a non-opponent plane, and the player's first taxi. */
  const FRIENDLY_TAXI: int := 120
  const OPPONENT_COUNT: nat := 10
  const ALLY_COUNT: nat := 9

  /** A plane of game.js. Fields that createPlane leaves undefined
      (`isTakingOff`, `hasStartedTaxi`, `delayedTaxiStart`, `taxiTimer`,
      `lockTimer`) start as false / 0, which is how every comparison the
      source makes treats `undefined` (`!undefined`, `undefined > 0`,
      `undefined || 0`). */
  datatype Plane = Plane(
    pos: Point,
    angle: real,
    speed: real,
    thrust: real,
    health: int,
    maxHealth: int,
    orbitDirection: int,
    dodgeCooldown: int,
    dodgeOffset: real,
    flareCooldown: int,
    machineGunAmmo: int,
    missileAmmo: int,
    isTakingOff: bool,
    hasStartedTaxi: bool,
    delayedTaxiStart: int,
    taxiTimer: int,
    lockTimer: int)
  {
    predicate Alive() { health > 0 }
  }

  /** A bullet or missile of game.js: position, heading, fixed speed, ticks of
      life left, and for player and ally missiles the index of the opponent
      they were launched at. */
  datatype Projectile = Projectile(pos: Point, angle: real, speed: real, life: int, target: Option<nat>)

  datatype Flare = Flare(pos: Point, angle: real, speed: real, life: int)

  /** Where a steering or homing step leaves a plane or projectile. */
  datatype Pose = Pose(pos: Point, angle: real)

  function PlanePos(p: Plane): Point { p.pos }
  function ShotPos(s: Projectile): Point { s.pos }
  function FlarePos(f: Flare): Point { f.pos }

  function Positions(ps: seq<Plane>): seq<Point> { Each(ps, PlanePos) }

  function AliveMask(ps: seq<Plane>): (r: seq<bool>)
    ensures |r| == |ps| && forall i :: 0 <= i < |ps| ==> r[i] == ps[i].Alive()
  {
    seq(|ps|, i requires 0 <= i < |ps| => ps[i].Alive())
  }

  function ShotPositions(ss: seq<Projectile>): seq<Point> { Each(ss, ShotPos) }

  function FlarePositions(fs: seq<Flare>): seq<Point> { Each(fs, FlarePos) }

  /** `Math.random() < 0.5 ? 1 : -1`. */
  function OrbitDirection(coin: real): (d: int)
    ensures d == 1 || d == -1
    ensures d == 1 <==> coin < 0.5
  {
    if coin < 0.5 then 1 else -1
  }

  /** The weapon and health state of a plane straight out of the factory or a respawn. */
  predicate Rearmed(p: Plane) {
    && p.health == p.maxHealth
    && p.thrust == 1.0
    && p.dodgeCooldown == 0
    && p.dodgeOffset == 0.0
    && p.machineGunAmmo == GUN_AMMO
    && p.missileAmmo == MISSILE_AMMO
    && (p.orbitDirection == 1 || p.orbitDirection == -1)
  }

  /** createPlane(x, y). */
  function CreatePlane(pos: Point, coin: real): (p: Plane)
    ensures Rearmed(p) && p.maxHealth == FULL_HEALTH
    ensures p.pos == pos && p.speed == 1.0 && p.angle == 0.0
    ensures p.flareCooldown == 0 && p.lockTimer == 0
    ensures !p.isTakingOff && !p.hasStartedTaxi && p.delayedTaxiStart == 0
  {
    Plane(pos, 0.0, 1.0, 1.0, FULL_HEALTH, FULL_HEALTH, OrbitDirection(coin), 0, 0.0, 0,
          GUN_AMMO, MISSILE_AMMO, false, false, 0, 0, 0)
  }

  /** The player as placed at load time: near the bottom-right airport,
      nose up, taxiing for 120 ticks. */
  function InitialPlayer(coin: real): (p: Plane)
    ensures Rearmed(p) && p.health == FULL_HEALTH
    ensures p.pos == Point(WORLD_WIDTH - 150.0, WORLD_HEIGHT - 150.0)
    ensures p.isTakingOff && p.taxiTimer == FRIENDLY_TAXI
  {
    CreatePlane(Point(WORLD_WIDTH - 150.0, WORLD_HEIGHT - 150.0), coin).(
      angle := -PI / 2.0, isTakingOff := true, taxiTimer := FRIENDLY_TAXI)
  }

  /** The ten opponents in two columns at the top-left airport; opponent `i`
      waits `90 * i` ticks before it starts to taxi. */
  function InitialOpponents(coin: nat -> real): (r: seq<Plane>)
    ensures |r| == OPPONENT_COUNT
    ensures forall i :: 0 <= i < |r| ==>
      && Rearmed(r[i]) && r[i].health == FULL_HEALTH
      && r[i].pos == Point(50.0 + 60.0 * (i % 2) as real, 50.0 + 60.0 * (i / 2) as real)
      && r[i].delayedTaxiStart == 90 * i
      && r[i].taxiTimer == OPPONENT_TAXI
      && !r[i].isTakingOff && !r[i].hasStartedTaxi
  {
    var r := seq(OPPONENT_COUNT, i requires 0 <= i < OPPONENT_COUNT => ParkedOpponent(i, coin(i)));
    assert forall i :: 0 <= i < |r| ==> r[i] == ParkedOpponent(i, coin(i));
    r
  }

  function ParkedOpponent(i: nat, coin: real): (p: Plane)
    ensures Rearmed(p) && p.health == FULL_HEALTH
    ensures p.pos == Point(50.0 + 60.0 * (i % 2) as real, 50.0 + 60.0 * (i / 2) as real)
    ensures p.delayedTaxiStart == 90 * i && p.taxiTimer == OPPONENT_TAXI
    ensures !p.isTakingOff && !p.hasStartedTaxi
  {
    CreatePlane(Point(50.0 + 60.0 * (i % 2) as real, 50.0 + 60.0 * (i / 2) as real), coin).(
      angle := PI / 2.0, isTakingOff := false, delayedTaxiStart := 90 * i,
      taxiTimer := OPPONENT_TAXI, hasStartedTaxi := false)
  }

  /** The nine allies in a 3 x 3 block at the bottom-right airport; ally `i`
      waits `60 * i` ticks. */
  function InitialAllies(coin: nat -> real): (r: seq<Plane>)
    ensures |r| == ALLY_COUNT
    ensures forall i :: 0 <= i < |r| ==>
      && Rearmed(r[i]) && r[i].health == FULL_HEALTH
      && r[i].pos == Point(WORLD_WIDTH - 200.0 + 50.0 * (i % 3) as real,
                           WORLD_HEIGHT - 200.0 + 50.0 * (i / 3) as real)
      && r[i].delayedTaxiStart == 60 * i && r[i].taxiTimer == OPPONENT_TAXI
      && !r[i].isTakingOff && !r[i].hasStartedTaxi
  {
    var r := seq(ALLY_COUNT, i requires 0 <= i < ALLY_COUNT => ParkedAlly(i, coin(i)));
    assert forall i :: 0 <= i < |r| ==> r[i] == ParkedAlly(i, coin(i));
    r
  }

  function ParkedAlly(i: nat, coin: real): (p: Plane)
    ensures Rearmed(p) && p.health == FULL_HEALTH
    ensures p.pos == Point(WORLD_WIDTH - 200.0 + 50.0 * (i % 3) as real,
                           WORLD_HEIGHT - 200.0 + 50.0 * (i / 3) as real)
    ensures p.delayedTaxiStart == 60 * i && p.taxiTimer == OPPONENT_TAXI
    ensures !p.isTakingOff && !p.hasStartedTaxi
  {
    CreatePlane(Point(WORLD_WIDTH - 200.0 + 50.0 * (i % 3) as real,
                      WORLD_HEIGHT - 200.0 + 50.0 * (i / 3) as real), coin).(
      angle := -PI / 2.0, isTakingOff := false, delayedTaxiStart := 60 * i,
      taxiTimer := OPPONENT_TAXI)
  }

  // ---------------------------------------------------------------- respawn

  /** Which airport a respawn uses: `respawnPlane(plane, isOpponent)`. */
  datatype Side = OpponentSide | FriendlySide

  /** One attempt's `Math.floor(Math.random() * n)` column and row draws. */
  datatype Slot = Slot(col: int, row: int)

  predicate SlotDraw(side: Side, s: Slot) {
    match side
    case OpponentSide => 0 <= s.col < 2 && 0 <= s.row < 5
    case FriendlySide => 0 <= s.col < 3 && 0 <= s.row < 3
  }

  function SlotPos(side: Side, s: Slot): Point {
    match side
    case OpponentSide => Point(50.0 + 60.0 * s.col as real, 50.0 + 60.0 * s.row as real)
    case FriendlySide => Point(WORLD_WIDTH - 200.0 + 50.0 * s.col as real,
                               WORLD_HEIGHT - 200.0 + 50.0 * s.row as real)
  }

  /** The parking spots of an airport. */
  ghost predicate AirportSpot(side: Side, p: Point) {
    exists s: Slot :: SlotDraw(side, s) && p == SlotPos(side, s)
  }

  /** An attempt is accepted when it lands more than 300 from the player.
      `avoid` is the player's position, or None when the plane being respawned
      is the player itself: its distance to itself is 0 and never safe. */
  predicate SafeSpot(p: Point, avoid: Option<Point>) {
    avoid.Some? && DistSq(p, avoid.value) > 300.0 * 300.0
  }

  const SPAWN_ATTEMPTS: nat := 10

  /** The attempt respawnPlane's `while (!safe && attempt < 10)` loop ends on:
      the first safe one, or the tenth. */
  function PickAttempt(side: Side, draws: seq<Slot>, avoid: Option<Point>, i: nat): (k: nat)
    requires |draws| == SPAWN_ATTEMPTS && i < SPAWN_ATTEMPTS
    ensures i <= k < SPAWN_ATTEMPTS
    ensures forall j :: i <= j < k ==> !SafeSpot(SlotPos(side, draws[j]), avoid)
    ensures k < SPAWN_ATTEMPTS - 1 ==> SafeSpot(SlotPos(side, draws[k]), avoid)
    decreases SPAWN_ATTEMPTS - i
  {
    if i == SPAWN_ATTEMPTS - 1 || SafeSpot(SlotPos(side, draws[i]), avoid) then i
    else PickAttempt(side, draws, avoid, i + 1)
  }

  /** respawnPlane(plane, isOpponent): the plane is recycled in place at its
      airport, re-armed and set to taxi; its flare cooldown, lock timer and
      takeoff delay are left as they were. */
  function RespawnPlane(p: Plane, side: Side, avoid: Option<Point>, draws: seq<Slot>, coin: real): (r: Plane)
    requires |draws| == SPAWN_ATTEMPTS
    requires forall j :: 0 <= j < |draws| ==> SlotDraw(side, draws[j])
    ensures Rearmed(r) && r.maxHealth == p.maxHealth
    ensures r.isTakingOff && !r.hasStartedTaxi
    ensures r.taxiTimer == (if side == OpponentSide then OPPONENT_TAXI else FRIENDLY_TAXI)
    ensures AirportSpot(side, r.pos)
    ensures r.pos == SlotPos(side, draws[PickAttempt(side, draws, avoid, 0)])
    ensures r.angle == (if side == OpponentSide then PI / 2.0 else -PI / 2.0)
    ensures (exists j :: 0 <= j < |draws| && SafeSpot(SlotPos(side, draws[j]), avoid))
              ==> SafeSpot(r.pos, avoid)
    ensures r.flareCooldown == p.flareCooldown && r.lockTimer == p.lockTimer
    ensures r.delayedTaxiStart == p.delayedTaxiStart && r.speed == p.speed
  {
    var k := PickAttempt(side, draws, avoid, 0);
    assert SlotDraw(side, draws[k]);
    p.(pos := SlotPos(side, draws[k]),
       angle := if side == OpponentSide then PI / 2.0 else -PI / 2.0,
       isTakingOff := true,
       taxiTimer := if side == OpponentSide then OPPONENT_TAXI else FRIENDLY_TAXI,
       hasStartedTaxi := false,
       health := p.maxHealth,
       thrust := 1.0,
       orbitDirection := OrbitDirection(coin),
       dodgeCooldown := 0,
       dodgeOffset := 0.0,
       machineGunAmmo := GUN_AMMO,
       missileAmmo := MISSILE_AMMO)
  }

  /** The player respawning itself always ends on the tenth attempt, since its
      own new spot is never more than 300 from itself. */
  lemma PlayerRespawnUsesLastAttempt(draws: seq<Slot>)
    requires |draws| == SPAWN_ATTEMPTS
    ensures PickAttempt(FriendlySide, draws, None, 0) == SPAWN_ATTEMPTS - 1
  {
  }
}

=== FILE: geometry.dfy ===
/** Shared numeric vocabulary of the dogfight simulation: points on the
    4000 x 4000 world, exact squared distances, the clamp helper, and the
    angle-difference arithmetic the missile launchers use to decide whether
    a shooter faces its target.

    Distances are never square-rooted: `Math.hypot(dx, dy) < r` with r >= 0 is
    modelled as `dx*dx + dy*dy < r*r`, which orders points exactly as the
    source's distances do. */
module Geometry {

  /** JavaScript's Math.PI, as the exact decimal the engine prints. */
  const PI: real := 3.141592653589793
  const WORLD_WIDTH: real := 4000.0
  const WORLD_HEIGHT: real := 4000.0

  datatype Point = Point(x: real, y: real) {
    function Plus(o: Point): Point { Point(x + o.x, y + o.y) }
    function Minus(o: Point): Point { Point(x - o.x, y - o.y) }
    function Scale(k: real): Point { Point(k * x, k * y) }
  }

  /** One field of every element of a list, in list order. */
  function Each<T, U>(xs: seq<T>, f: T -> U): (r: seq<U>)
    ensures |r| == |xs| && forall i :: 0 <= i < |xs| ==> r[i] == f(xs[i])
  {
    seq(|xs|, i requires 0 <= i < |xs| => f(xs[i]))
  }

  /** How many elements of a list have property `p`: none exactly when no
      element has it. */
  function CountWhere<T>(xs: seq<T>, p: T -> bool): (n: nat)
    ensures n <= |xs|
    ensures n == 0 <==> forall i :: 0 <= i < |xs| ==> !p(xs[i])
    decreases |xs|
  {
    if |xs| == 0 then 0
    else
      var rest := CountWhere(xs[1..], p);
      assert forall i :: 1 <= i < |xs| ==> xs[i] == xs[1..][i - 1];
      rest + if p(xs[0]) then 1 else 0
  }

  function Sq(v: real): real { v * v }

  /** Squared Euclidean distance between two points. */
  function DistSq(a: Point, b: Point): real {
    Sq(b.x - a.x) + Sq(b.y - a.y)
  }

  /** `Math.hypot(b.x - a.x, b.y - a.y) < radius`, for a non-negative radius. */
  predicate Within(a: Point, b: Point, radius: real) {
    DistSq(a, b) < radius * radius
  }

  lemma DistSqSymmetric(a: Point, b: Point)
    ensures DistSq(a, b) == DistSq(b, a)
  {
    assert Sq(b.x - a.x) == Sq(a.x - b.x);
    assert Sq(b.y - a.y) == Sq(a.y - b.y);
  }

  /** `clamp(value, min, max)` of both source files: Math.max(min, Math.min(max, value)). */
  function Clamp(v: real, lo: real, hi: real): (r: real)
    ensures lo <= hi ==> lo <= r <= hi
    ensures lo <= v <= hi ==> r == v
    ensures lo <= hi && v < lo ==> r == lo
    ensures lo <= hi && hi < v ==> r == hi
  {
    var m := if hi < v then hi else v;
    if m < lo then lo else m
  }

  lemma ClampIdempotent(v: real, lo: real, hi: real)
    requires lo <= hi
    ensures Clamp(Clamp(v, lo, hi), lo, hi) == Clamp(v, lo, hi)
  {
  }

  /** The player's final position clamp onto the world rectangle. */
  function ClampToWorld(p: Point): (q: Point)
    ensures InWorld(q)
    ensures InWorld(p) ==> q == p
  {
    Point(Clamp(p.x, 0.0, WORLD_WIDTH), Clamp(p.y, 0.0, WORLD_HEIGHT))
  }

  predicate InWorld(p: Point) {
    0.0 <= p.x <= WORLD_WIDTH && 0.0 <= p.y <= WORLD_HEIGHT
  }

  /** A draw of `Math.random()`: in [0, 1). */
  predicate UnitRoll(r: real) { 0.0 <= r < 1.0 }

  function Abs(v: real): (r: real)
    ensures r >= 0.0 && (r == v || r == -v)
  {
    if v < 0.0 then -v else v
  }

  /** Integer part of a real rounded toward zero, as JavaScript's `%` uses it. */
  function Trunc(v: real): (n: int)
    ensures v >= 0.0 ==> n as real <= v < n as real + 1.0
    ensures v < 0.0 ==> n as real - 1.0 < v <= n as real
  {
    if v >= 0.0 then v.Floor else -((-v).Floor)
  }

  const TURN: real := 2.0 * PI

  /** JavaScript's floating remainder `a % (2 * Math.PI)`: the sign of the
      result follows the dividend. */
  function JsRemTurn(a: real): (r: real)
    ensures a >= 0.0 ==> 0.0 <= r < TURN
    ensures a < 0.0 ==> -TURN < r <= 0.0
  {
    a - TURN * Trunc(a / TURN) as real
  }

  /** Number of whole turns removed when `d` is wrapped into [-PI, PI). */
  function Turns(d: real): int {
    ((d + PI) / (2.0 * PI)).Floor
  }

  /** The representative of the angle `d` in [-PI, PI) that differs from it
      by whole turns; it is the smallest such representative in magnitude. */
  function Wrap(d: real): (w: real)
    ensures -PI <= w < PI
    ensures w == d - 2.0 * PI * Turns(d) as real
    ensures forall k: int {:trigger k as real} :: Abs(w) <= Abs(d - 2.0 * PI * k as real)
  {
    var t := Turns(d);
    assert t as real <= (d + PI) / (2.0 * PI) < t as real + 1.0;
    var w := d - 2.0 * PI * t as real;
    forall k: int {:trigger k as real}
      ensures Abs(w) <= Abs(d - 2.0 * PI * k as real)
    {
      var j := t - k;
      assert d - 2.0 * PI * k as real == w + 2.0 * PI * j as real;
      if j >= 1 {
        assert 2.0 * PI * j as real >= 2.0 * PI;
      } else if j <= -1 {
        assert 2.0 * PI * j as real <= -2.0 * PI;
      }
    }
    w
  }

  /** How far a heading is from a target bearing, in [0, PI]: the intended
      meaning of the `angleDiff` expression in game.js. */
  function Misalignment(heading: real, bearing: real): (r: real)
    ensures 0.0 <= r <= PI
    ensures forall k: int {:trigger k as real} :: r <= Abs(heading - bearing - 2.0 * PI * k as real)
  {
    Abs(Wrap(heading - bearing))
  }

  /** `Math.abs(((heading - bearing + Math.PI) % (2 * Math.PI)) - Math.PI)`
      exactly as game.js writes it, with JavaScript's truncating remainder. */
  function MisalignmentAsWritten(heading: real, bearing: real): (r: real)
    ensures r >= 0.0
  {
    Abs(JsRemTurn(heading - bearing + PI) - PI)
  }

  /** The as-written expression agrees with the intended one whenever the
      heading is not more than half a turn behind the bearing. */
  lemma AsWrittenAgreesWhenNotBehind(heading: real, bearing: real)
    requires heading - bearing + PI >= 0.0
    ensures MisalignmentAsWritten(heading, bearing) == Misalignment(heading, bearing)
  {
    var a := heading - bearing + PI;
    assert Trunc(a / TURN) == Turns(heading - bearing);
  }

  /** A player heading stored as -PI (pointing left) and a target bearing of
      PI - 0.1 (also almost straight left): the target is 0.1 rad off the nose,
      yet the as-written expression reports almost a full turn, so the
      missile launchers refuse with "NOT ALIGNED". */
  lemma MisalignmentAsWrittenRejectsAlignedTarget()
    ensures MisalignmentAsWritten(-PI, PI - 0.1) > PI / 6.0
    ensures Misalignment(-PI, PI - 0.1) < PI / 6.0
  {
    var d := -PI - (PI - 0.1);
    assert (d + PI) / (2.0 * PI) == (0.1 - PI) / (2.0 * PI);
    assert Trunc((d + PI) / (2.0 * PI)) == 0;
    assert Turns(d) == -1;
    assert Wrap(d) == 0.1;
  }
}

=== FILE: pilots.dfy ===
/** The per-plane updates of game.js that tie the counters together: the
    player's taxi / death / respawn cycle and autopilot weapons, and the
    loop bodies of updateOpponents and updateAllies.

    Steering (`rotateToward`, `moveForward`, `bounceOffWalls`, the
    anti-stacking nudge) and aiming are geometry supplied through `Motion`. */
module Pilots {
  import opened Geometry
  import opened Targeting
  import opened Entities
  import opened Scans
  import opened Weapons
  import opened Takeoff
  import opened Tactics

  // ------------------------------------------------------------------- player

  const RESPAWN_DELAY: int := 60

  /** The player with the `playerDead` flag and `playerRespawnCooldown`. */
  datatype Pilot = Pilot(plane: Plane, dead: bool, respawnCooldown: int)

  /** While dead, the respawn countdown is within 1..60. */
  predicate PilotValid(s: Pilot) {
    s.dead ==> 1 <= s.respawnCooldown <= RESPAWN_DELAY
  }

  /** Respawn draws that fit the friendly airport. */
  predicate FriendlySlots(slots: seq<Slot>) {
    |slots| == SPAWN_ATTEMPTS && forall j :: 0 <= j < |slots| ==> SlotDraw(FriendlySide, slots[j])
  }

  /** The player's respawn: the plane is its own "player", so every attempt
      is unsafe and the last draw is used. */
  function PlayerRespawn(p: Plane, slots: seq<Slot>, coin: real): (r: Plane)
    requires FriendlySlots(slots)
    ensures Rearmed(r) && r.isTakingOff && r.taxiTimer == FRIENDLY_TAXI
    ensures r.pos == SlotPos(FriendlySide, slots[SPAWN_ATTEMPTS - 1])
  {
    PlayerRespawnUsesLastAttempt(slots);
    RespawnPlane(p, FriendlySide, None, slots, coin)
  }

  /** updatePlayer() outside the autopilot and the manual controls: the taxi
      branch, the death branch, and for a living player the flare cooldown
      and the final clamp of the position (`fly` is where steering, thrust
      and the wall bounce leave it). */
  function UpdatePlayerLife(s: Pilot, advance: Plane -> Point, fly: Plane -> Point,
                            slots: seq<Slot>, coin: real): (r: Pilot)
    requires FriendlySlots(slots)
    ensures s.plane.isTakingOff ==>
      r == Pilot(TaxiTick(s.plane, advance), s.dead, s.respawnCooldown)
    ensures !s.plane.isTakingOff && !s.plane.Alive() && !s.dead ==>
      r == Pilot(s.plane, true, RESPAWN_DELAY)
    ensures !s.plane.isTakingOff && !s.plane.Alive() && s.dead && s.respawnCooldown - 1 != 0 ==>
      r == Pilot(s.plane, true, s.respawnCooldown - 1)
    ensures !s.plane.isTakingOff && !s.plane.Alive() && s.dead && s.respawnCooldown - 1 == 0 ==>
      r == Pilot(PlayerRespawn(s.plane, slots, coin), false, 0)
    ensures !s.plane.isTakingOff && s.plane.Alive() ==>
      && r.dead == s.dead && r.respawnCooldown == s.respawnCooldown
      && InWorld(r.plane.pos) && r.plane.health == s.plane.health
      && r.plane.flareCooldown == (if s.plane.flareCooldown > 0 then s.plane.flareCooldown - 1 else s.plane.flareCooldown)
    ensures PilotValid(s) ==> PilotValid(r)
    ensures FlareCooldownValid(s.plane) ==> FlareCooldownValid(r.plane)
  {
    var p := s.plane;
    if p.isTakingOff then Pilot(TaxiTick(p, advance), s.dead, s.respawnCooldown)
    else if p.health <= 0 then
      if !s.dead then Pilot(p, true, RESPAWN_DELAY)
      else
        var c := s.respawnCooldown - 1;
        if c == 0 then Pilot(PlayerRespawn(p, slots, coin), false, 0) else Pilot(p, true, c)
    else
      var cooled := p.(flareCooldown := if p.flareCooldown > 0 then p.flareCooldown - 1 else p.flareCooldown);
      Pilot(cooled.(pos := ClampToWorld(fly(cooled))), s.dead, s.respawnCooldown)
  }

  /** The player after `n` updates with the same geometry and draws. */
  function PlayerTicks(s: Pilot, n: nat, advance: Plane -> Point, fly: Plane -> Point,
                       slots: seq<Slot>, coin: real): Pilot
    requires FriendlySlots(slots)
    decreases n
  {
    if n == 0 then s else PlayerTicks(UpdatePlayerLife(s, advance, fly, slots, coin), n - 1, advance, fly, slots, coin)
  }

  /** A dead player with `c` ticks of countdown left stays down for `c - 1`
      more ticks and is respawned on the `c`-th. */
  lemma {:induction false} CountdownToRespawn(s: Pilot, n: nat, advance: Plane -> Point, fly: Plane -> Point,
                                              slots: seq<Slot>, coin: real)
    requires FriendlySlots(slots)
    requires !s.plane.isTakingOff && !s.plane.Alive() && s.dead && 1 <= n <= s.respawnCooldown
    ensures PlayerTicks(s, n, advance, fly, slots, coin) ==
      if n < s.respawnCooldown then Pilot(s.plane, true, s.respawnCooldown - n)
      else Pilot(PlayerRespawn(s.plane, slots, coin), false, 0)
    decreases n
  {
    var next := UpdatePlayerLife(s, advance, fly, slots, coin);
    if n > 1 {
      CountdownToRespawn(next, n - 1, advance, fly, slots, coin);
    }
  }

  /** The death sequence: the tick the player is found dead starts a
      60-tick countdown, the player stays down through tick 60 and comes
      back, re-armed and taxiing, on tick 61. */
  lemma PlayerDeathTimeline(s: Pilot, advance: Plane -> Point, fly: Plane -> Point,
                            slots: seq<Slot>, coin: real, k: nat)
    requires FriendlySlots(slots)
    requires !s.plane.isTakingOff && !s.plane.Alive() && !s.dead
    requires 1 <= k <= RESPAWN_DELAY
    ensures PlayerTicks(s, k, advance, fly, slots, coin) == Pilot(s.plane, true, RESPAWN_DELAY + 1 - k)
    ensures PlayerTicks(s, RESPAWN_DELAY + 1, advance, fly, slots, coin)
            == Pilot(PlayerRespawn(s.plane, slots, coin), false, 0)
  {
    var first := UpdatePlayerLife(s, advance, fly, slots, coin);
    assert first == Pilot(s.plane, true, RESPAWN_DELAY);
    if k > 1 {
      CountdownToRespawn(first, k - 1, advance, fly, slots, coin);
    }
    CountdownToRespawn(first, RESPAWN_DELAY, advance, fly, slots, coin);
  }

  // ---------------------------------------------------------------- autopilot

  const AUTO_GUN_RANGE: real := 800.0
  const AUTO_GUN_CHANCE: real := 0.15
  const AUTO_MISSILE_CHANCE: real := 0.03
  const AUTO_FALLBACK_CHANCE: real := 0.1
  /** The autopilot spares targets at 30 health or less from missiles. */
  const AUTO_MISSILE_MIN_HEALTH: int := 30
  const INCOMING_RADIUS: real := 300.0

  datatype AutopilotDice = AutopilotDice(gun: real, missile: real, fallback: real)

  datatype Salvo = Salvo(plane: Plane, bullets: seq<Projectile>, missiles: seq<Projectile>, lock: Lock)

  /** The autopilot's missile chance: FireMissile, taken only on a ready
      lock at a target above 30 health. */
  function AutopilotMissile(p: Plane, opps: seq<Plane>, k: nat, missiles: seq<Projectile>, lock: Lock,
                            aimAt: nat -> Aim, roll: real): (l: Launch)
    requires k < |opps|
    ensures l.shooter.machineGunAmmo == p.machineGunAmmo && l.shooter.health == p.health && l.shooter.pos == p.pos
    ensures AppendsAtMostOne(missiles, l.missiles, l.shooter.missileAmmo < p.missileAmmo)
    ensures l.shooter.missileAmmo == p.missileAmmo || l.shooter.missileAmmo == p.missileAmmo - 1
    ensures p.missileAmmo >= 0 ==> l.shooter.missileAmmo >= 0
    ensures l.shooter.missileAmmo < p.missileAmmo ==>
      lock.ready && opps[k].health > AUTO_MISSILE_MIN_HEALTH && l.lock == Lock(0, false)
    ensures l.shooter.missileAmmo == p.missileAmmo ==> l.lock == lock
    ensures l.shooter.missileAmmo < p.missileAmmo <==>
      && p.missileAmmo > 0 && lock.ready && opps[k].health > AUTO_MISSILE_MIN_HEALTH && roll < AUTO_MISSILE_CHANCE
      && RangeVerdict(p, aimAt(NearestOfAll(opps, p.pos).value)) == Launched
  {
    if p.missileAmmo > 0 && lock.ready && opps[k].health > AUTO_MISSILE_MIN_HEALTH && roll < AUTO_MISSILE_CHANCE
    then FireMissile(p, opps, missiles, lock, aimAt)
    else Launch(NoMissiles, p, missiles, lock)
  }

  /** A gun chance of the autopilot: FireMachineGun when the dice and range allow. */
  function AutopilotGun(p: Plane, bullets: seq<Projectile>, allowed: bool): (a: Armed)
    ensures AppendsAtMostOne(bullets, a.shots, allowed && p.machineGunAmmo > 0)
    ensures a.shooter == p.(machineGunAmmo := a.shooter.machineGunAmmo)
    ensures a.shooter.missileAmmo == p.missileAmmo && a.shooter.health == p.health && a.shooter.pos == p.pos
    ensures p.machineGunAmmo >= 0 ==>
      a.shooter.machineGunAmmo >= 0 && a.shooter.machineGunAmmo + |a.shots| == p.machineGunAmmo + |bullets|
  {
    if allowed then FireMachineGun(p, bullets) else Armed(p, bullets)
  }

  /** The weapons part of the autopilot: a gun chance at the nearest living
      opponent under 800, a missile only on a ready lock at a target above
      30 health, and a fallback gun chance when no missile left the rail (or
      the last one just did). */
  function AutopilotFire(p: Plane, opps: seq<Plane>, bullets: seq<Projectile>, missiles: seq<Projectile>,
                         lock: Lock, aimAt: nat -> Aim, dice: AutopilotDice): (r: Salvo)
    ensures NearestOpponent(opps, p.pos).None? ==> r == Salvo(p, bullets, missiles, lock)
    ensures bullets <= r.bullets && |r.bullets| <= |bullets| + 2
    ensures missiles <= r.missiles && |r.missiles| <= |missiles| + 1
    ensures |r.missiles| > |missiles| ==>
      && lock.ready && r.lock == Lock(0, false)
      && opps[NearestOpponent(opps, p.pos).value].health > AUTO_MISSILE_MIN_HEALTH
    ensures |r.missiles| == |missiles| ==> r.lock == lock
    ensures p.machineGunAmmo >= 0 ==>
      r.plane.machineGunAmmo >= 0 && r.plane.machineGunAmmo + |r.bullets| == p.machineGunAmmo + |bullets|
    ensures p.missileAmmo >= 0 ==>
      r.plane.missileAmmo >= 0 && r.plane.missileAmmo + |r.missiles| == p.missileAmmo + |missiles|
    ensures r.plane.health == p.health && r.plane.pos == p.pos
    ensures NearestOpponent(opps, p.pos).Some? ==>
      var k := NearestOpponent(opps, p.pos).value;
      var near := DistSq(opps[k].pos, p.pos) < AUTO_GUN_RANGE * AUTO_GUN_RANGE;
      var first := near && dice.gun < AUTO_GUN_CHANCE && p.machineGunAmmo > 0;
      var launched := |r.missiles| > |missiles|;
      var fallback := (!launched || p.missileAmmo - 1 <= 0) && near && dice.fallback < AUTO_FALLBACK_CHANCE
                      && p.machineGunAmmo - (if first then 1 else 0) > 0;
      && (launched <==>
            && p.missileAmmo > 0 && lock.ready && opps[k].health > AUTO_MISSILE_MIN_HEALTH
            && dice.missile < AUTO_MISSILE_CHANCE
            && RangeVerdict(p, aimAt(NearestOfAll(opps, p.pos).value)) == Launched)
      && |r.bullets| == |bullets| + (if first then 1 else 0) + (if fallback then 1 else 0)
  {
    match NearestOpponent(opps, p.pos)
    case None => Salvo(p, bullets, missiles, lock)
    case Some(k) =>
      var near := DistSq(opps[k].pos, p.pos) < AUTO_GUN_RANGE * AUTO_GUN_RANGE;
      var g := AutopilotGun(p, bullets, near && dice.gun < AUTO_GUN_CHANCE);
      var l := AutopilotMissile(g.shooter, opps, k, missiles, lock, aimAt, dice.missile);
      var fired := l.shooter.missileAmmo < g.shooter.missileAmmo;
      var f := AutopilotGun(l.shooter, g.shots, (!fired || l.shooter.missileAmmo <= 0) && near
                            && dice.fallback < AUTO_FALLBACK_CHANCE);
      Salvo(f.shooter, f.shots, l.missiles, l.lock)
  }

  /** The autopilot's "smart flares": a burst when an opponent missile is
      within 300 and the cooldown has run out. */
  function AutopilotFlares(p: Plane, opponentMissiles: seq<Projectile>, wing: Point,
                           flares: seq<Flare>, draws: seq<FlareDraw>): (r: Evasion)
    requires |draws| == 2 * FLARE_PAIRS
    ensures p.flareCooldown <= 0 && AnyWithin(ShotPositions(opponentMissiles), p.pos, INCOMING_RADIUS) ==>
      r == Burst(p, wing, flares, draws)
    ensures !(p.flareCooldown <= 0 && AnyWithin(ShotPositions(opponentMissiles), p.pos, INCOMING_RADIUS)) ==>
      r == Evasion(p, flares)
    ensures FlareCooldownValid(p) ==> FlareCooldownValid(r.plane)
  {
    if FirstWithin(ShotPositions(opponentMissiles), p.pos, INCOMING_RADIUS).Some? && p.flareCooldown <= 0 then
      Burst(p, wing, flares, draws)
    else Evasion(p, flares)
  }

  // ---------------------------------------------------- opponents and allies

  /** Geometry of one tick: taxi roll, combat steering (rotateToward,
      moveForward, bounceOffWalls), the ally anti-stacking nudge, and the
      aim at each possible target. The guns and the missile launchers call
      predictTargetPosition with different projectile speeds (12 or 16 for
      a bullet, 4 for a missile), so each has its own aim. */
  datatype Motion = Motion(advance: Plane -> Point, steer: Plane -> Pose, separate: Plane -> Point,
                           gunAimEnemy: Enemy -> Aim, missileAimEnemy: Enemy -> Aim,
                           gunAimOpponent: nat -> Aim, missileAimOpponent: nat -> Aim)

  /** The draws one plane consumes in one tick. */
  datatype PilotDice = PilotDice(dodge: DodgeDice, gun: real, missile: real, slots: seq<Slot>, coin: real)

  predicate DiceFor(side: Side, d: PilotDice) {
    && |d.dodge.draws| == 2 * FLARE_PAIRS
    && |d.slots| == SPAWN_ATTEMPTS && forall j :: 0 <= j < |d.slots| ==> SlotDraw(side, d.slots[j])
  }

  /** The lists a plane's update reads and appends to. */
  datatype Sky = Sky(player: Plane, opponents: seq<Plane>, allies: seq<Plane>,
                     bullets: seq<Projectile>, opponentBullets: seq<Projectile>,
                     missiles: seq<Projectile>, opponentMissiles: seq<Projectile>, flares: seq<Flare>)

  /** A plane after its update, with the lists its side fires into. */
  datatype Sortie = Sortie(plane: Plane, bullets: seq<Projectile>, missiles: seq<Projectile>, flares: seq<Flare>)

  const OPPONENT_GUN_RANGE: real := 800.0
  const OPPONENT_GUN_CHANCE: real := 0.05
  const OPPONENT_LOCK_RANGE: real := 1000.0

  /** The planes' own counters that any update leaves within bounds. */
  predicate CountersValid(p: Plane) {
    FlareCooldownValid(p) && DodgeValid(p) && p.lockTimer >= 0
  }

  /** One pass of the updateOpponents loop body. The dead are respawned
      before anything else; a plane on the ground only runs its takeoff
      branch; only an airborne plane dodges, fires and runs its lock timer. */
  function OpponentTick(o: Plane, sky: Sky, dice: PilotDice, m: Motion): (r: Sortie)
    requires DiceFor(OpponentSide, dice)
    ensures !o.Alive() ==>
      r == Sortie(RespawnPlane(o, OpponentSide, Some(sky.player.pos), dice.slots, dice.coin),
                  sky.opponentBullets, sky.opponentMissiles, sky.flares)
    ensures o.Alive() && !Airborne(o) ==>
      r == Sortie(OpponentTakeoff(o, m.advance).value, sky.opponentBullets, sky.opponentMissiles, sky.flares)
    ensures o.Alive() && Airborne(o) ==>
      var e := NearestEnemy(sky.player, sky.allies, o.pos);
      var d := DistSq(EnemyPos(sky.player, sky.allies, e), o.pos);
      && r.plane.thrust == COMBAT_THRUST && r.plane.health == o.health
      && r.plane.lockTimer == OpponentLockTimer(o.lockTimer, d < OPPONENT_LOCK_RANGE * OPPONENT_LOCK_RANGE, dice.missile).timer
      && |sky.opponentBullets| <= |r.bullets| <= |sky.opponentBullets| + 1
      && (|r.bullets| > |sky.opponentBullets| ==> d < OPPONENT_GUN_RANGE * OPPONENT_GUN_RANGE)
      && |sky.opponentMissiles| <= |r.missiles| <= |sky.opponentMissiles| + 1
      && (|r.missiles| > |sky.opponentMissiles| ==> o.lockTimer + 1 > OPPONENT_LOCK_TIME)
    ensures sky.opponentBullets <= r.bullets
    ensures sky.opponentMissiles <= r.missiles
    ensures sky.flares <= r.flares
    ensures CountersValid(o) && UnitRoll(dice.dodge.hold) ==> CountersValid(r.plane)
  {
    if o.health <= 0 then
      Sortie(RespawnPlane(o, OpponentSide, Some(sky.player.pos), dice.slots, dice.coin),
             sky.opponentBullets, sky.opponentMissiles, sky.flares)
    else match OpponentTakeoff(o, m.advance)
      case Some(g) => Sortie(g, sky.opponentBullets, sky.opponentMissiles, sky.flares)
      case None => OpponentFlight(o, sky, dice, m)
  }

  /** An airborne opponent's combat: dodge and steer, a 5% gun chance within
      800 of the nearest enemy, and the lock timer's missile attempt. */
  function OpponentFlight(o: Plane, sky: Sky, dice: PilotDice, m: Motion): (r: Sortie)
    requires |dice.dodge.draws| == 2 * FLARE_PAIRS
    ensures
      var e := NearestEnemy(sky.player, sky.allies, o.pos);
      var d := DistSq(EnemyPos(sky.player, sky.allies, e), o.pos);
      && r.plane.thrust == COMBAT_THRUST && r.plane.health == o.health
      && r.plane.lockTimer == OpponentLockTimer(o.lockTimer, d < OPPONENT_LOCK_RANGE * OPPONENT_LOCK_RANGE, dice.missile).timer
      && sky.opponentBullets <= r.bullets && |r.bullets| <= |sky.opponentBullets| + 1
      && (|r.bullets| > |sky.opponentBullets| ==> d < OPPONENT_GUN_RANGE * OPPONENT_GUN_RANGE)
      && sky.opponentMissiles <= r.missiles && |r.missiles| <= |sky.opponentMissiles| + 1
      && (|r.missiles| > |sky.opponentMissiles| ==> o.lockTimer + 1 > OPPONENT_LOCK_TIME)
    ensures
      var e := NearestEnemy(sky.player, sky.allies, o.pos);
      var d := DistSq(EnemyPos(sky.player, sky.allies, e), o.pos);
      var attempt := OpponentLockTimer(o.lockTimer, d < OPPONENT_LOCK_RANGE * OPPONENT_LOCK_RANGE, dice.missile).attempt;
      && (|r.bullets| > |sky.opponentBullets| <==>
            d < OPPONENT_GUN_RANGE * OPPONENT_GUN_RANGE && dice.gun < OPPONENT_GUN_CHANCE && o.machineGunAmmo > 0)
      && (|r.missiles| > |sky.opponentMissiles| <==>
            attempt && o.missileAmmo > 0 && RangeVerdict(r.plane, m.missileAimEnemy(e)) == Launched)
    ensures sky.flares <= r.flares
    ensures CountersValid(o) && UnitRoll(dice.dodge.hold) ==> CountersValid(r.plane)
  {
    var e := NearestEnemy(sky.player, sky.allies, o.pos);
    var d := DistSq(EnemyPos(sky.player, sky.allies, e), o.pos);
    var ev := Maneuver(o, sky, dice.dodge, m);
    var gun := if d < OPPONENT_GUN_RANGE * OPPONENT_GUN_RANGE && dice.gun < OPPONENT_GUN_CHANCE
               then FireOpponentMachineGun(ev.plane, sky.player, sky.allies, sky.opponentBullets, m.gunAimEnemy)
               else Armed(ev.plane, sky.opponentBullets);
    var lt := OpponentLockTimer(o.lockTimer, d < OPPONENT_LOCK_RANGE * OPPONENT_LOCK_RANGE, dice.missile);
    var ms := if lt.attempt then FireOpponentMissile(gun.shooter, sky.opponentMissiles, m.missileAimEnemy(e))
              else Armed(gun.shooter, sky.opponentMissiles);
    Sortie(ms.shooter.(lockTimer := lt.timer), gun.shots, ms.shots, ev.flares)
  }

  const ALLY_GUN_RANGE: real := 600.0
  const ALLY_GUN_CHANCE: real := 0.04
  const ALLY_MISSILE_RANGE: real := 1000.0
  const ALLY_MISSILE_CHANCE: real := 0.01

  /** One pass of the updateAllies loop body. Unlike the opponents, the
      takeoff branches come first and the death check after them, and the
      combat target is the nearest opponent dead or alive. */
  function AllyTick(a: Plane, sky: Sky, dice: PilotDice, m: Motion): (r: Sortie)
    requires DiceFor(FriendlySide, dice)
    ensures AllyTakeoff(a).Some? ==> r == Sortie(AllyTakeoff(a).value, sky.bullets, sky.missiles, sky.flares)
    ensures AllyTakeoff(a).None? && !a.Alive() ==>
      r == Sortie(RespawnPlane(AllyResumeTaxi(a), FriendlySide, Some(sky.player.pos), dice.slots, dice.coin),
                  sky.bullets, sky.missiles, sky.flares)
    ensures AllyTakeoff(a).None? && a.Alive() ==>
      && (|r.bullets| > |sky.bullets| || |r.missiles| > |sky.missiles| ==> |sky.opponents| > 0)
      && r.plane.health == a.health
    ensures AllyStep(a, sky, r)
    ensures CountersValid(a) && UnitRoll(dice.dodge.hold) ==> CountersValid(r.plane)
  {
    match AllyTakeoff(a)
    case Some(g) => Sortie(g, sky.bullets, sky.missiles, sky.flares)
    case None =>
      var a1 := AllyResumeTaxi(a);
      if a1.health <= 0 then
        Sortie(RespawnPlane(a1, FriendlySide, Some(sky.player.pos), dice.slots, dice.coin),
               sky.bullets, sky.missiles, sky.flares)
      else AllyFlight(a1, sky, dice, m)
  }

  /** A living ally's combat, then the anti-stacking nudge. */
  function AllyFlight(a: Plane, sky: Sky, dice: PilotDice, m: Motion): (r: Sortie)
    requires |dice.dodge.draws| == 2 * FLARE_PAIRS
    ensures AllyStep(a, sky, r) && r.plane.health == a.health
    ensures |r.bullets| > |sky.bullets| || |r.missiles| > |sky.missiles| ==> |sky.opponents| > 0
    ensures CountersValid(a) && UnitRoll(dice.dodge.hold) ==> CountersValid(r.plane)
    ensures |sky.opponents| > 0 ==>
      var d := DistSq(sky.opponents[NearestOfAll(sky.opponents, a.pos).value].pos, a.pos);
      var steered := Maneuver(a, sky, dice.dodge, m).plane;
      && (|r.bullets| > |sky.bullets| <==>
            && d < ALLY_GUN_RANGE * ALLY_GUN_RANGE && dice.gun < ALLY_GUN_CHANCE && a.machineGunAmmo > 0
            && exists j :: 0 <= j < |sky.opponents| && sky.opponents[j].Alive())
      && (|r.missiles| > |sky.missiles| <==>
            && d < ALLY_MISSILE_RANGE * ALLY_MISSILE_RANGE && dice.missile < ALLY_MISSILE_CHANCE && a.missileAmmo > 0
            && RangeVerdict(steered, m.missileAimOpponent(NearestOfAll(sky.opponents, steered.pos).value)) == Launched)
  {
    var fought := AllyCombat(a, sky, dice, m);
    Sortie(fought.plane.(pos := m.separate(fought.plane)), fought.bullets, fought.missiles, fought.flares)
  }

  /** The parts of a plane that firing leaves alone. */
  predicate OnlyAmmoSpent(before: Plane, after: Plane) {
    after == before.(machineGunAmmo := after.machineGunAmmo, missileAmmo := after.missileAmmo)
  }

  /** The dodge check and the steering that start the combat branch of both
      updateOpponents and updateAllies: both dodge the player's side's
      bullets and the opponents' missiles. */
  function Maneuver(e: Plane, sky: Sky, dice: DodgeDice, m: Motion): (r: Evasion)
    requires |dice.draws| == 2 * FLARE_PAIRS
    ensures r.plane.thrust == COMBAT_THRUST && sky.flares <= r.flares
    ensures r.plane.health == e.health && r.plane.lockTimer == e.lockTimer
    ensures r.plane.isTakingOff == e.isTakingOff && r.plane.hasStartedTaxi == e.hasStartedTaxi
    ensures r.plane.machineGunAmmo == e.machineGunAmmo && r.plane.missileAmmo == e.missileAmmo
    ensures CountersValid(e) && UnitRoll(dice.hold) ==> CountersValid(r.plane)
  {
    var ev := MaybeDodge(e, sky.bullets, sky.opponentMissiles, dice, sky.flares);
    var pose := m.steer(ev.plane);
    Evasion(ev.plane.(pos := pose.pos, angle := pose.angle, thrust := COMBAT_THRUST), ev.flares)
  }

  /** The ally's gun chance (600 range, 4%) and missile chance (1000 range,
      1%) at the opponent at squared distance `d`. */
  function AllyWeapons(p: Plane, sky: Sky, d: real, dice: PilotDice, m: Motion, flares: seq<Flare>): (r: Sortie)
    ensures sky.bullets <= r.bullets && |r.bullets| <= |sky.bullets| + 1
    ensures sky.missiles <= r.missiles && |r.missiles| <= |sky.missiles| + 1
    ensures |r.bullets| > |sky.bullets| ==> d < ALLY_GUN_RANGE * ALLY_GUN_RANGE && dice.gun < ALLY_GUN_CHANCE
    ensures |r.missiles| > |sky.missiles| ==> d < ALLY_MISSILE_RANGE * ALLY_MISSILE_RANGE && dice.missile < ALLY_MISSILE_CHANCE
    ensures r.flares == flares && OnlyAmmoSpent(p, r.plane)
    ensures |r.bullets| > |sky.bullets| <==>
      && d < ALLY_GUN_RANGE * ALLY_GUN_RANGE && dice.gun < ALLY_GUN_CHANCE && p.machineGunAmmo > 0
      && exists j :: 0 <= j < |sky.opponents| && sky.opponents[j].Alive()
    ensures |r.missiles| > |sky.missiles| <==>
      && d < ALLY_MISSILE_RANGE * ALLY_MISSILE_RANGE && dice.missile < ALLY_MISSILE_CHANCE
      && p.missileAmmo > 0 && |sky.opponents| > 0
      && RangeVerdict(p, m.missileAimOpponent(NearestOfAll(sky.opponents, p.pos).value)) == Launched
  {
    var gun := if d < ALLY_GUN_RANGE * ALLY_GUN_RANGE && dice.gun < ALLY_GUN_CHANCE
               then FireAllyMachineGun(p, sky.opponents, sky.bullets, m.gunAimOpponent)
               else Armed(p, sky.bullets);
    var ms := if d < ALLY_MISSILE_RANGE * ALLY_MISSILE_RANGE && dice.missile < ALLY_MISSILE_CHANCE
              then FireAllyMissile(gun.shooter, sky.opponents, sky.missiles, m.missileAimOpponent)
              else Armed(gun.shooter, sky.missiles);
    Sortie(ms.shooter, gun.shots, ms.shots, flares)
  }

  /** The combat part of updateAllies, before the anti-stacking nudge:
      dodge, steer, and a gun and a missile chance at the nearest opponent
      (dead or alive). */
  function AllyCombat(a: Plane, sky: Sky, dice: PilotDice, m: Motion): (r: Sortie)
    requires |dice.dodge.draws| == 2 * FLARE_PAIRS
    ensures sky.bullets <= r.bullets && |r.bullets| <= |sky.bullets| + 1
    ensures sky.missiles <= r.missiles && |r.missiles| <= |sky.missiles| + 1
    ensures sky.flares <= r.flares
    ensures |sky.opponents| == 0 ==> r == Sortie(a, sky.bullets, sky.missiles, sky.flares)
    ensures r.plane.health == a.health && r.plane.isTakingOff == a.isTakingOff
    ensures r.plane.hasStartedTaxi == a.hasStartedTaxi
    ensures CountersValid(a) && UnitRoll(dice.dodge.hold) ==> CountersValid(r.plane)
    ensures |sky.opponents| > 0 ==>
      var d := DistSq(sky.opponents[NearestOfAll(sky.opponents, a.pos).value].pos, a.pos);
      var steered := Maneuver(a, sky, dice.dodge, m).plane;
      && (|r.bullets| > |sky.bullets| <==>
            && d < ALLY_GUN_RANGE * ALLY_GUN_RANGE && dice.gun < ALLY_GUN_CHANCE && a.machineGunAmmo > 0
            && exists j :: 0 <= j < |sky.opponents| && sky.opponents[j].Alive())
      && (|r.missiles| > |sky.missiles| <==>
            && d < ALLY_MISSILE_RANGE * ALLY_MISSILE_RANGE && dice.missile < ALLY_MISSILE_CHANCE && a.missileAmmo > 0
            && RangeVerdict(steered, m.missileAimOpponent(NearestOfAll(sky.opponents, steered.pos).value)) == Launched)
  {
    match NearestOfAll(sky.opponents, a.pos)
    case None => Sortie(a, sky.bullets, sky.missiles, sky.flares)
    case Some(k) =>
      var ev := Maneuver(a, sky, dice.dodge, m);
      AllyWeapons(ev.plane, sky, DistSq(sky.opponents[k].pos, a.pos), dice, m, ev.flares)
  }

  predicate AllDice(side: Side, dice: seq<PilotDice>, n: nat) {
    |dice| == n && forall i :: 0 <= i < n ==> DiceFor(side, dice[i])
  }

  /** The sky after the opponent at index `i` has had its tick `t`. */
  function OpponentNext(sky: Sky, t: Sortie, i: nat): (r: Sky)
    requires i < |sky.opponents|
    ensures r.opponents == sky.opponents[i := t.plane] && r.opponentBullets == t.bullets
    ensures r.opponentMissiles == t.missiles && r.flares == t.flares
    ensures r == sky.(opponents := r.opponents, opponentBullets := r.opponentBullets,
                      opponentMissiles := r.opponentMissiles, flares := r.flares)
  {
    sky.(opponents := sky.opponents[i := t.plane], opponentBullets := t.bullets,
         opponentMissiles := t.missiles, flares := t.flares)
  }

  /** What one opponent's tick does to its own lists, and to the plane: a
      dead one respawns at full health, taxiing; a living one keeps its
      health; valid counters stay valid when the dodge draw is a unit roll. */
  predicate OpponentStep(o: Plane, sky: Sky, t: Sortie, d: PilotDice) {
    && sky.opponentBullets <= t.bullets && sky.opponentMissiles <= t.missiles && sky.flares <= t.flares
    && (!o.Alive() ==> t.plane.health == o.maxHealth && t.plane.isTakingOff)
    && (o.Alive() ==> t.plane.health == o.health)
    && (CountersValid(o) && UnitRoll(d.dodge.hold) ==> CountersValid(t.plane))
  }

  lemma OpponentTickStep(o: Plane, sky: Sky, dice: PilotDice, m: Motion)
    requires DiceFor(OpponentSide, dice)
    ensures OpponentStep(o, sky, OpponentTick(o, sky, dice, m), dice)
  {
  }

  /** What the updateOpponents loop from index `i` on keeps: the opponents
      before `i`, everything but the opponents and their lists, those lists
      only grown, and every dead opponent from `i` on respawned. */
  predicate OpponentsKept(sky: Sky, r: Sky, dice: seq<PilotDice>, i: nat) {
    && |r.opponents| == |sky.opponents| && i <= |sky.opponents| && |dice| == |sky.opponents|
    && r.player == sky.player && r.allies == sky.allies
    && r.bullets == sky.bullets && r.missiles == sky.missiles
    && r.opponents[..i] == sky.opponents[..i]
    && sky.opponentBullets <= r.opponentBullets && sky.opponentMissiles <= r.opponentMissiles
    && sky.flares <= r.flares
    && (forall j :: i <= j < |sky.opponents| && !sky.opponents[j].Alive() ==>
          r.opponents[j].health == sky.opponents[j].maxHealth && r.opponents[j].isTakingOff)
    && (forall j :: i <= j < |sky.opponents| && sky.opponents[j].Alive() ==>
          r.opponents[j].health == sky.opponents[j].health)
    && (forall j :: i <= j < |sky.opponents| && CountersValid(sky.opponents[j]) && UnitRoll(dice[j].dodge.hold) ==>
          CountersValid(r.opponents[j]))
  }

  lemma OpponentsChain(sky: Sky, t: Sortie, r: Sky, dice: seq<PilotDice>, i: nat)
    requires i < |sky.opponents| && |dice| == |sky.opponents|
    requires OpponentStep(sky.opponents[i], sky, t, dice[i])
    requires OpponentsKept(OpponentNext(sky, t, i), r, dice, i + 1)
    ensures OpponentsKept(sky, r, dice, i)
  {
    assert r.opponents[..i] == r.opponents[..i + 1][..i];
    assert r.opponents[i] == r.opponents[..i + 1][i];
  }

  /** updateOpponents(): the loop over the roster from index `i` on, each
      opponent seeing the bullets, missiles and flares of those before it. */
  function UpdateOpponentsFrom(sky: Sky, dice: seq<PilotDice>, m: Motion, i: nat): (r: Sky)
    requires AllDice(OpponentSide, dice, |sky.opponents|) && i <= |sky.opponents|
    ensures OpponentsKept(sky, r, dice, i)
    decreases |sky.opponents| - i
  {
    if i == |sky.opponents| then sky
    else
      var t := OpponentTick(sky.opponents[i], sky, dice[i], m);
      OpponentTickStep(sky.opponents[i], sky, dice[i], m);
      var r := UpdateOpponentsFrom(OpponentNext(sky, t, i), dice, m, i + 1);
      OpponentsChain(sky, t, r, dice, i);
      r
  }

  function UpdateOpponents(sky: Sky, dice: seq<PilotDice>, m: Motion): (r: Sky)
    requires AllDice(OpponentSide, dice, |sky.opponents|)
    ensures |r.opponents| == |sky.opponents| && r.player == sky.player && r.allies == sky.allies
    ensures sky.opponentBullets <= r.opponentBullets && sky.opponentMissiles <= r.opponentMissiles
    ensures sky.flares <= r.flares
    ensures forall j :: 0 <= j < |sky.opponents| && !sky.opponents[j].Alive() ==>
      r.opponents[j].health == sky.opponents[j].maxHealth && r.opponents[j].isTakingOff
    ensures forall j :: 0 <= j < |sky.opponents| && sky.opponents[j].Alive() ==>
      r.opponents[j].health == sky.opponents[j].health
    ensures forall j :: 0 <= j < |sky.opponents| && CountersValid(sky.opponents[j]) && UnitRoll(dice[j].dodge.hold) ==>
      CountersValid(r.opponents[j])
  {
    UpdateOpponentsFrom(sky, dice, m, 0)
  }

  /** What one ally's tick does to the lists it fires into and to its shape. */
  predicate AllyStep(a: Plane, sky: Sky, t: Sortie) {
    && sky.bullets <= t.bullets && |t.bullets| <= |sky.bullets| + 1
    && sky.missiles <= t.missiles && |t.missiles| <= |sky.missiles| + 1
    && sky.flares <= t.flares
    && (AllyShape(a) ==> AllyShape(t.plane))
  }

  /** What one ally's tick does to the plane: a dead ally past its takeoff
      branches respawns at full health, taxiing; a living one keeps its
      health; valid counters stay valid when the dodge draw is a unit roll. */
  predicate AllyFate(a: Plane, after: Plane, d: PilotDice) {
    && (AllyTakeoff(a).None? && !a.Alive() ==> after.health == a.maxHealth && after.isTakingOff)
    && (a.Alive() ==> after.health == a.health)
    && (CountersValid(a) && UnitRoll(d.dodge.hold) ==> CountersValid(after))
  }

  lemma AllyTickFate(a: Plane, sky: Sky, dice: PilotDice, m: Motion)
    requires DiceFor(FriendlySide, dice)
    ensures AllyFate(a, AllyTick(a, sky, dice, m).plane, dice)
  {
  }

  /** The sky after the ally at index `i` has had its tick `t`. */
  function AllyNext(sky: Sky, t: Sortie, i: nat): (r: Sky)
    requires i < |sky.allies|
    ensures r.allies == sky.allies[i := t.plane] && r.bullets == t.bullets && r.missiles == t.missiles
    ensures r.flares == t.flares && r == sky.(allies := r.allies, bullets := r.bullets, missiles := r.missiles, flares := r.flares)
  {
    sky.(allies := sky.allies[i := t.plane], bullets := t.bullets, missiles := t.missiles, flares := t.flares)
  }

  /** What the updateAllies loop from index `i` on keeps: the allies before
      `i`, everything but the allies and the player's lists, the player's
      lists only grown, by at most one bullet and one missile per ally, and
      the shape of every ally when the ones still to fly have it. */
  predicate AlliesKept(sky: Sky, r: Sky, dice: seq<PilotDice>, i: nat) {
    && |r.allies| == |sky.allies| && i <= |sky.allies| && |dice| == |sky.allies|
    && r.player == sky.player && r.opponents == sky.opponents
    && r.opponentBullets == sky.opponentBullets && r.opponentMissiles == sky.opponentMissiles
    && r.allies[..i] == sky.allies[..i]
    && sky.bullets <= r.bullets && sky.missiles <= r.missiles && sky.flares <= r.flares
    && |r.bullets| <= |sky.bullets| + (|sky.allies| - i) && |r.missiles| <= |sky.missiles| + (|sky.allies| - i)
    && ((forall j :: i <= j < |sky.allies| ==> AllyShape(sky.allies[j])) ==>
        (forall j :: 0 <= j < |sky.allies| ==> AllyShape(sky.allies[j]) ==> AllyShape(r.allies[j])))
    && (forall j :: i <= j < |sky.allies| ==> AllyFate(sky.allies[j], r.allies[j], dice[j]))
  }

  lemma AlliesChain(sky: Sky, t: Sortie, r: Sky, dice: seq<PilotDice>, i: nat)
    requires i < |sky.allies| && |dice| == |sky.allies|
    requires AllyStep(sky.allies[i], sky, t) && AllyFate(sky.allies[i], t.plane, dice[i])
    requires AlliesKept(AllyNext(sky, t, i), r, dice, i + 1)
    ensures AlliesKept(sky, r, dice, i)
  {
    var next := AllyNext(sky, t, i);
    assert r.allies[..i] == r.allies[..i + 1][..i];
    assert r.allies[i] == r.allies[..i + 1][i];
    if forall j :: i <= j < |sky.allies| ==> AllyShape(sky.allies[j]) {
      assert forall j :: i + 1 <= j < |next.allies| ==> AllyShape(next.allies[j]);
      forall j | 0 <= j < |sky.allies| && AllyShape(sky.allies[j])
        ensures AllyShape(r.allies[j])
      {
        if j < i {
          assert r.allies[j] == r.allies[..i][j];
        }
      }
    }
  }

  /** updateAllies(): the loop over the allies from index `i` on; allies
      fire into the player's bullet and missile lists. */
  function UpdateAlliesFrom(sky: Sky, dice: seq<PilotDice>, m: Motion, i: nat): (r: Sky)
    requires AllDice(FriendlySide, dice, |sky.allies|) && i <= |sky.allies|
    ensures AlliesKept(sky, r, dice, i)
    decreases |sky.allies| - i
  {
    if i == |sky.allies| then sky
    else
      var t := AllyTick(sky.allies[i], sky, dice[i], m);
      var r := UpdateAlliesFrom(AllyNext(sky, t, i), dice, m, i + 1);
      AllyTickFate(sky.allies[i], sky, dice[i], m);
      AlliesChain(sky, t, r, dice, i);
      r
  }

  /** Each ally fires at most one bullet and one missile per update. */
  function UpdateAllies(sky: Sky, dice: seq<PilotDice>, m: Motion): (r: Sky)
    requires AllDice(FriendlySide, dice, |sky.allies|)
    ensures |r.allies| == |sky.allies| && r.player == sky.player && r.opponents == sky.opponents
    ensures sky.bullets <= r.bullets && |r.bullets| <= |sky.bullets| + |sky.allies|
    ensures sky.missiles <= r.missiles && |r.missiles| <= |sky.missiles| + |sky.allies|
    ensures (forall j :: 0 <= j < |sky.allies| ==> AllyShape(sky.allies[j])) ==>
            (forall j :: 0 <= j < |sky.allies| ==> AllyShape(r.allies[j]))
    ensures forall j :: 0 <= j < |sky.allies| && AllyTakeoff(sky.allies[j]).None? && !sky.allies[j].Alive() ==>
      r.allies[j].health == sky.allies[j].maxHealth && r.allies[j].isTakingOff
    ensures forall j :: 0 <= j < |sky.allies| && sky.allies[j].Alive() ==>
      r.allies[j].health == sky.allies[j].health
    ensures forall j :: 0 <= j < |sky.allies| && CountersValid(sky.allies[j]) && UnitRoll(dice[j].dodge.hold) ==>
      CountersValid(r.allies[j])
  {
    UpdateAlliesFrom(sky, dice, m, 0)
  }
}

=== FILE: projectiles.dfy ===
/** The projectile passes of game.js: updateBullets (player and ally
    bullets against opponents), updateOpponentBullets (against the player
    and allies), updateMissiles (player and ally missiles, then opponent
    missiles and their capture by flares) and updateFlares.

    Motion is supplied: `flight` is where one tick's straight-line step puts
    a bullet or flare, `homing` is where `rotateToward` plus one step puts a
    missile chasing a point. */
module Projectiles {
  import opened Geometry
  import opened Targeting
  import opened Entities
  import opened Scans
  import opened Splicing

  const BULLET_HIT_RADIUS: real := 30.0
  const BULLET_DAMAGE: int := 10
  const MISSILE_HIT_RADIUS: real := 40.0
  const MISSILE_DAMAGE: int := 25
  const FLARE_HIT_RADIUS: real := 20.0

  // ------------------------------------------------------------------ damage

  /** One `health -= dmg` on the plane a hit names. Health is not clamped. */
  function Strike(planes: seq<Plane>, hit: Option<nat>, dmg: int): (r: seq<Plane>)
    ensures |r| == |planes|
    ensures forall k :: 0 <= k < |planes| ==>
      r[k] == planes[k].(health := planes[k].health - if hit == Some(k) then dmg else 0)
  {
    if hit.Some? && hit.value < |planes| then
      planes[hit.value := planes[hit.value].(health := planes[hit.value].health - dmg)]
    else planes
  }

  /** The hits of a pass in the loop's order, last projectile first. */
  function ApplyHits(planes: seq<Plane>, hits: seq<Option<nat>>, dmg: int): (r: seq<Plane>)
    ensures |r| == |planes|
    decreases |hits|
  {
    if |hits| == 0 then planes
    else ApplyHits(Strike(planes, hits[|hits| - 1], dmg), hits[..|hits| - 1], dmg)
  }

  /** `n` hits of `d` each, added up one at a time. */
  function Times(n: nat, d: int): (r: int)
    ensures n == 0 ==> r == 0
  {
    if n == 0 then 0 else Times(n - 1, d) + d
  }

  lemma {:induction false} TimesIsProduct(n: nat, d: int)
    ensures Times(n, d) == d * n
  {
    if n > 0 {
      TimesIsProduct(n - 1, d);
      assert d * n == d * (n - 1) + d;
    }
  }

  /** How many of `hits` name plane `k`, counted from the last. */
  function HitsOn(hits: seq<Option<nat>>, k: nat): (n: nat)
    ensures n <= |hits|
    decreases |hits|
  {
    if |hits| == 0 then 0
    else HitsOn(hits[..|hits| - 1], k) + if hits[|hits| - 1] == Some(k) then 1 else 0
  }

  lemma {:induction false} HitsOnCounts(hits: seq<Option<nat>>, k: nat)
    ensures HitsOn(hits, k) == multiset(hits)[Some(k)]
    decreases |hits|
  {
    if |hits| > 0 {
      HitsOnCounts(hits[..|hits| - 1], k);
      MultisetLast(hits, Some(k));
    }
  }

  /** The recursion of `ApplyHits` against the running total of damage. */
  lemma {:induction false} ApplyHitsTimes(planes: seq<Plane>, hits: seq<Option<nat>>, dmg: int, k: nat)
    requires k < |planes|
    ensures ApplyHits(planes, hits, dmg)[k]
            == planes[k].(health := planes[k].health - Times(HitsOn(hits, k), dmg))
    decreases |hits|
  {
    if |hits| > 0 {
      var n := |hits| - 1;
      ApplyHitsTimes(Strike(planes, hits[n], dmg), hits[..n], dmg, k);
    }
  }

  /** Damage in closed form: a plane loses `dmg` for every hit naming it,
      whatever the order, and nothing but its health changes. */
  lemma ApplyHitsCounts(planes: seq<Plane>, hits: seq<Option<nat>>, dmg: int, k: nat)
    requires k < |planes|
    ensures ApplyHits(planes, hits, dmg)[k]
            == planes[k].(health := planes[k].health - dmg * multiset(hits)[Some(k)])
  {
    ApplyHitsTimes(planes, hits, dmg, k);
    HitsOnCounts(hits, k);
    TimesIsProduct(multiset(hits)[Some(k)], dmg);
  }

  /** Counting an element of a non-empty sequence: its occurrences before
      the last position, plus one if it is the last. */
  lemma MultisetLast<T>(xs: seq<T>, x: T)
    requires |xs| > 0
    ensures multiset(xs)[x] == multiset(xs[..|xs| - 1])[x] + if xs[|xs| - 1] == x then 1 else 0
  {
    assert xs == xs[..|xs| - 1] + [xs[|xs| - 1]];
  }

  // ------------------------------------------------------------- visit fates

  /** A projectile after its visit: moved and aged, the plane it hit (an
      index into the targets scanned), and how many times the loop splices
      it out. */
  datatype Fate = Fate(shot: Projectile, hit: Option<nat>, splices: nat)

  function Shots(fs: seq<Fate>): (r: seq<Projectile>)
    ensures |r| == |fs| && forall i :: 0 <= i < |fs| ==> r[i] == fs[i].shot
  {
    seq(|fs|, i requires 0 <= i < |fs| => fs[i].shot)
  }

  function Hits(fs: seq<Fate>): (r: seq<Option<nat>>)
    ensures |r| == |fs| && forall i :: 0 <= i < |fs| ==> r[i] == fs[i].hit
  {
    seq(|fs|, i requires 0 <= i < |fs| => fs[i].hit)
  }

  function FateSplices(f: Fate): nat { f.splices }

  function Splices(fs: seq<Fate>): seq<nat> { Each(fs, FateSplices) }

  /** The same fates, spliced at most once each: what the loop means to do. */
  function Once(fs: seq<Fate>): (r: seq<nat>)
    ensures |r| == |fs| && SingleSplices(r)
    ensures forall i :: 0 <= i < |fs| ==> (r[i] == 0 <==> fs[i].splices == 0)
  {
    seq(|fs|, i requires 0 <= i < |fs| => if fs[i].splices == 0 then 0 else 1)
  }

  /** A projectile list after a pass, with the planes it damaged. */
  datatype Volley = Volley(shots: seq<Projectile>, planes: seq<Plane>)

  // ------------------------------------------------------------- updateBullets

  /** The visit of one player or ally bullet: move, age, hit the first
      opponent in array order (dead or alive) within 30 of its new position;
      splice once for the hit and once more if its life has run out. */
  function BulletFate(b: Projectile, opps: seq<Plane>, flight: Projectile -> Point): (f: Fate)
    ensures f.shot == b.(pos := flight(b), life := b.life - 1)
    ensures f.hit.None? <==> forall j :: 0 <= j < |opps| ==> !Within(opps[j].pos, flight(b), BULLET_HIT_RADIUS)
    ensures f.hit.Some? ==>
      && f.hit.value < |opps| && Within(opps[f.hit.value].pos, flight(b), BULLET_HIT_RADIUS)
      && forall j :: 0 <= j < f.hit.value ==> !Within(opps[j].pos, flight(b), BULLET_HIT_RADIUS)
    ensures f.splices == (if f.hit.Some? then 1 else 0) + (if b.life - 1 <= 0 then 1 else 0)
  {
    var hit := FirstWithin(Positions(opps), flight(b), BULLET_HIT_RADIUS);
    Fate(b.(pos := flight(b), life := b.life - 1), hit,
         (if hit.Some? then 1 else 0) + (if b.life - 1 <= 0 then 1 else 0))
  }

  function BulletFates(bullets: seq<Projectile>, opps: seq<Plane>, flight: Projectile -> Point): (fs: seq<Fate>)
    ensures |fs| == |bullets| && forall i :: 0 <= i < |bullets| ==> fs[i] == BulletFate(bullets[i], opps, flight)
  {
    seq(|bullets|, i requires 0 <= i < |bullets| => BulletFate(bullets[i], opps, flight))
  }

  /** updateBullets() as game.js writes it: a bullet that hits and expires
      in the same tick is spliced twice. */
  function UpdateBulletsAsWritten(bullets: seq<Projectile>, opps: seq<Plane>, flight: Projectile -> Point): (r: Volley)
    ensures var fs := BulletFates(bullets, opps, flight);
      && r.planes == ApplyHits(opps, Hits(fs), BULLET_DAMAGE)
      && (SingleSplices(Splices(fs)) ==> r.shots == Keep(Shots(fs), Splices(fs)))
  {
    var fs := BulletFates(bullets, opps, flight);
    assert SingleSplices(Splices(fs)) ==> SpliceLoop(Shots(fs), Splices(fs), |fs|) == Keep(Shots(fs), Splices(fs)) by {
      if SingleSplices(Splices(fs)) {
        SpliceLoopKeeps(Shots(fs), Splices(fs));
      }
    }
    Volley(SpliceLoop(Shots(fs), Splices(fs), |fs|), ApplyHits(opps, Hits(fs), BULLET_DAMAGE))
  }

  /** updateBullets() as intended: every bullet is removed at most once, so
      exactly the bullets that neither hit nor ran out survive, in order;
      every opponent loses 10 per bullet whose first target it was. */
  function UpdateBullets(bullets: seq<Projectile>, opps: seq<Plane>, flight: Projectile -> Point): (r: Volley)
    ensures var fs := BulletFates(bullets, opps, flight);
      && r.shots == Keep(Shots(fs), Splices(fs))
      && |r.shots| == Unspent(Splices(fs))
      && |r.planes| == |opps|
      && (forall k :: 0 <= k < |opps| ==>
            r.planes[k] == opps[k].(health := opps[k].health - BULLET_DAMAGE * multiset(Hits(fs))[Some(k)]))
    ensures forall s :: s in r.shots ==> s.life > 0
  {
    var fs := BulletFates(bullets, opps, flight);
    var planes := ApplyHits(opps, Hits(fs), BULLET_DAMAGE);
    forall k | 0 <= k < |opps|
      ensures planes[k] == opps[k].(health := opps[k].health - BULLET_DAMAGE * multiset(Hits(fs))[Some(k)])
    {
      ApplyHitsCounts(opps, Hits(fs), BULLET_DAMAGE, k);
    }
    var shots := Keep(Shots(fs), Splices(fs));
    forall s | s in shots
      ensures s.life > 0
    {
      KeepOnlyUnspent(Shots(fs), Splices(fs), s);
    }
    Volley(shots, planes)
  }

  /** When no bullet both hits and expires, the code as written does what
      is intended. */
  lemma BulletsAsWrittenAgree(bullets: seq<Projectile>, opps: seq<Plane>, flight: Projectile -> Point)
    requires forall i :: 0 <= i < |bullets| ==>
      !(BulletFate(bullets[i], opps, flight).hit.Some? && bullets[i].life - 1 <= 0)
    ensures UpdateBulletsAsWritten(bullets, opps, flight) == UpdateBullets(bullets, opps, flight)
  {
    var fs := BulletFates(bullets, opps, flight);
    assert SingleSplices(Splices(fs));
  }

  /** A bullet at angle 0 and speed 16 steps 16 to the right. */
  function StepRight(b: Projectile): Point {
    b.pos.Plus(Point(16.0, 0.0))
  }

  /** An opponent at the origin, and three bullets flying at angle 0: the
      middle one reaches the opponent on its last tick of life. */
  const ROW_OPPONENTS: seq<Plane> := [CreatePlane(Point(0.0, 0.0), 0.0)]
  const ROW: seq<Projectile> := [
    Projectile(Point(1000.0, 1000.0), 0.0, 16.0, 10, None),
    Projectile(Point(-16.0, 0.0), 0.0, 16.0, 1, None),
    Projectile(Point(2000.0, 2000.0), 0.0, 16.0, 10, None)]

  /** Against a single opponent, a bullet hits exactly when its new
      position is within 30 of that opponent. */
  lemma LoneOpponent(b: Projectile, o: Plane, flight: Projectile -> Point)
    ensures BulletFate(b, [o], flight).hit.Some? <==> Within(o.pos, flight(b), BULLET_HIT_RADIUS)
  {
    var f := BulletFate(b, [o], flight);
    if f.hit.Some? {
      assert f.hit.value == 0;
    }
  }

  lemma RowFate0()
    ensures BulletFate(ROW[0], ROW_OPPONENTS, StepRight).splices == 0
  {
    var o := ROW_OPPONENTS[0];
    assert ROW_OPPONENTS == [o];
    LoneOpponent(ROW[0], o, StepRight);
  }

  lemma RowFate1()
    ensures BulletFate(ROW[1], ROW_OPPONENTS, StepRight).splices == 2
  {
    var o := ROW_OPPONENTS[0];
    assert ROW_OPPONENTS == [o];
    LoneOpponent(ROW[1], o, StepRight);
  }

  lemma RowFate2()
    ensures BulletFate(ROW[2], ROW_OPPONENTS, StepRight).splices == 0
  {
    var o := ROW_OPPONENTS[0];
    assert ROW_OPPONENTS == [o];
    LoneOpponent(ROW[2], o, StepRight);
  }

  /** Any three bullets of which only the middle one hits and expires in
      the same tick: the code as written keeps one of them, the intended
      update two. */
  lemma MiddleHitAndExpired(bs: seq<Projectile>, opps: seq<Plane>, flight: Projectile -> Point)
    requires |bs| == 3
    requires BulletFate(bs[0], opps, flight).splices == 0
    requires BulletFate(bs[1], opps, flight).splices == 2
    requires BulletFate(bs[2], opps, flight).splices == 0
    ensures |UpdateBulletsAsWritten(bs, opps, flight).shots| == 1
    ensures |UpdateBullets(bs, opps, flight).shots| == 2
  {
    var fs := BulletFates(bs, opps, flight);
    assert Splices(fs) == [0, 2, 0];
    var shots := Shots(fs);
    assert shots == [shots[0], shots[1], shots[2]];
    DoubleSpliceDropsNeighbour(shots[0], shots[1], shots[2]);
  }

  /** The middle bullet of the row both hits and expires. The code as
      written removes it twice and so also loses the third bullet, which
      neither hit nor expired; the intended update keeps both the first
      and the third. */
  lemma BulletDoubleSpliceLosesNeighbour()
    ensures |UpdateBulletsAsWritten(ROW, ROW_OPPONENTS, StepRight).shots| == 1
    ensures |UpdateBullets(ROW, ROW_OPPONENTS, StepRight).shots| == 2
  {
    RowFate0();
    RowFate1();
    RowFate2();
    MiddleHitAndExpired(ROW, ROW_OPPONENTS, StepRight);
  }

  // ----------------------------------------------------- updateOpponentBullets

  /** What an opponent bullet can hit: the player first, then the allies. */
  function Defenders(player: Plane, allies: seq<Plane>): (r: seq<Plane>)
    ensures |r| == |allies| + 1 && r[0] == player && r[1..] == allies
  {
    [player] + allies
  }

  /** The visit of one opponent bullet: a hit splices it and skips the expiry
      test, so it is spliced at most once. */
  function OpponentBulletFate(b: Projectile, targets: seq<Plane>, flight: Projectile -> Point): (f: Fate)
    ensures f.shot == b.(pos := flight(b), life := b.life - 1)
    ensures f.hit.None? <==> forall j :: 0 <= j < |targets| ==> !Within(targets[j].pos, flight(b), BULLET_HIT_RADIUS)
    ensures f.hit.Some? ==>
      && f.hit.value < |targets| && Within(targets[f.hit.value].pos, flight(b), BULLET_HIT_RADIUS)
      && forall j :: 0 <= j < f.hit.value ==> !Within(targets[j].pos, flight(b), BULLET_HIT_RADIUS)
    ensures f.splices <= 1 && (f.splices == 0 <==> f.hit.None? && b.life - 1 > 0)
  {
    var hit := FirstWithin(Positions(targets), flight(b), BULLET_HIT_RADIUS);
    Fate(b.(pos := flight(b), life := b.life - 1), hit,
         if hit.Some? || b.life - 1 <= 0 then 1 else 0)
  }

  function OpponentBulletFates(bullets: seq<Projectile>, targets: seq<Plane>, flight: Projectile -> Point): (fs: seq<Fate>)
    ensures |fs| == |bullets| && forall i :: 0 <= i < |bullets| ==> fs[i] == OpponentBulletFate(bullets[i], targets, flight)
  {
    seq(|bullets|, i requires 0 <= i < |bullets| => OpponentBulletFate(bullets[i], targets, flight))
  }

  datatype Crossfire = Crossfire(shots: seq<Projectile>, player: Plane, allies: seq<Plane>)

  /** updateOpponentBullets(): the splice loop as written, which here removes
      exactly the spent bullets; the player and each ally lose 10 per bullet
      that reached them first. */
  function UpdateOpponentBullets(bullets: seq<Projectile>, player: Plane, allies: seq<Plane>,
                                 flight: Projectile -> Point): (r: Crossfire)
    ensures var fs := OpponentBulletFates(bullets, Defenders(player, allies), flight);
      && r.shots == Keep(Shots(fs), Splices(fs))
      && r.player == player.(health := player.health - BULLET_DAMAGE * multiset(Hits(fs))[Some(0)])
      && |r.allies| == |allies|
      && forall k :: 0 <= k < |allies| ==>
           r.allies[k] == allies[k].(health := allies[k].health - BULLET_DAMAGE * multiset(Hits(fs))[Some(k + 1)])
    ensures forall s :: s in r.shots ==> s.life > 0
  {
    var targets := Defenders(player, allies);
    var fs := OpponentBulletFates(bullets, targets, flight);
    SpliceLoopKeeps(Shots(fs), Splices(fs));
    var shots := SpliceLoop(Shots(fs), Splices(fs), |fs|);
    forall s | s in shots
      ensures s.life > 0
    {
      KeepOnlyUnspent(Shots(fs), Splices(fs), s);
    }
    var planes := ApplyHits(targets, Hits(fs), BULLET_DAMAGE);
    DefendersHit(player, allies, Hits(fs));
    Crossfire(shots, planes[0], planes[1..])
  }

  /** Damage to the defenders in closed form: index 0 is the player, index
      `k + 1` ally `k`. */
  lemma DefendersHit(player: Plane, allies: seq<Plane>, hits: seq<Option<nat>>)
    ensures ApplyHits(Defenders(player, allies), hits, BULLET_DAMAGE)[0]
            == player.(health := player.health - BULLET_DAMAGE * multiset(hits)[Some(0)])
    ensures |ApplyHits(Defenders(player, allies), hits, BULLET_DAMAGE)[1..]| == |allies|
    ensures forall k :: 0 <= k < |allies| ==>
      ApplyHits(Defenders(player, allies), hits, BULLET_DAMAGE)[1..][k]
      == allies[k].(health := allies[k].health - BULLET_DAMAGE * multiset(hits)[Some(k + 1)])
  {
    ApplyHitsCounts(Defenders(player, allies), hits, BULLET_DAMAGE, 0);
    forall k | 0 <= k < |allies|
      ensures ApplyHits(Defenders(player, allies), hits, BULLET_DAMAGE)[1..][k]
              == allies[k].(health := allies[k].health - BULLET_DAMAGE * multiset(hits)[Some(k + 1)])
    {
      AllyHit(player, allies, hits, k);
    }
  }

  lemma AllyHit(player: Plane, allies: seq<Plane>, hits: seq<Option<nat>>, k: nat)
    requires k < |allies|
    ensures ApplyHits(Defenders(player, allies), hits, BULLET_DAMAGE)[1..][k]
            == allies[k].(health := allies[k].health - BULLET_DAMAGE * multiset(hits)[Some(k + 1)])
  {
    var targets := Defenders(player, allies);
    ApplyHitsCounts(targets, hits, BULLET_DAMAGE, k + 1);
    assert targets[k + 1] == allies[k];
  }

  // ---------------------------------------------------- updateMissiles, player

  /** The visit of one player or ally missile: it chases the nearest opponent
      (dead or alive) and hits it when that opponent was within 40 BEFORE the
      move; it is removed once, on a hit or when its life runs out. With no
      opponent at all the missile is left untouched. */
  function MissileFate(m: Projectile, opps: seq<Plane>, homing: (Projectile, Point) -> Pose): (f: Fate)
    ensures |opps| == 0 ==> f == Fate(m, None, 0)
    ensures |opps| > 0 ==>
      var k := NearestOfAll(opps, m.pos).value;
      var pose := homing(m, opps[k].pos);
      && f.shot == m.(pos := pose.pos, angle := pose.angle, life := m.life - 1)
      && (f.hit.Some? <==> DistSq(opps[k].pos, m.pos) < MISSILE_HIT_RADIUS * MISSILE_HIT_RADIUS)
      && (f.hit.Some? ==> f.hit.value == k)
      && (f.splices == 0 <==> f.hit.None? && m.life - 1 > 0)
    ensures f.splices <= 1
  {
    match NearestOfAll(opps, m.pos)
    case None => Fate(m, None, 0)
    case Some(k) =>
      var pose := homing(m, opps[k].pos);
      var shot := m.(pos := pose.pos, angle := pose.angle, life := m.life - 1);
      if DistSq(opps[k].pos, m.pos) < MISSILE_HIT_RADIUS * MISSILE_HIT_RADIUS then Fate(shot, Some(k), 1)
      else Fate(shot, None, if shot.life <= 0 then 1 else 0)
  }

  function MissileFates(ms: seq<Projectile>, opps: seq<Plane>, homing: (Projectile, Point) -> Pose): (fs: seq<Fate>)
    ensures |fs| == |ms| && forall i :: 0 <= i < |ms| ==> fs[i] == MissileFate(ms[i], opps, homing)
  {
    seq(|ms|, i requires 0 <= i < |ms| => MissileFate(ms[i], opps, homing))
  }

  /** The player-and-ally half of updateMissiles: the spent missiles are
      removed, and each opponent loses 25 per missile that hit it. A
      missile's damage goes to the opponent nearest to it, which need not be
      the one it was launched at. */
  function UpdatePlayerMissiles(ms: seq<Projectile>, opps: seq<Plane>, homing: (Projectile, Point) -> Pose): (r: Volley)
    ensures var fs := MissileFates(ms, opps, homing);
      && r.shots == Keep(Shots(fs), Splices(fs))
      && |r.planes| == |opps|
      && forall k :: 0 <= k < |opps| ==>
           r.planes[k] == opps[k].(health := opps[k].health - MISSILE_DAMAGE * multiset(Hits(fs))[Some(k)])
    ensures |opps| == 0 ==> r == Volley(ms, opps)
  {
    var fs := MissileFates(ms, opps, homing);
    SpliceLoopKeeps(Shots(fs), Splices(fs));
    var planes := ApplyHits(opps, Hits(fs), MISSILE_DAMAGE);
    forall k | 0 <= k < |opps|
      ensures planes[k] == opps[k].(health := opps[k].health - MISSILE_DAMAGE * multiset(Hits(fs))[Some(k)])
    {
      ApplyHitsCounts(opps, Hits(fs), MISSILE_DAMAGE, k);
    }
    if |opps| == 0 then
      assert Keep(Shots(fs), Splices(fs)) == ms by {
        assert Shots(fs) == ms;
        KeepAllWhenUnspent(Shots(fs), Splices(fs));
      }
      Volley(ms, opps)
    else
    Volley(SpliceLoop(Shots(fs), Splices(fs), |fs|), planes)
  }

  // -------------------------------------------------- updateMissiles, opponent

  /** The state the opponent-missile loop threads from one visit to the
      next: the surviving missiles so far, the flares, and the player. */
  datatype Chase = Chase(kept: seq<Projectile>, flares: seq<Flare>, player: Plane)

  /** What one visit does to an opponent missile. */
  datatype Outcome = Decoyed(flare: nat) | HitPlayer | Expired | Flying(shot: Projectile)

  /** The visit of one opponent missile. With a flare in the air it chases
      the nearest flare and can only be captured by it (within 20 of its
      position before the move); with no flare it chases the player and hits
      within 40. Otherwise it moves on, or is removed when its life runs out. */
  function MissileOutcome(m: Projectile, flares: seq<Flare>, player: Point, homing: (Projectile, Point) -> Pose): (o: Outcome)
    ensures o.Decoyed? <==>
      |flares| > 0 && DistSq(flares[NearestFlare(flares, m.pos).value].pos, m.pos) < FLARE_HIT_RADIUS * FLARE_HIT_RADIUS
    ensures o.Decoyed? ==> o.flare == NearestFlare(flares, m.pos).value && o.flare < |flares|
    ensures o.HitPlayer? <==> |flares| == 0 && DistSq(player, m.pos) < MISSILE_HIT_RADIUS * MISSILE_HIT_RADIUS
    ensures o.Flying? ==> o.shot.life == m.life - 1 > 0
    ensures m.life - 1 <= 0 ==> !o.Flying?
  {
    var nf := NearestFlare(flares, m.pos);
    var target := if nf.Some? then flares[nf.value].pos else player;
    var pose := homing(m, target);
    var shot := m.(pos := pose.pos, angle := pose.angle, life := m.life - 1);
    if nf.Some? && DistSq(flares[nf.value].pos, m.pos) < FLARE_HIT_RADIUS * FLARE_HIT_RADIUS then Decoyed(nf.value)
    else if nf.None? && DistSq(player, m.pos) < MISSILE_HIT_RADIUS * MISSILE_HIT_RADIUS then HitPlayer
    else if shot.life <= 0 then Expired
    else Flying(shot)
  }

  /** The effect of an outcome on the loop's state: a decoy removes the
      flare it reached, a hit costs the player 25 health and nothing else,
      and only a missile still flying is kept. */
  function Settle(o: Outcome, c: Chase): (r: Chase)
    requires o.Decoyed? ==> o.flare < |c.flares|
    ensures o.Decoyed? ==> r == Chase(c.kept, c.flares[..o.flare] + c.flares[o.flare + 1..], c.player)
    ensures o.HitPlayer? ==> r == Chase(c.kept, c.flares, c.player.(health := c.player.health - MISSILE_DAMAGE))
    ensures o.Expired? ==> r == c
    ensures o.Flying? ==> r == Chase([o.shot] + c.kept, c.flares, c.player)
  {
    match o
    case Decoyed(k) => Chase(c.kept, SpliceOne(c.flares, k), c.player)
    case HitPlayer => Chase(c.kept, c.flares, c.player.(health := c.player.health - MISSILE_DAMAGE))
    case Expired => c
    case Flying(shot) => Chase([shot] + c.kept, c.flares, c.player)
  }

  function OpponentMissileVisit(m: Projectile, c: Chase, homing: (Projectile, Point) -> Pose): Chase {
    Settle(MissileOutcome(m, c.flares, c.player.pos, homing), c)
  }

  /** While a flare is in the air the player cannot be hit; a hit on the
      player happens only with no flare left and the missile within 40. */
  lemma VisitShield(m: Projectile, c: Chase, homing: (Projectile, Point) -> Pose)
    ensures |c.flares| > 0 ==> OpponentMissileVisit(m, c, homing).player == c.player
    ensures OpponentMissileVisit(m, c, homing).player != c.player ==>
      |c.flares| == 0 && DistSq(c.player.pos, m.pos) < MISSILE_HIT_RADIUS * MISSILE_HIT_RADIUS
  {
  }

  /** The loop over the opponent missiles from index `j - 1` down to 0.
      Survivors are put in front of the ones kept so far, so they keep
      their order. */
  function OpponentMissilesFrom(ms: seq<Projectile>, j: nat, c: Chase, homing: (Projectile, Point) -> Pose): (r: Chase)
    requires j <= |ms|
    decreases j
  {
    if j == 0 then c
    else
      var v := OpponentMissileVisit(ms[j - 1], c, homing);
      OpponentMissilesFrom(ms, j - 1, v, homing)
  }

  /** `r.kept` is `c.kept` with missiles still flying put in front. */
  predicate KeptFlying(c: Chase, r: Chase) {
    && |c.kept| <= |r.kept| && r.kept[|r.kept| - |c.kept|..] == c.kept
    && forall i :: 0 <= i < |r.kept| - |c.kept| ==> r.kept[i].life > 0
  }

  lemma VisitKeepsFlying(m: Projectile, c: Chase, homing: (Projectile, Point) -> Pose)
    ensures KeptFlying(c, OpponentMissileVisit(m, c, homing))
  {
    var v := OpponentMissileVisit(m, c, homing);
    if |v.kept| > |c.kept| {
      assert v.kept[1..] == c.kept;
    } else {
      assert v.kept[|v.kept| - |c.kept|..] == v.kept;
    }
  }

  lemma ChainKeptFlying(c: Chase, v: Chase, r: Chase)
    requires KeptFlying(c, v) && KeptFlying(v, r)
    ensures KeptFlying(c, r)
  {
    var d := |r.kept| - |v.kept|;
    assert r.kept[|r.kept| - |c.kept|..] == r.kept[d..][|v.kept| - |c.kept|..];
    forall i | 0 <= i < |r.kept| - |c.kept|
      ensures r.kept[i].life > 0
    {
      if i >= d {
        assert r.kept[i] == v.kept[i - d];
      }
    }
  }

  /** The loop only ever puts missiles still flying in front of the ones
      kept before. */
  lemma {:induction false} KeptFlyingFrom(ms: seq<Projectile>, j: nat, c: Chase, homing: (Projectile, Point) -> Pose)
    requires j <= |ms|
    ensures KeptFlying(c, OpponentMissilesFrom(ms, j, c, homing))
    decreases j
  {
    if j == 0 {
      assert OpponentMissilesFrom(ms, j, c, homing).kept[|c.kept| - |c.kept|..] == c.kept;
    } else {
      var v := OpponentMissileVisit(ms[j - 1], c, homing);
      VisitKeepsFlying(ms[j - 1], c, homing);
      KeptFlyingFrom(ms, j - 1, v, homing);
      ChainKeptFlying(c, v, OpponentMissilesFrom(ms, j - 1, v, homing));
    }
  }

  /** The budget of a stretch of `n` visits taking the loop from `c` to `r`:
      the player lost 25 per hit and nothing else, no flare was added, and
      hits, captured flares and surviving missiles together number at most
      `n`. */
  predicate Budget(c: Chase, r: Chase, hits: nat, n: nat) {
    && r.player == c.player.(health := c.player.health - MISSILE_DAMAGE * hits)
    && |r.flares| <= |c.flares|
    && hits + (|c.flares| - |r.flares|) + (|r.kept| - |c.kept|) <= n
  }

  lemma VisitBudget(m: Projectile, c: Chase, homing: (Projectile, Point) -> Pose) returns (hit: nat)
    ensures Budget(c, OpponentMissileVisit(m, c, homing), hit, 1)
  {
    var o := MissileOutcome(m, c.flares, c.player.pos, homing);
    hit := if o.HitPlayer? then 1 else 0;
  }

  /** Budgets of two consecutive stretches of the loop add up. */
  lemma ChainBudget(c: Chase, v: Chase, r: Chase, hit: nat, rest: nat, j: nat)
    requires j > 0 && Budget(c, v, hit, 1) && Budget(v, r, rest, j - 1)
    ensures Budget(c, r, hit + rest, j)
  {
  }

  /** Each visit causes at most one of: a flare capture, a 25-point hit on
      the player, a surviving missile. `hits` counts the player hits. */
  lemma {:induction false} MissileBudgetFrom(ms: seq<Projectile>, j: nat, c: Chase, homing: (Projectile, Point) -> Pose)
    returns (hits: nat)
    requires j <= |ms|
    ensures Budget(c, OpponentMissilesFrom(ms, j, c, homing), hits, j)
    decreases j
  {
    if j == 0 {
      hits := 0;
    } else {
      var v := OpponentMissileVisit(ms[j - 1], c, homing);
      var hit := VisitBudget(ms[j - 1], c, homing);
      var rest := MissileBudgetFrom(ms, j - 1, v, homing);
      hits := rest + hit;
      ChainBudget(c, v, OpponentMissilesFrom(ms, j - 1, v, homing), hit, rest, j);
    }
  }

  /** While at least as many flares are in the air as missiles remain to be
      visited, every missile is drawn to a flare and the player is not hit. */
  lemma {:induction false} FlaresShieldFrom(ms: seq<Projectile>, j: nat, c: Chase, homing: (Projectile, Point) -> Pose)
    requires j <= |ms| && |c.flares| >= j
    ensures OpponentMissilesFrom(ms, j, c, homing).player == c.player
    decreases j
  {
    if j > 0 {
      var v := OpponentMissileVisit(ms[j - 1], c, homing);
      VisitShield(ms[j - 1], c, homing);
      FlaresShieldFrom(ms, j - 1, v, homing);
    }
  }

  /** The opponent-missile half of updateMissiles. */
  function UpdateOpponentMissiles(ms: seq<Projectile>, flares: seq<Flare>, player: Plane,
                                  homing: (Projectile, Point) -> Pose): (r: Chase)
    ensures forall s :: s in r.kept ==> s.life > 0
  {
    var r := OpponentMissilesFrom(ms, |ms|, Chase([], flares, player), homing);
    assert forall s :: s in r.kept ==> s.life > 0 by {
      KeptFlyingFrom(ms, |ms|, Chase([], flares, player), homing);
    }
    r
  }

  /** The player loses 25 per missile that reached it, and only health; each
      missile caused at most one of a hit, a flare capture or its own
      survival. */
  lemma OpponentMissileBudget(ms: seq<Projectile>, flares: seq<Flare>, player: Plane,
                              homing: (Projectile, Point) -> Pose) returns (hits: nat)
    ensures var r := UpdateOpponentMissiles(ms, flares, player, homing);
      && r.player == player.(health := player.health - MISSILE_DAMAGE * hits)
      && |r.flares| <= |flares|
      && hits + (|flares| - |r.flares|) + |r.kept| <= |ms|
  {
    hits := MissileBudgetFrom(ms, |ms|, Chase([], flares, player), homing);
  }

  /** With at least as many flares in the air as incoming missiles, the
      player takes no missile damage this tick. */
  lemma FlaresShieldPlayer(ms: seq<Projectile>, flares: seq<Flare>, player: Plane,
                           homing: (Projectile, Point) -> Pose)
    requires |flares| >= |ms|
    ensures UpdateOpponentMissiles(ms, flares, player, homing).player == player
  {
    FlaresShieldFrom(ms, |ms|, Chase([], flares, player), homing);
  }

  // ------------------------------------------------------------- updateFlares

  /** The visit of one flare: drift, age, and one splice once its life is out. */
  function FlareVisit(f: Flare, drift: Flare -> Point): (g: Flare) {
    f.(pos := drift(f), life := f.life - 1)
  }

  function Aged(fs: seq<Flare>, drift: Flare -> Point): (r: seq<Flare>)
    ensures |r| == |fs| && forall i :: 0 <= i < |fs| ==> r[i] == FlareVisit(fs[i], drift)
  {
    seq(|fs|, i requires 0 <= i < |fs| => FlareVisit(fs[i], drift))
  }

  function FlareLife(f: Flare): int { f.life }

  function Burnt(fs: seq<Flare>): seq<nat> { Lapsed(fs, FlareLife) }

  /** updateFlares(): every flare drifts and ages; the burnt-out ones are
      removed and the rest keep their order. */
  function UpdateFlares(fs: seq<Flare>, drift: Flare -> Point): (r: seq<Flare>)
    ensures r == Keep(Aged(fs, drift), Burnt(Aged(fs, drift)))
  {
    var aged := Aged(fs, drift);
    SpliceLoopKeeps(aged, Burnt(aged));
    SpliceLoop(aged, Burnt(aged), |aged|)
  }

  /** Every flare left after an update is still burning, and while every
      flare has more than one tick left, all of them stay. */
  lemma UpdateFlaresBurning(fs: seq<Flare>, drift: Flare -> Point)
    ensures forall f :: f in UpdateFlares(fs, drift) ==> f.life > 0
    ensures (forall i :: 0 <= i < |fs| ==> fs[i].life > 1) ==> UpdateFlares(fs, drift) == Aged(fs, drift)
  {
    var aged := Aged(fs, drift);
    forall f | f in Keep(aged, Burnt(aged))
      ensures f.life > 0
    {
      KeepOnlyUnspent(aged, Burnt(aged), f);
    }
    if forall i :: 0 <= i < |fs| ==> fs[i].life > 1 {
      KeepAllWhenUnspent(aged, Burnt(aged));
    }
  }

  /** `step` applied `n` times. */
  function Iterate<T>(x: T, step: T -> T, n: nat): T
    decreases n
  {
    if n == 0 then x else Iterate(step(x), step, n - 1)
  }

  /** The flares after `n` updates. */
  function FlaresAfter(fs: seq<Flare>, drift: Flare -> Point, n: nat): seq<Flare> {
    Iterate(fs, gs => UpdateFlares(gs, drift), n)
  }

  /** One update of a lone flare: it survives exactly when it had more than
      one tick of life left. */
  lemma LoneFlareTick(f: Flare, drift: Flare -> Point)
    ensures f.life > 1 ==> UpdateFlares([f], drift) == [FlareVisit(f, drift)]
    ensures f.life <= 1 ==> UpdateFlares([f], drift) == []
  {
    var g := FlareVisit(f, drift);
    assert Aged([f], drift) == [g];
    if f.life <= 1 {
      assert Burnt([g]) == [1];
      assert [g][..0] == [] && [1][..0] == [];
      assert Keep([g], [1]) == [];
    }
  }

  /** The first of `n` updates of a lone flare that survives it ... */
  lemma LoneFlareStays(f: Flare, drift: Flare -> Point, n: nat)
    requires n > 0 && f.life > 1
    ensures FlaresAfter([f], drift, n) == FlaresAfter([FlareVisit(f, drift)], drift, n - 1)
  {
    LoneFlareTick(f, drift);
  }

  /** ... and of one that burns out in it. */
  lemma LoneFlareGoes(f: Flare, drift: Flare -> Point, n: nat)
    requires n > 0 && f.life <= 1
    ensures FlaresAfter([f], drift, n) == FlaresAfter([], drift, n - 1)
  {
    LoneFlareTick(f, drift);
  }

  /** `r` is the flare `f` alone, `n` ticks on: heading and speed as
      released and `n` ticks of life spent. */
  predicate AloneAfter(r: seq<Flare>, f: Flare, n: nat) {
    |r| == 1 && r[0].life == f.life - n && r[0].angle == f.angle && r[0].speed == f.speed
  }

  /** A flare released with life `L` (180 for a burst) is still in the air
      after each of the first `L - 1` updates, alone, with `L - n` ticks
      left and its heading and speed unchanged. */
  lemma {:induction false} FlareBurning(f: Flare, drift: Flare -> Point, n: nat)
    requires n < f.life
    ensures AloneAfter(FlaresAfter([f], drift, n), f, n)
    decreases n
  {
    if n == 0 {
      assert FlaresAfter([f], drift, n) == [f];
    } else {
      FlareBurning(FlareVisit(f, drift), drift, n - 1);
      FlareBurningStep(f, drift, n);
    }
  }

  lemma FlareBurningStep(f: Flare, drift: Flare -> Point, n: nat)
    requires 0 < n < f.life
    requires AloneAfter(FlaresAfter([FlareVisit(f, drift)], drift, n - 1), FlareVisit(f, drift), n - 1)
    ensures AloneAfter(FlaresAfter([f], drift, n), f, n)
  {
    LoneFlareStays(f, drift, n);
  }

  /** ... and gone after the `L`-th. */
  lemma {:induction false} FlareBurnsOut(f: Flare, drift: Flare -> Point, n: nat)
    requires 0 < n == f.life
    ensures FlaresAfter([f], drift, n) == []
    decreases n
  {
    if n > 1 {
      LoneFlareStays(f, drift, n);
      FlareBurnsOut(FlareVisit(f, drift), drift, n - 1);
    } else {
      LoneFlareGoes(f, drift, n);
      assert FlaresAfter([], drift, 0) == [];
    }
  }
}

=== FILE: scans.dfy ===
/** The nearest-target searches of game.js, each an instance of the
    first-minimum scan of Targeting over plane or flare positions. */
module Scans {
  import opened Geometry
  import opened Targeting
  import opened Entities

  /** `findNearestOpponent(x, y)`: the nearest LIVING opponent, or none when
      every opponent is dead. */
  function NearestOpponent(opps: seq<Plane>, from: Point): (r: Option<nat>)
    ensures IsFirstNearest(Spread(Positions(opps), from, AliveMask(opps)), Unbounded, r)
    ensures r.None? <==> forall j :: 0 <= j < |opps| ==> !opps[j].Alive()
    ensures r.Some? ==> r.value < |opps| && opps[r.value].Alive()
  {
    var cs := Spread(Positions(opps), from, AliveMask(opps));
    var r := Nearest(cs, Unbounded);
    assert r.None? ==> forall j :: 0 <= j < |opps| ==> !cs[j].eligible;
    r
  }

  /** The loops written out inline in fireMissile, fireAllyMissile,
      updatePlayerMissileLock, updateAllies and updateMissiles: the nearest
      opponent whether alive or dead, so there is one whenever the roster is
      non-empty. */
  function NearestOfAll(opps: seq<Plane>, from: Point): (r: Option<nat>)
    ensures IsFirstNearest(Spread(Positions(opps), from, AllTrue(|opps|)), Unbounded, r)
    ensures r.None? <==> |opps| == 0
    ensures r.Some? ==> r.value < |opps|
  {
    var cs := Spread(Positions(opps), from, AllTrue(|opps|));
    var r := Nearest(cs, Unbounded);
    assert |opps| > 0 ==> cs[0].eligible;
    r
  }

  /** `findNearestFlare(x, y)`: the nearest flare of any owner. */
  function NearestFlare(fs: seq<Flare>, from: Point): (r: Option<nat>)
    ensures IsFirstNearest(Spread(FlarePositions(fs), from, AllTrue(|fs|)), Unbounded, r)
    ensures r.None? <==> |fs| == 0
    ensures r.Some? ==> r.value < |fs|
  {
    var cs := Spread(FlarePositions(fs), from, AllTrue(|fs|));
    var r := Nearest(cs, Unbounded);
    assert |fs| > 0 ==> cs[0].eligible;
    r
  }

  /** What `findNearestEnemy` returns: the player, or one of the allies. */
  datatype Enemy = PlayerEnemy | AllyEnemy(index: nat)

  function EnemyPos(player: Plane, allies: seq<Plane>, e: Enemy): Point {
    match e
    case PlayerEnemy => player.pos
    case AllyEnemy(k) => if k < |allies| then allies[k].pos else player.pos
  }

  /** `findNearestEnemy(x, y)`: the scan starts from the player, dead or
      alive, as the best so far, and a living ally replaces it only when it
      is strictly closer. */
  function NearestEnemy(player: Plane, allies: seq<Plane>, from: Point): (e: Enemy)
    ensures e.PlayerEnemy? <==>
      forall j :: 0 <= j < |allies| && allies[j].Alive() ==>
        DistSq(player.pos, from) <= DistSq(allies[j].pos, from)
    ensures e.AllyEnemy? ==>
      && e.index < |allies| && allies[e.index].Alive()
      && DistSq(allies[e.index].pos, from) < DistSq(player.pos, from)
      && (forall j :: 0 <= j < |allies| && allies[j].Alive() ==>
            DistSq(allies[e.index].pos, from) <= DistSq(allies[j].pos, from))
      && (forall j :: 0 <= j < e.index && allies[j].Alive() ==>
            DistSq(allies[e.index].pos, from) < DistSq(allies[j].pos, from))
  {
    var cs := Spread(Positions(allies), from, AliveMask(allies));
    match Nearest(cs, Cap(DistSq(player.pos, from)))
    case None => PlayerEnemy
    case Some(k) => AllyEnemy(k)
  }

  /** The distance `findNearestEnemy` reports is the distance to the enemy it
      returns, and it never exceeds the distance to the player. */
  lemma NearestEnemyNoFartherThanPlayer(player: Plane, allies: seq<Plane>, from: Point)
    ensures DistSq(EnemyPos(player, allies, NearestEnemy(player, allies, from)), from)
            <= DistSq(player.pos, from)
  {
  }
}

=== FILE: splicing.dfy ===
/** The removal idiom every list update of both source files uses: walk the
    array from the last index down to 0 and `splice(i, 1)` the element at
    `i` when it is spent. Walking downward keeps the indices still to be
    visited stable; splicing twice in one visit removes a neighbour that has
    already been kept. */
module Splicing {

  /** `array.splice(j, 1)`: removes the element at `j`; past the end it removes nothing. */
  function SpliceOne<T>(cur: seq<T>, j: nat): (r: seq<T>)
    ensures j < |cur| ==> |r| == |cur| - 1 && r == cur[..j] + cur[j + 1..]
    ensures j >= |cur| ==> r == cur
  {
    if j < |cur| then cur[..j] + cur[j + 1..] else cur
  }

  /** `n` consecutive `splice(j, 1)` calls. */
  function SpliceTimes<T>(cur: seq<T>, j: nat, n: nat): (r: seq<T>)
    ensures n == 0 ==> r == cur
    ensures n == 1 ==> r == SpliceOne(cur, j)
    decreases n
  {
    if n == 0 then cur else SpliceTimes(SpliceOne(cur, j), j, n - 1)
  }

  /** The downward loop over indices `j - 1` to 0, where visiting index `i`
      splices `counts[i]` times. */
  function SpliceLoop<T>(cur: seq<T>, counts: seq<nat>, j: nat): seq<T>
    requires j <= |counts|
    decreases j
  {
    if j == 0 then cur else SpliceLoop(SpliceTimes(cur, j - 1, counts[j - 1]), counts, j - 1)
  }

  /** One splice for every element whose life has run out, none for the rest. */
  function Lapsed<T>(xs: seq<T>, life: T -> int): (r: seq<nat>)
    ensures |r| == |xs| && SingleSplices(r)
    ensures forall i :: 0 <= i < |xs| ==> (r[i] == 0 <==> life(xs[i]) > 0)
  {
    seq(|xs|, i requires 0 <= i < |xs| => if life(xs[i]) <= 0 then 1 else 0)
  }

  /** How many of the counts are 0. */
  function Unspent(counts: seq<nat>): (n: nat)
    ensures n <= |counts|
    decreases |counts|
  {
    if |counts| == 0 then 0
    else Unspent(counts[..|counts| - 1]) + (if counts[|counts| - 1] == 0 then 1 else 0)
  }

  /** The intended result: the elements whose count is 0, in their order. */
  function Keep<T>(xs: seq<T>, counts: seq<nat>): (r: seq<T>)
    requires |xs| == |counts|
    ensures |r| == Unspent(counts)
    decreases |xs|
  {
    if |xs| == 0 then []
    else
      var n := |xs| - 1;
      Keep(xs[..n], counts[..n]) + (if counts[n] == 0 then [xs[n]] else [])
  }

  /** Everything kept sits at an index whose count is 0. */
  lemma {:induction false} KeepOnlyUnspent<T>(xs: seq<T>, counts: seq<nat>, y: T)
    requires |xs| == |counts| && y in Keep(xs, counts)
    ensures exists i :: 0 <= i < |xs| && counts[i] == 0 && xs[i] == y
    decreases |xs|
  {
    var n := |xs| - 1;
    if y in Keep(xs[..n], counts[..n]) {
      KeepOnlyUnspent(xs[..n], counts[..n], y);
      var i :| 0 <= i < n && counts[..n][i] == 0 && xs[..n][i] == y;
      assert counts[i] == 0 && xs[i] == y;
    }
  }

  /** With every count at 0, everything is kept. */
  lemma {:induction false} KeepAllWhenUnspent<T>(xs: seq<T>, counts: seq<nat>)
    requires |xs| == |counts| && forall i :: 0 <= i < |counts| ==> counts[i] == 0
    ensures Keep(xs, counts) == xs
    decreases |xs|
  {
    if |xs| > 0 {
      var n := |xs| - 1;
      KeepAllWhenUnspent(xs[..n], counts[..n]);
      assert xs[..n] + [xs[n]] == xs;
    }
  }

  /** Counts of at most one splice per visit. */
  predicate SingleSplices(counts: seq<nat>) {
    forall i :: 0 <= i < |counts| ==> counts[i] <= 1
  }

  /** With at most one splice per visited index, the loop removes exactly
      the spent elements and keeps the rest in order. */
  lemma {:induction false} SpliceLoopKeeps<T>(xs: seq<T>, counts: seq<nat>)
    requires |xs| == |counts| && SingleSplices(counts)
    ensures SpliceLoop(xs, counts, |xs|) == Keep(xs, counts)
  {
    var none: seq<T> := [];
    SpliceLoopKeepsFrom(xs, counts, |xs|, none);
    assert xs[..|xs|] == xs && xs[..|xs|] + none == xs;
    assert counts[..|xs|] == counts;
    assert Keep(xs, counts) + none == Keep(xs, counts);
  }

  lemma {:induction false} SpliceLoopKeepsFrom<T>(xs: seq<T>, counts: seq<nat>, j: nat, tail: seq<T>)
    requires |xs| == |counts| && SingleSplices(counts) && j <= |xs|
    ensures SpliceLoop(xs[..j] + tail, counts, j) == Keep(xs[..j], counts[..j]) + tail
    decreases j
  {
    if j > 0 {
      var cur := xs[..j] + tail;
      var n := j - 1;
      assert xs[..j][..n] == xs[..n] && counts[..j][..n] == counts[..n];
      if counts[n] == 0 {
        assert cur == xs[..n] + ([xs[n]] + tail);
        SpliceLoopKeepsFrom(xs, counts, n, [xs[n]] + tail);
      } else {
        assert SpliceOne(cur, n) == xs[..n] + tail;
        SpliceLoopKeepsFrom(xs, counts, n, tail);
      }
    }
  }

  /** Three elements, the middle one spliced twice: the loop loses the third
      element, which was never spent. */
  lemma DoubleSpliceDropsNeighbour<T>(a: T, b: T, c: T)
    ensures SpliceLoop([a, b, c], [0, 2, 0], 3) == [a]
    ensures Keep([a, b, c], [0, 2, 0]) == [a, c]
  {
    assert SpliceOne([a, b, c], 1) == [a, c];
    assert SpliceOne([a, c], 1) == [a];
    assert [a, b, c][..2] == [a, b] && [a, b][..1] == [a] && [a][..0] == [];
    assert [0, 2, 0][..2] == [0, 2] && [0, 2][..1] == [0] && [0][..0] == [];
    assert Keep([a], [0]) == [a];
    assert Keep([a, b], [0, 2]) == [a];
  }
}

=== FILE: tactics.dfy ===
/** The counters the game.js AI keeps between ticks: the opponents' decaying
    missile `lockTimer`, the dodge cooldown of `maybeDodge`, and the flare
    cooldown shared by `maybeDodge`, `maybeDeployFlares`, the player's flare
    key and the autopilot. Random draws arrive as parameters; a draw modelling
    `Math.random()` lies in [0, 1) (`UnitRoll`). */
module Tactics {
  import opened Geometry
  import opened Targeting
  import opened Entities
  import opened Weapons

  // -------------------------------------------------------- opponent lock timer

  const OPPONENT_LOCK_TIME: int := 300
  /** `Math.random() < 0.02`: the per-tick chance of a missile attempt once locked. */
  const MISSILE_CHANCE: real := 0.02

  /** The timer after one tick, and whether fireOpponentMissile was called. */
  datatype LockTick = LockTick(timer: int, attempt: bool)

  /** The `lockTimer` block of the opponent combat branch. `inRange`: the
      nearest enemy is closer than 1000; `roll`: the missile draw. The timer
      is cleared on every attempt, whether or not the launcher then fires. */
  function OpponentLockTimer(t: int, inRange: bool, roll: real): (r: LockTick)
    ensures r.attempt <==> inRange && t + 1 > OPPONENT_LOCK_TIME && roll < MISSILE_CHANCE
    ensures r.attempt ==> r.timer == 0
    ensures inRange && !r.attempt ==> r.timer == t + 1
    ensures !inRange ==> r.timer == (if t - 1 > 0 then t - 1 else 0)
    ensures t >= 0 ==> 0 <= r.timer <= t + 1
  {
    if inRange then
      var up := t + 1;
      if up > OPPONENT_LOCK_TIME && roll < MISSILE_CHANCE then LockTick(0, true) else LockTick(up, false)
    else
      LockTick(if t - 1 > 0 then t - 1 else 0, false)
  }

  /** One tick's inputs to the lock timer. */
  datatype LockInput = LockInput(inRange: bool, roll: real)

  /** The timer after a run of ticks, and how many missile attempts were made. */
  function LockTimerRun(t: int, ins: seq<LockInput>): (int, nat)
    decreases |ins|
  {
    if |ins| == 0 then (t, 0)
    else
      var step := OpponentLockTimer(t, ins[0].inRange, ins[0].roll);
      var rest := LockTimerRun(step.timer, ins[1..]);
      (rest.0, rest.1 + if step.attempt then 1 else 0)
  }

  /** The timer never goes negative, grows at most one per tick, and a fresh
      (or freshly cleared) timer makes no attempt within its first 300 ticks,
      whatever the ranges and rolls. */
  lemma {:induction false} NoAttemptBeforeLock(t: int, ins: seq<LockInput>)
    requires t >= 0
    ensures 0 <= LockTimerRun(t, ins).0 <= t + |ins|
    ensures t + |ins| <= OPPONENT_LOCK_TIME ==> LockTimerRun(t, ins).1 == 0
    decreases |ins|
  {
    if |ins| > 0 {
      var step := OpponentLockTimer(t, ins[0].inRange, ins[0].roll);
      NoAttemptBeforeLock(step.timer, ins[1..]);
    }
  }

  // ------------------------------------------------------------ flare cooldown

  const FLARE_GATE_DODGE: real := 0.1
  const FLARE_GATE_CHASED: real := 0.02
  /** Radius of the missile threat that makes maybeDeployFlares consider flares. */
  const CHASE_RADIUS: real := 250.0

  /** The flare cooldown stays within what the game ever sets it to. */
  predicate FlareCooldownValid(p: Plane) {
    0 <= p.flareCooldown <= FLARE_COOLDOWN
  }

  /** A plane with the flares it may have dropped this tick. */
  datatype Evasion = Evasion(plane: Plane, flares: seq<Flare>)

  /** Releasing one burst: twenty flares and a full cooldown. */
  function Burst(p: Plane, wing: Point, flares: seq<Flare>, draws: seq<FlareDraw>): (r: Evasion)
    requires |draws| == 2 * FLARE_PAIRS
    ensures r.plane == p.(flareCooldown := FLARE_COOLDOWN)
    ensures |r.flares| == |flares| + 2 * FLARE_PAIRS && flares <= r.flares
  {
    Evasion(p.(flareCooldown := FLARE_COOLDOWN), ReleaseFlares(p, wing, flares, draws))
  }

  /** The per-plane body of maybeDeployFlares: a positive cooldown is only
      counted down; a cooled-down plane chased by a player or ally missile
      (within 250) releases a burst with probability 0.02. */
  function DeployFlaresFor(p: Plane, missiles: seq<Projectile>, roll: real, wing: Point,
                           flares: seq<Flare>, draws: seq<FlareDraw>): (r: Evasion)
    requires |draws| == 2 * FLARE_PAIRS
    ensures p.flareCooldown > 0 ==> r == Evasion(p.(flareCooldown := p.flareCooldown - 1), flares)
    ensures |r.flares| > |flares| <==>
      p.flareCooldown <= 0 && AnyWithin(ShotPositions(missiles), p.pos, CHASE_RADIUS) && roll < FLARE_GATE_CHASED
    ensures |r.flares| > |flares| ==> r == Burst(p, wing, flares, draws)
    ensures |r.flares| == |flares| ==> r.flares == flares
    ensures FlareCooldownValid(p) ==> FlareCooldownValid(r.plane)
  {
    if p.flareCooldown > 0 then Evasion(p.(flareCooldown := p.flareCooldown - 1), flares)
    else if FirstWithin(ShotPositions(missiles), p.pos, CHASE_RADIUS).Some? && roll < FLARE_GATE_CHASED then
      Burst(p, wing, flares, draws)
    else Evasion(p, flares)
  }

  /** Per-plane draws of one tick: the gate roll, the wingtip offset, and the
      twenty flares' draws. */
  datatype FlareDice = FlareDice(roll: real, wing: Point, draws: seq<FlareDraw>)

  predicate DiceFit(dice: seq<FlareDice>, n: nat) {
    |dice| == n && forall i :: 0 <= i < n ==> |dice[i].draws| == 2 * FLARE_PAIRS
  }

  datatype Squadron = Squadron(planes: seq<Plane>, flares: seq<Flare>)

  /** Whether plane `p` releases a burst in maybeDeployFlares. */
  predicate Deploys(p: Plane, missiles: seq<Projectile>, roll: real) {
    p.flareCooldown <= 0 && AnyWithin(ShotPositions(missiles), p.pos, CHASE_RADIUS) && roll < FLARE_GATE_CHASED
  }

  /** How many of `planes` release a burst. */
  function Bursts(planes: seq<Plane>, missiles: seq<Projectile>, dice: seq<FlareDice>): (n: nat)
    requires |dice| == |planes|
    ensures n <= |planes|
    decreases |planes|
  {
    if |planes| == 0 then 0
    else (if Deploys(planes[0], missiles, dice[0].roll) then 1 else 0) + Bursts(planes[1..], missiles, dice[1..])
  }

  /** No plane bursts exactly when no plane's flare check passes, and every
      plane bursts exactly when every plane's check passes. */
  lemma {:induction false} BurstsNoneOrAll(planes: seq<Plane>, missiles: seq<Projectile>, dice: seq<FlareDice>)
    requires |dice| == |planes|
    ensures Bursts(planes, missiles, dice) == 0 <==>
      forall i :: 0 <= i < |planes| ==> !Deploys(planes[i], missiles, dice[i].roll)
    ensures Bursts(planes, missiles, dice) == |planes| <==>
      forall i :: 0 <= i < |planes| ==> Deploys(planes[i], missiles, dice[i].roll)
    decreases |planes|
  {
    if |planes| > 0 {
      BurstsNoneOrAll(planes[1..], missiles, dice[1..]);
      assert forall i :: 1 <= i < |planes| ==> planes[i] == planes[1..][i - 1] && dice[i] == dice[1..][i - 1];
    }
  }

  /** maybeDeployFlares(planes): every plane in turn, each appending its
      burst (if any) to the shared flare list. */
  function MaybeDeployFlares(planes: seq<Plane>, missiles: seq<Projectile>, dice: seq<FlareDice>,
                             flares: seq<Flare>): (r: Squadron)
    requires DiceFit(dice, |planes|)
    ensures |r.planes| == |planes|
    ensures forall i :: 0 <= i < |planes| ==>
      r.planes[i] == DeployFlaresFor(planes[i], missiles, dice[i].roll, dice[i].wing, [], dice[i].draws).plane
    ensures |r.flares| == |flares| + 2 * FLARE_PAIRS * Bursts(planes, missiles, dice)
    ensures flares <= r.flares
    decreases |planes|
  {
    if |planes| == 0 then Squadron([], flares)
    else
      var e := DeployFlaresFor(planes[0], missiles, dice[0].roll, dice[0].wing, flares, dice[0].draws);
      DeployIndependentOfList(planes[0], missiles, dice[0].roll, dice[0].wing, flares, dice[0].draws);
      assert DiceFit(dice[1..], |planes[1..]|);
      var rest := MaybeDeployFlares(planes[1..], missiles, dice[1..], e.flares);
      assert rest.flares[..|flares|] == rest.flares[..|e.flares|][..|flares|];
      Squadron([e.plane] + rest.planes, rest.flares)
  }

  /** maybeDeployFlares keeps every plane's flare cooldown within [0, 300]. */
  lemma DeployKeepsCooldowns(planes: seq<Plane>, missiles: seq<Projectile>, dice: seq<FlareDice>, flares: seq<Flare>)
    requires DiceFit(dice, |planes|)
    requires forall i :: 0 <= i < |planes| ==> FlareCooldownValid(planes[i])
    ensures forall i :: 0 <= i < |planes| ==> FlareCooldownValid(MaybeDeployFlares(planes, missiles, dice, flares).planes[i])
  {
    var r := MaybeDeployFlares(planes, missiles, dice, flares);
    forall i | 0 <= i < |planes|
      ensures FlareCooldownValid(r.planes[i])
    {
      var e := DeployFlaresFor(planes[i], missiles, dice[i].roll, dice[i].wing, [], dice[i].draws);
    }
  }

  /** What happens to a plane does not depend on the flares already in the air. */
  lemma DeployIndependentOfList(p: Plane, missiles: seq<Projectile>, roll: real, wing: Point,
                                flares: seq<Flare>, draws: seq<FlareDraw>)
    requires |draws| == 2 * FLARE_PAIRS
    ensures DeployFlaresFor(p, missiles, roll, wing, flares, draws).plane
         == DeployFlaresFor(p, missiles, roll, wing, [], draws).plane
  {
  }

  /** The `h` key and flare button of the player: a burst whenever the
      cooldown has run out. */
  function PlayerFlareKey(p: Plane, wing: Point, flares: seq<Flare>, draws: seq<FlareDraw>): (r: Evasion)
    requires |draws| == 2 * FLARE_PAIRS
    ensures p.flareCooldown <= 0 ==> r == Burst(p, wing, flares, draws)
    ensures p.flareCooldown > 0 ==> r == Evasion(p, flares)
    ensures FlareCooldownValid(p) ==> FlareCooldownValid(r.plane)
  {
    if p.flareCooldown <= 0 then Burst(p, wing, flares, draws) else Evasion(p, flares)
  }

  /** A plane's flare state across `n` maybeDeployFlares ticks. */
  function DeployRun(p: Plane, missiles: seq<Projectile>, dice: seq<FlareDice>, flares: seq<Flare>): Evasion
    requires DiceFit(dice, |dice|)
    decreases |dice|
  {
    if |dice| == 0 then Evasion(p, flares)
    else
      var e := DeployFlaresFor(p, missiles, dice[0].roll, dice[0].wing, flares, dice[0].draws);
      DeployRun(e.plane, missiles, dice[1..], e.flares)
  }

  /** After a burst the plane drops nothing for the next 300 ticks of
      maybeDeployFlares, whatever threatens it: the cooldown first has to
      run down to 0. */
  lemma {:induction false} SilenceAfterBurst(p: Plane, missiles: seq<Projectile>, dice: seq<FlareDice>, flares: seq<Flare>)
    requires DiceFit(dice, |dice|) && |dice| <= p.flareCooldown
    ensures DeployRun(p, missiles, dice, flares) == Evasion(p.(flareCooldown := p.flareCooldown - |dice|), flares)
    decreases |dice|
  {
    if |dice| > 0 {
      var e := DeployFlaresFor(p, missiles, dice[0].roll, dice[0].wing, flares, dice[0].draws);
      assert DiceFit(dice[1..], |dice[1..]|);
      SilenceAfterBurst(e.plane, missiles, dice[1..], flares);
    }
  }

  // -------------------------------------------------------------- maybeDodge

  const DODGE_CHANCE: real := 0.4
  const DODGE_ANGLE: real := PI / 3.0
  const DODGE_HOLD: int := 45
  const FIRE_RADIUS: real := 150.0
  const DODGE_CHASE_RADIUS: real := 250.0
  const LOCKED_RADIUS: real := 200.0

  /** The draws of one maybeDodge call: whether to dodge, which way, for how
      long, and whether to drop flares. */
  datatype DodgeDice = DodgeDice(dodge: real, side: real, hold: real, flare: real, wing: Point,
                                 draws: seq<FlareDraw>)

  predicate DodgeValid(p: Plane) {
    0 <= p.dodgeCooldown < 2 * DODGE_HOLD
  }

  /** The offset's decay toward straight flight: times 0.9, snapped to 0 once
      below 0.01 in magnitude. */
  function DecayOffset(v: real): (r: real)
    ensures Abs(r) <= Abs(v)
    ensures v == 0.0 ==> r == 0.0
  {
    if v == 0.0 then v
    else if Abs(0.9 * v) < 0.01 then 0.0 else 0.9 * v
  }

  /** `Math.floor(Math.random() * 45)` added to the minimum dodge hold. */
  function DodgeHold(roll: real): (n: int)
    ensures UnitRoll(roll) ==> DODGE_HOLD <= n < 2 * DODGE_HOLD
  {
    DODGE_HOLD + (roll * 45.0).Floor
  }

  /** maybeDodge(entity): `bullets` are the player and ally bullets (what
      detectIncomingFire scans), `missiles` the opponent missiles. */
  function MaybeDodge(e: Plane, bullets: seq<Projectile>, missiles: seq<Projectile>, dice: DodgeDice,
                      flares: seq<Flare>): (r: Evasion)
    requires |dice.draws| == 2 * FLARE_PAIRS
    ensures var threatened := AnyWithin(ShotPositions(bullets), e.pos, FIRE_RADIUS)
                              || AnyWithin(ShotPositions(missiles), e.pos, DODGE_CHASE_RADIUS);
      && (e.dodgeCooldown > 0 ==>
            r.plane.dodgeCooldown == e.dodgeCooldown - 1 && r.plane.dodgeOffset == DecayOffset(e.dodgeOffset))
      && (e.dodgeCooldown <= 0 && threatened && dice.dodge < DODGE_CHANCE ==>
            && r.plane.dodgeCooldown == DodgeHold(dice.hold)
            && r.plane.dodgeOffset == DecayOffset(if dice.side < 0.5 then -DODGE_ANGLE else DODGE_ANGLE))
      && (e.dodgeCooldown <= 0 && !(threatened && dice.dodge < DODGE_CHANCE) ==>
            r.plane.dodgeCooldown == e.dodgeCooldown && r.plane.dodgeOffset == DecayOffset(e.dodgeOffset))
    ensures var release := e.flareCooldown <= 0 && AnyWithin(ShotPositions(missiles), e.pos, LOCKED_RADIUS)
                           && dice.flare < FLARE_GATE_DODGE;
      && (release ==> |r.flares| == |flares| + 2 * FLARE_PAIRS && flares <= r.flares
                      && r.plane.flareCooldown == FLARE_COOLDOWN)
      && (!release ==> r.flares == flares && r.plane.flareCooldown == e.flareCooldown)
    ensures r.plane == e.(dodgeCooldown := r.plane.dodgeCooldown, dodgeOffset := r.plane.dodgeOffset,
                          flareCooldown := r.plane.flareCooldown)
    ensures DodgeValid(e) && UnitRoll(dice.hold) ==> DodgeValid(r.plane)
    ensures FlareCooldownValid(e) ==> FlareCooldownValid(r.plane)
  {
    var dodged :=
      if e.dodgeCooldown > 0 then e.(dodgeCooldown := e.dodgeCooldown - 1)
      else if (FirstWithin(ShotPositions(bullets), e.pos, FIRE_RADIUS).Some?
               || FirstWithin(ShotPositions(missiles), e.pos, DODGE_CHASE_RADIUS).Some?)
              && dice.dodge < DODGE_CHANCE then
        e.(dodgeOffset := if dice.side < 0.5 then -DODGE_ANGLE else DODGE_ANGLE,
           dodgeCooldown := DodgeHold(dice.hold))
      else e;
    var ev :=
      if dodged.flareCooldown <= 0 && FirstWithin(ShotPositions(missiles), e.pos, LOCKED_RADIUS).Some?
         && dice.flare < FLARE_GATE_DODGE then
        Burst(dodged, dice.wing, flares, dice.draws)
      else Evasion(dodged, flares);
    Evasion(ev.plane.(dodgeOffset := DecayOffset(ev.plane.dodgeOffset)), ev.flares)
  }
}

=== FILE: takeoff.dfy ===
/** The staggered takeoff of game.js: opponents and allies park at their
    airports, count down `delayedTaxiStart` ticks, start to taxi, and (for
    opponents) roll at taxi thrust for `taxiTimer` ticks before the combat
    logic runs. The player taxis for 120 ticks at load and after a respawn.

    `advance` stands for `moveForward`: the position a plane reaches in one
    tick at its current heading and thrust. */
module Takeoff {
  import opened Geometry
  import opened Targeting
  import opened Entities

  const TAXI_THRUST: real := 0.5
  const COMBAT_THRUST: real := 5.0

  /** Only the takeoff fields, the thrust and the position may move during takeoff. */
  predicate GroundFrame(a: Plane, b: Plane) {
    && b.health == a.health && b.maxHealth == a.maxHealth
    && b.machineGunAmmo == a.machineGunAmmo && b.missileAmmo == a.missileAmmo
    && b.flareCooldown == a.flareCooldown && b.lockTimer == a.lockTimer
    && b.dodgeCooldown == a.dodgeCooldown && b.angle == a.angle
  }

  /** An opponent that has left the runway: the combat branch is where its
      update goes. */
  predicate Airborne(o: Plane) {
    !o.isTakingOff && o.delayedTaxiStart <= 0 && o.hasStartedTaxi
  }

  /** One taxi tick: roll forward at taxi thrust and count down; on the last
      tick switch to combat thrust. */
  function TaxiTick(p: Plane, advance: Plane -> Point): (r: Plane)
    requires p.isTakingOff
    ensures GroundFrame(p, r) && r.hasStartedTaxi == p.hasStartedTaxi
    ensures r.delayedTaxiStart == p.delayedTaxiStart
    ensures r.taxiTimer == p.taxiTimer - 1
    ensures r.isTakingOff <==> p.taxiTimer - 1 > 0
    ensures r.thrust == (if p.taxiTimer - 1 > 0 then TAXI_THRUST else COMBAT_THRUST)
    ensures r.pos == advance(p.(thrust := TAXI_THRUST))
  {
    var rolled := p.(thrust := TAXI_THRUST);
    var t := rolled.(pos := advance(rolled), taxiTimer := p.taxiTimer - 1);
    if t.taxiTimer > 0 then t else t.(isTakingOff := false, thrust := COMBAT_THRUST)
  }

  /** The ground branches of updateOpponents, in source order: count down,
      start the taxi, taxi. `None` means none of them applies and the update
      falls through to the combat logic. The `health <= 0` respawn check
      that precedes them is the caller's. */
  function OpponentTakeoff(o: Plane, advance: Plane -> Point): (r: Option<Plane>)
    ensures r.None? <==> Airborne(o)
    ensures r.Some? ==> GroundFrame(o, r.value)
    ensures !o.isTakingOff && o.delayedTaxiStart > 0 ==>
      r == Some(o.(delayedTaxiStart := o.delayedTaxiStart - 1))
    ensures r.Some? && r.value.taxiTimer != o.taxiTimer ==> o.isTakingOff || o.delayedTaxiStart <= 0
  {
    if !o.isTakingOff && o.delayedTaxiStart > 0 then
      Some(o.(delayedTaxiStart := o.delayedTaxiStart - 1))
    else if !o.hasStartedTaxi && o.delayedTaxiStart <= 0 then
      Some(o.(isTakingOff := true, hasStartedTaxi := true, taxiTimer := OPPONENT_TAXI))
    else if o.isTakingOff then
      Some(TaxiTick(o, advance))
    else
      None
  }

  /** The opponent after `n` ticks of the takeoff branches (an airborne
      opponent is left as it is). */
  function Grounded(o: Plane, advance: Plane -> Point, n: nat): Plane
    decreases n
  {
    if n == 0 then o
    else match OpponentTakeoff(o, advance)
      case None => o
      case Some(next) => Grounded(next, advance, n - 1)
  }

  /** A parked opponent: not rolling, not started, waiting `delayedTaxiStart`. */
  predicate Parked(o: Plane) {
    !o.isTakingOff && !o.hasStartedTaxi && o.delayedTaxiStart >= 0
  }

  /** During the first `d` ticks a parked opponent does nothing but count
      down: it stays in place and keeps away from combat. */
  lemma {:induction false} CountdownOnly(o: Plane, advance: Plane -> Point, t: nat)
    requires Parked(o) && t <= o.delayedTaxiStart
    ensures Grounded(o, advance, t) == o.(delayedTaxiStart := o.delayedTaxiStart - t)
    decreases t
  {
    if t > 0 {
      var next := o.(delayedTaxiStart := o.delayedTaxiStart - 1);
      assert OpponentTakeoff(o, advance) == Some(next);
      CountdownOnly(next, advance, t - 1);
    }
  }

  /** Taxiing with `k` ticks left: after `t <= k` more ticks the plane is
      still on the ground exactly when `t < k`, and leaves with combat
      thrust after the `k`-th. */
  lemma {:induction false} TaxiCountsDown(o: Plane, advance: Plane -> Point, t: nat)
    requires o.isTakingOff && o.hasStartedTaxi && o.delayedTaxiStart <= 0
    requires 0 < t <= o.taxiTimer
    ensures var g := Grounded(o, advance, t);
      && g.taxiTimer == o.taxiTimer - t
      && (g.isTakingOff <==> t < o.taxiTimer)
      && g.thrust == (if t < o.taxiTimer then TAXI_THRUST else COMBAT_THRUST)
      && g.hasStartedTaxi && g.delayedTaxiStart == o.delayedTaxiStart
      && GroundFrame(o, g)
    decreases t
  {
    var next := TaxiTick(o, advance);
    assert OpponentTakeoff(o, advance) == Some(next);
    if t > 1 {
      TaxiCountsDown(next, advance, t - 1);
    }
  }

  /** The whole schedule of a parked opponent waiting `d` ticks: `d` ticks
      of countdown, one tick starting the taxi, exactly 90 ticks of taxi,
      and only then the combat branch, at thrust 5. */
  lemma TakeoffSchedule(o: Plane, advance: Plane -> Point)
    requires Parked(o)
    ensures var d := o.delayedTaxiStart;
      && OpponentTakeoff(Grounded(o, advance, d), advance).Some?
      && Grounded(o, advance, d).delayedTaxiStart == 0
      && Grounded(o, advance, d + 1).taxiTimer == OPPONENT_TAXI
      && Grounded(o, advance, d + 1).isTakingOff
      && OpponentTakeoff(Grounded(o, advance, d + OPPONENT_TAXI), advance).Some?
      && Airborne(Grounded(o, advance, d + 1 + OPPONENT_TAXI))
      && Grounded(o, advance, d + 1 + OPPONENT_TAXI).thrust == COMBAT_THRUST
      && GroundFrame(o, Grounded(o, advance, d + 1 + OPPONENT_TAXI))
  {
    var d := o.delayedTaxiStart;
    CountdownOnly(o, advance, d);
    var s := StartTick(o, advance);
    var last := TaxiPhase(o, advance, s, OPPONENT_TAXI - 1);
    assert last.isTakingOff;
    var done := TaxiPhase(o, advance, s, OPPONENT_TAXI);
  }

  /** `t` ticks into the taxi phase of a parked opponent. */
  lemma TaxiPhase(o: Plane, advance: Plane -> Point, s: Plane, t: nat) returns (g: Plane)
    requires Parked(o) && s == Grounded(o, advance, o.delayedTaxiStart + 1)
    requires s.isTakingOff && s.hasStartedTaxi && s.delayedTaxiStart == 0
    requires s.taxiTimer == OPPONENT_TAXI && GroundFrame(o, s)
    requires 0 < t <= OPPONENT_TAXI
    ensures g == Grounded(o, advance, o.delayedTaxiStart + 1 + t)
    ensures g.taxiTimer == OPPONENT_TAXI - t
    ensures g.isTakingOff <==> t < OPPONENT_TAXI
    ensures g.thrust == (if t < OPPONENT_TAXI then TAXI_THRUST else COMBAT_THRUST)
    ensures g.hasStartedTaxi && g.delayedTaxiStart == 0 && GroundFrame(o, g)
  {
    GroundedSplit(o, advance, o.delayedTaxiStart + 1, t);
    TaxiCountsDown(s, advance, t);
    g := Grounded(s, advance, t);
  }

  /** The tick after the countdown starts the taxi with a fresh timer. */
  lemma StartTick(o: Plane, advance: Plane -> Point) returns (s: Plane)
    requires Parked(o)
    ensures s == Grounded(o, advance, o.delayedTaxiStart + 1)
    ensures s.isTakingOff && s.hasStartedTaxi && s.delayedTaxiStart == 0
    ensures s.taxiTimer == OPPONENT_TAXI && GroundFrame(o, s)
  {
    var d := o.delayedTaxiStart;
    CountdownOnly(o, advance, d);
    var p := Grounded(o, advance, d);
    s := p.(isTakingOff := true, hasStartedTaxi := true, taxiTimer := OPPONENT_TAXI);
    assert OpponentTakeoff(p, advance) == Some(s);
    GroundedSplit(o, advance, d, 1);
    assert Grounded(p, advance, 1) == Grounded(s, advance, 0);
  }

  /** Running `a` ticks and then `b` more is running `a + b` ticks. */
  lemma {:induction false} GroundedSplit(o: Plane, advance: Plane -> Point, a: nat, b: nat)
    ensures Grounded(o, advance, a + b) == Grounded(Grounded(o, advance, a), advance, b)
    decreases a
  {
    if a > 0 {
      match OpponentTakeoff(o, advance)
      case None =>
        GroundedFixed(o, advance, a + b);
        GroundedFixed(o, advance, b);
      case Some(next) =>
        GroundedSplit(next, advance, a - 1, b);
    }
  }

  lemma {:induction false} GroundedFixed(o: Plane, advance: Plane -> Point, n: nat)
    requires Airborne(o)
    ensures Grounded(o, advance, n) == o
  {
  }

  // ------------------------------------------------------------------ allies

  /** The first two ground branches of updateAllies (count down; start). An
      ally never taxis: starting sets `isTakingOff` and nothing in the ally
      update ever clears it again. */
  function AllyTakeoff(a: Plane): (r: Option<Plane>)
    ensures r.None? <==> (a.isTakingOff || a.delayedTaxiStart <= 0) && (a.hasStartedTaxi || a.delayedTaxiStart > 0)
    ensures r.Some? ==> GroundFrame(a, r.value) && r.value.pos == a.pos
    ensures r.Some? && AllyShape(a) ==> AllyShape(r.value)
  {
    if !a.isTakingOff && a.delayedTaxiStart > 0 then
      Some(a.(delayedTaxiStart := a.delayedTaxiStart - 1))
    else if !a.hasStartedTaxi && a.delayedTaxiStart <= 0 then
      Some(a.(isTakingOff := true, hasStartedTaxi := true, taxiTimer := OPPONENT_TAXI))
    else
      None
  }

  /** The third takeoff branch of updateAllies, which falls through into the
      rest of the update: an ally found idle after its countdown is put back
      into the taking-off state. */
  function AllyResumeTaxi(a: Plane): (r: Plane)
    ensures !a.isTakingOff && a.delayedTaxiStart <= 0 ==>
      r == a.(isTakingOff := true, taxiTimer := OPPONENT_TAXI)
    ensures a.isTakingOff || a.delayedTaxiStart > 0 ==> r == a
  {
    if !a.isTakingOff && a.delayedTaxiStart <= 0 then a.(isTakingOff := true, taxiTimer := OPPONENT_TAXI)
    else a
  }

  /** Every ally the game ever holds has `isTakingOff` set once it has started. */
  predicate AllyShape(a: Plane) {
    a.hasStartedTaxi ==> a.isTakingOff
  }

  /** The third branch is dead code: whenever the first two let an ally
      through, the third changes nothing. */
  lemma AllyResumeTaxiIsDead(a: Plane)
    requires AllyShape(a) && AllyTakeoff(a).None?
    ensures AllyResumeTaxi(a) == a
  {
  }

  /** A respawn (which clears `hasStartedTaxi`) keeps the shape too. */
  lemma AllyShapeKept(a: Plane, side: Side, avoid: Option<Point>, draws: seq<Slot>, coin: real)
    requires AllyShape(a)
    requires |draws| == SPAWN_ATTEMPTS && forall j :: 0 <= j < |draws| ==> SlotDraw(side, draws[j])
    ensures AllyShape(RespawnPlane(a, side, avoid, draws, coin))
  {
  }

  /** The allies as created at load time all have that shape. */
  lemma InitialAlliesShaped(coin: nat -> real)
    ensures forall i :: 0 <= i < ALLY_COUNT ==> AllyShape(InitialAllies(coin)[i])
  {
  }
}

=== FILE: targeting.dfy ===
/** The linear target scans of the simulation.

    Every scan in both source files is the same loop: a running best distance
    starts at `Infinity` (or at a finite cap such as the missile lock range, or
    the distance to the player), candidates are visited in array order, dead or
    otherwise ineligible ones are skipped, and a candidate replaces the best only
    when it is STRICTLY closer, so the first of several equally near candidates
    wins. */
module Targeting {
  import opened Geometry

  datatype Option<T> = None | Some(value: T)

  /** One visited entry: its squared distance from the scanner and whether the
      scan may pick it (alive, inside the cone, ...). */
  datatype Candidate = Candidate(dist: real, eligible: bool)

  /** The initial running best: `Infinity`, or a finite squared distance. */
  datatype Cap = Unbounded | Cap(limit: real)

  predicate Under(d: real, c: Cap) {
    c.Unbounded? || d < c.limit
  }

  /** Reference meaning of a scan result: `Some(k)` names an eligible candidate
      under the cap that no eligible candidate beats, and that every earlier
      eligible candidate is strictly farther than; `None` means no eligible
      candidate is under the cap. */
  ghost predicate IsFirstNearest(cs: seq<Candidate>, cap: Cap, r: Option<nat>) {
    match r
    case None =>
      forall j :: 0 <= j < |cs| && cs[j].eligible ==> !Under(cs[j].dist, cap)
    case Some(k) =>
      && k < |cs| && cs[k].eligible && Under(cs[k].dist, cap)
      && (forall j :: 0 <= j < |cs| && cs[j].eligible ==> cs[k].dist <= cs[j].dist)
      && (forall j :: 0 <= j < k && cs[j].eligible ==> cs[k].dist < cs[j].dist)
  }

  /** The scan loop from index `i` on, with `best` the result over `cs[..i]`. */
  function ScanFrom(cs: seq<Candidate>, cap: Cap, i: nat, best: Option<nat>): (r: Option<nat>)
    requires i <= |cs|
    requires IsFirstNearest(cs[..i], cap, best)
    ensures IsFirstNearest(cs, cap, r)
    decreases |cs| - i
  {
    if i == |cs| then
      assert cs[..i] == cs;
      best
    else
      var running := if best.Some? then Cap(cs[best.value].dist) else cap;
      if cs[i].eligible && Under(cs[i].dist, running) then
        ScanFrom(cs, cap, i + 1, Some(i))
      else
        ScanFrom(cs, cap, i + 1, best)
  }

  function Nearest(cs: seq<Candidate>, cap: Cap): (r: Option<nat>)
    ensures IsFirstNearest(cs, cap, r)
  {
    ScanFrom(cs, cap, 0, None)
  }

  /** The reference meaning pins the result down: any two scans meeting it agree. */
  lemma FirstNearestUnique(cs: seq<Candidate>, cap: Cap, r1: Option<nat>, r2: Option<nat>)
    requires IsFirstNearest(cs, cap, r1) && IsFirstNearest(cs, cap, r2)
    ensures r1 == r2
  {
  }

  /** An unbounded scan finds a candidate nearer than `limit` exactly when
      some eligible candidate is nearer than `limit`. */
  lemma NearestBelowIffAnyBelow(cs: seq<Candidate>, limit: real)
    ensures (Nearest(cs, Unbounded).Some? && cs[Nearest(cs, Unbounded).value].dist < limit)
        <==> (exists j :: 0 <= j < |cs| && cs[j].eligible && cs[j].dist < limit)
  {
    var r := Nearest(cs, Unbounded);
    if r.None? {
      assert forall j :: 0 <= j < |cs| ==> !cs[j].eligible;
    }
  }

  /** Candidates for the points `ps` seen from `from`; `ok[i]` says whether
      `ps[i]` may be picked. */
  function Spread(ps: seq<Point>, from: Point, ok: seq<bool>): (cs: seq<Candidate>)
    requires |ok| == |ps|
    ensures |cs| == |ps|
    ensures forall i :: 0 <= i < |ps| ==> cs[i] == Candidate(DistSq(ps[i], from), ok[i])
  {
    seq(|ps|, i requires 0 <= i < |ps| => Candidate(DistSq(ps[i], from), ok[i]))
  }

  function AllTrue(n: nat): (ok: seq<bool>)
    ensures |ok| == n && forall i :: 0 <= i < n ==> ok[i]
  {
    seq(n, i => true)
  }

  /** The first point in array order strictly within `radius` of `p`: the
      `for (...) if (dist < r) { hit; break; }` loops of the hit tests. */
  function FirstWithin(ps: seq<Point>, p: Point, radius: real): (r: Option<nat>)
    ensures r.None? <==> forall j :: 0 <= j < |ps| ==> !Within(ps[j], p, radius)
    ensures r.Some? ==> r.value < |ps| && Within(ps[r.value], p, radius)
                        && forall j :: 0 <= j < r.value ==> !Within(ps[j], p, radius)
  {
    if |ps| == 0 then None
    else if Within(ps[0], p, radius) then Some(0)
    else
      match FirstWithin(ps[1..], p, radius)
      case None => None
      case Some(k) => Some(k + 1)
  }

  /** Whether any point lies strictly within `radius` of `p` (the `.some(...)`
      and early-return threat detectors). */
  predicate AnyWithin(ps: seq<Point>, p: Point, radius: real) {
    exists j :: 0 <= j < |ps| && Within(ps[j], p, radius)
  }
}

=== FILE: weapons.dfy ===
/** The firing rules of game.js: the three machine guns, the three missile
    launchers, the flare burst, the player's missile lock-on timer and the
    "missile locked" warning banner.

    Aiming is geometry the model does not compute: `predictTargetPosition`
    followed by `Math.hypot` and `Math.atan2` is supplied as an `Aim` per
    possible target, giving the distance to the predicted point and the
    bearing of it. */
module Weapons {
  import opened Geometry
  import opened Targeting
  import opened Entities
  import opened Scans

  const GUN_SPEED: real := 16.0
  const OPPONENT_GUN_SPEED: real := 12.0
  const BULLET_LIFE: int := 60
  const MISSILE_SPEED: real := 4.0
  const MISSILE_LIFE: int := 180
  const MIN_RANGE: real := 300.0
  const MAX_RANGE: real := 900.0
  /** The +-30 degree launch cone. */
  const MAX_ANGLE_OFFSET: real := PI / 6.0
  const PLAYER_LOCK_TIME: int := 300
  /** Radius inside which an opponent keeps the player's lock timer running. */
  const LOCK_RANGE: real := 1000.0

  /** Distance to, and bearing of, the predicted position of a target. */
  datatype Aim = Aim(distance: real, bearing: real)

  /** A shooter after a trigger pull, with the projectile list it appends to. */
  datatype Armed = Armed(shooter: Plane, shots: seq<Projectile>)

  /** `shots` is `before` with `p` appended, or `before` itself when nothing was fired. */
  predicate AppendsAtMostOne(before: seq<Projectile>, after: seq<Projectile>, fired: bool) {
    if fired then |after| == |before| + 1 && before <= after
    else after == before
  }

  /** The shooter is untouched except for one round of gun ammunition. */
  predicate SpentOneRound(before: Plane, after: Plane) {
    after == before.(machineGunAmmo := before.machineGunAmmo - 1)
  }

  // ------------------------------------------------------------ machine guns

  /** fireMachineGun(): the player's gun, fired along the player's heading. */
  function FireMachineGun(p: Plane, bullets: seq<Projectile>): (r: Armed)
    ensures p.machineGunAmmo <= 0 ==> r == Armed(p, bullets)
    ensures p.machineGunAmmo > 0 ==>
      && AppendsAtMostOne(bullets, r.shots, true)
      && r.shots[|bullets|] == Projectile(p.pos, p.angle, GUN_SPEED, BULLET_LIFE, None)
      && SpentOneRound(p, r.shooter)
    ensures p.machineGunAmmo >= 0 ==>
      r.shooter.machineGunAmmo + |r.shots| == p.machineGunAmmo + |bullets|
  {
    if p.machineGunAmmo <= 0 then Armed(p, bullets)
    else Armed(p.(machineGunAmmo := p.machineGunAmmo - 1),
               bullets + [Projectile(p.pos, p.angle, GUN_SPEED, BULLET_LIFE, None)])
  }

  /** `n` presses of the fire button (the touch button repeats fireMachineGun). */
  function HoldTrigger(p: Plane, bullets: seq<Projectile>, n: nat): Armed
    decreases n
  {
    if n == 0 then Armed(p, bullets)
    else
      var a := FireMachineGun(p, bullets);
      HoldTrigger(a.shooter, a.shots, n - 1)
  }

  /** Holding the trigger for `n` presses fires exactly `min(n, ammo)` rounds,
      keeps the earlier bullets, and never drives the ammunition negative. */
  lemma {:induction false} HoldTriggerFiresUntilEmpty(p: Plane, bullets: seq<Projectile>, n: nat)
    requires p.machineGunAmmo >= 0
    ensures var a := HoldTrigger(p, bullets, n);
      var fired := if n <= p.machineGunAmmo then n else p.machineGunAmmo;
      && |a.shots| == |bullets| + fired
      && a.shots[..|bullets|] == bullets
      && a.shooter.machineGunAmmo == p.machineGunAmmo - fired
      && a.shooter.missileAmmo == p.missileAmmo && a.shooter.pos == p.pos
    decreases n
  {
    if n > 0 {
      var a := FireMachineGun(p, bullets);
      HoldTriggerFiresUntilEmpty(a.shooter, a.shots, n - 1);
      var b := HoldTrigger(a.shooter, a.shots, n - 1);
      assert b.shots[..|bullets|] == b.shots[..|a.shots|][..|bullets|];
    }
  }

  /** fireAllyMachineGun(ally): aimed at the predicted position of the nearest
      living opponent; nothing happens without ammunition or without a living
      opponent. */
  function FireAllyMachineGun(ally: Plane, opps: seq<Plane>, bullets: seq<Projectile>,
                              aimAt: nat -> Aim): (r: Armed)
    ensures var fired := ally.machineGunAmmo > 0 && exists j :: 0 <= j < |opps| && opps[j].Alive();
      && AppendsAtMostOne(bullets, r.shots, fired)
      && (fired ==> SpentOneRound(ally, r.shooter))
      && (!fired ==> r.shooter == ally)
    ensures |r.shots| > |bullets| ==>
      var k := NearestOpponent(opps, ally.pos).value;
      && r.shots[|bullets|] == Projectile(ally.pos, aimAt(k).bearing, GUN_SPEED, BULLET_LIFE, None)
      && k < |opps| && opps[k].Alive()
  {
    if ally.machineGunAmmo <= 0 then Armed(ally, bullets)
    else match NearestOpponent(opps, ally.pos)
      case None => Armed(ally, bullets)
      case Some(k) =>
        Armed(ally.(machineGunAmmo := ally.machineGunAmmo - 1),
              bullets + [Projectile(ally.pos, aimAt(k).bearing, GUN_SPEED, BULLET_LIFE, None)])
  }

  /** fireOpponentMachineGun(opp): findNearestEnemy always yields a target
      (the player at worst), so only the ammunition can refuse. */
  function FireOpponentMachineGun(opp: Plane, player: Plane, allies: seq<Plane>,
                                  bullets: seq<Projectile>, aimAt: Enemy -> Aim): (r: Armed)
    ensures AppendsAtMostOne(bullets, r.shots, opp.machineGunAmmo > 0)
    ensures opp.machineGunAmmo > 0 ==>
      && SpentOneRound(opp, r.shooter)
      && r.shots[|bullets|] == Projectile(opp.pos, aimAt(NearestEnemy(player, allies, opp.pos)).bearing,
                                          OPPONENT_GUN_SPEED, BULLET_LIFE, None)
    ensures opp.machineGunAmmo <= 0 ==> r.shooter == opp
  {
    if opp.machineGunAmmo <= 0 then Armed(opp, bullets)
    else
      var e := NearestEnemy(player, allies, opp.pos);
      Armed(opp.(machineGunAmmo := opp.machineGunAmmo - 1),
            bullets + [Projectile(opp.pos, aimAt(e).bearing, OPPONENT_GUN_SPEED, BULLET_LIFE, None)])
  }

  // ---------------------------------------------------------------- missiles

  /** Why a launcher did or did not fire, in the order the source checks. */
  datatype Verdict = Launched | NoMissiles | NoTarget | OutOfRange | NotAligned

  /** The player's missile lock-on state. */
  datatype Lock = Lock(timer: int, ready: bool)

  /** The states the lock can reach: ready exactly when the timer has passed 300. */
  predicate LockValid(l: Lock) {
    l.timer >= 0 && (l.ready <==> l.timer > PLAYER_LOCK_TIME)
  }

  datatype Launch = Launch(verdict: Verdict, shooter: Plane, missiles: seq<Projectile>, lock: Lock)

  /** The predicted-range and launch-cone tests shared by the three launchers,
      with the cone measured by the angle expression exactly as the source
      writes it (JavaScript's truncating `%`). */
  function RangeVerdict(shooter: Plane, aim: Aim): (v: Verdict)
    ensures v == Launched <==>
      && MIN_RANGE <= aim.distance <= MAX_RANGE
      && MisalignmentAsWritten(shooter.angle, aim.bearing) <= MAX_ANGLE_OFFSET
    ensures v == Launched || v == OutOfRange || v == NotAligned
    ensures v == OutOfRange <==> aim.distance < MIN_RANGE || aim.distance > MAX_RANGE
  {
    if aim.distance < MIN_RANGE || aim.distance > MAX_RANGE then OutOfRange
    else if MisalignmentAsWritten(shooter.angle, aim.bearing) > MAX_ANGLE_OFFSET then NotAligned
    else Launched
  }

  /** The verdict the launchers evidently intend: the cone is measured by the
      true angle between heading and bearing. */
  function RangeVerdictIntended(shooter: Plane, aim: Aim): (v: Verdict)
    ensures v == Launched <==>
      && MIN_RANGE <= aim.distance <= MAX_RANGE
      && Misalignment(shooter.angle, aim.bearing) <= MAX_ANGLE_OFFSET
    ensures v == Launched || v == OutOfRange || v == NotAligned
    ensures v == OutOfRange <==> aim.distance < MIN_RANGE || aim.distance > MAX_RANGE
  {
    if aim.distance < MIN_RANGE || aim.distance > MAX_RANGE then OutOfRange
    else if Misalignment(shooter.angle, aim.bearing) > MAX_ANGLE_OFFSET then NotAligned
    else Launched
  }

  /** The written and intended verdicts agree unless the heading is more than
      half a turn behind the bearing; the range refusal never differs. */
  lemma RangeVerdictAgreesWhenNotBehind(shooter: Plane, aim: Aim)
    ensures shooter.angle - aim.bearing + PI >= 0.0 ==>
      RangeVerdict(shooter, aim) == RangeVerdictIntended(shooter, aim)
    ensures (RangeVerdict(shooter, aim) == OutOfRange) == (RangeVerdictIntended(shooter, aim) == OutOfRange)
  {
    if shooter.angle - aim.bearing + PI >= 0.0 {
      AsWrittenAgreesWhenNotBehind(shooter.angle, aim.bearing);
    }
  }

  /** A shooter heading -PI with its target 0.1 rad off the nose at 500 units:
      every launcher built on the written verdict refuses as not aligned,
      where the intended verdict launches. */
  lemma LaunchersRefuseAlignedTarget(shooter: Plane)
    requires shooter.angle == -PI
    ensures RangeVerdict(shooter, Aim(500.0, PI - 0.1)) == NotAligned
    ensures RangeVerdictIntended(shooter, Aim(500.0, PI - 0.1)) == Launched
  {
    MisalignmentAsWrittenRejectsAlignedTarget();
  }

  /** A launch touches nothing but the missile count. */
  predicate SpentOneMissile(before: Plane, after: Plane) {
    after == before.(missileAmmo := before.missileAmmo - 1)
  }

  /** fireMissile(): at the nearest opponent, alive or not. The lock state is
      consulted by nobody here (the manual key fires without a lock); a
      successful launch clears it. */
  function FireMissile(p: Plane, opps: seq<Plane>, missiles: seq<Projectile>, lock: Lock,
                       aimAt: nat -> Aim): (r: Launch)
    ensures r.verdict == NoMissiles <==> p.missileAmmo <= 0
    ensures r.verdict == NoTarget <==> p.missileAmmo > 0 && |opps| == 0
    ensures r.verdict != Launched ==>
      r.shooter == p && r.missiles == missiles && r.lock == lock
    ensures r.verdict == Launched ==>
      var k := NearestOfAll(opps, p.pos).value;
      && p.missileAmmo > 0 && k < |opps|
      && RangeVerdict(p, aimAt(k)) == Launched
      && SpentOneMissile(p, r.shooter)
      && r.missiles == missiles + [Projectile(p.pos, aimAt(k).bearing, MISSILE_SPEED, MISSILE_LIFE, Some(k))]
      && r.lock == Lock(0, false)
    ensures p.missileAmmo > 0 && |opps| > 0 ==>
      r.verdict == RangeVerdict(p, aimAt(NearestOfAll(opps, p.pos).value))
  {
    if p.missileAmmo <= 0 then Launch(NoMissiles, p, missiles, lock)
    else match NearestOfAll(opps, p.pos)
      case None => Launch(NoTarget, p, missiles, lock)
      case Some(k) =>
        var v := RangeVerdict(p, aimAt(k));
        if v != Launched then Launch(v, p, missiles, lock)
        else Launch(Launched, p.(missileAmmo := p.missileAmmo - 1),
                    missiles + [Projectile(p.pos, aimAt(k).bearing, MISSILE_SPEED, MISSILE_LIFE, Some(k))],
                    Lock(0, false))
  }

  /** fireAllyMissile(ally): the same tests as the player's launcher, without
      any lock state. */
  function FireAllyMissile(ally: Plane, opps: seq<Plane>, missiles: seq<Projectile>,
                           aimAt: nat -> Aim): (r: Armed)
    ensures AppendsAtMostOne(missiles, r.shots,
      ally.missileAmmo > 0 && |opps| > 0 && RangeVerdict(ally, aimAt(NearestOfAll(opps, ally.pos).value)) == Launched)
    ensures |r.shots| > |missiles| ==>
      var k := NearestOfAll(opps, ally.pos).value;
      && SpentOneMissile(ally, r.shooter)
      && r.shots[|missiles|] == Projectile(ally.pos, aimAt(k).bearing, MISSILE_SPEED, MISSILE_LIFE, Some(k))
    ensures |r.shots| == |missiles| ==> r.shooter == ally
  {
    var l := FireMissile(ally, opps, missiles, Lock(0, false), aimAt);
    Armed(l.shooter, l.missiles)
  }

  /** fireOpponentMissile(opp, target): the target is already chosen by the
      caller, so the only tests are ammunition, range and cone; the missile
      carries no target. */
  function FireOpponentMissile(opp: Plane, missiles: seq<Projectile>, aim: Aim): (r: Armed)
    ensures AppendsAtMostOne(missiles, r.shots, opp.missileAmmo > 0 && RangeVerdict(opp, aim) == Launched)
    ensures |r.shots| > |missiles| ==>
      && SpentOneMissile(opp, r.shooter)
      && r.shots[|missiles|] == Projectile(opp.pos, aim.bearing, MISSILE_SPEED, MISSILE_LIFE, None)
    ensures |r.shots| == |missiles| ==> r.shooter == opp
  {
    if opp.missileAmmo <= 0 || RangeVerdict(opp, aim) != Launched then Armed(opp, missiles)
    else Armed(opp.(missileAmmo := opp.missileAmmo - 1),
               missiles + [Projectile(opp.pos, aim.bearing, MISSILE_SPEED, MISSILE_LIFE, None)])
  }

  /** Every launcher needs at least one missile, and none fires more than one. */
  lemma {:induction false} MissileCountConserved(p: Plane, opps: seq<Plane>, missiles: seq<Projectile>,
                                                 lock: Lock, aimAt: nat -> Aim)
    requires p.missileAmmo >= 0
    ensures var r := FireMissile(p, opps, missiles, lock, aimAt);
      r.shooter.missileAmmo >= 0 && r.shooter.missileAmmo + |r.missiles| == p.missileAmmo + |missiles|
  {
  }

  // ------------------------------------------------------------------ flares

  const FLARE_PAIRS: nat := 10
  const FLARE_LIFE: int := 180
  /** Each flare's two `Math.random()` draws: heading spread and speed. */
  datatype FlareDraw = FlareDraw(spread: real, speed: real)

  /** The flare released by `entity` on side `dir` (-1 left, +1 right); `wing`
      is the offset of the right wingtip, 20 units off the heading, so the
      left one is its mirror image. */
  function BurstFlare(entity: Plane, wing: Point, dir: int, d: FlareDraw): Flare {
    Flare(entity.pos.Plus(wing.Scale(dir as real)),
          entity.angle + PI + (d.spread - 0.5) * 0.5,
          1.0 + d.speed * 0.5,
          FLARE_LIFE)
  }

  /** releaseFlaresFor(entity): ten pairs, left then right, each from its own
      pair of draws. The 80 ms staggering between pairs is left out: all
      twenty flares are added at once. */
  function ReleaseFlares(entity: Plane, wing: Point, flares: seq<Flare>, draws: seq<FlareDraw>): (r: seq<Flare>)
    requires |draws| == 2 * FLARE_PAIRS
    ensures |r| == |flares| + 2 * FLARE_PAIRS && r[..|flares|] == flares
    ensures forall i :: |flares| <= i < |r| ==> r[i].life == FLARE_LIFE
    ensures forall i :: 0 <= i < FLARE_PAIRS ==>
      r[|flares| + 2 * i].pos.Plus(r[|flares| + 2 * i + 1].pos) == entity.pos.Scale(2.0)
    ensures forall i :: 0 <= i < 2 * FLARE_PAIRS && UnitRoll(draws[i].spread) && UnitRoll(draws[i].speed) ==>
      && entity.angle + PI - 0.25 <= r[|flares| + i].angle < entity.angle + PI + 0.25
      && 1.0 <= r[|flares| + i].speed < 1.5
  {
    flares + seq(2 * FLARE_PAIRS, i requires 0 <= i < 2 * FLARE_PAIRS =>
                   BurstFlare(entity, wing, if i % 2 == 0 then -1 else 1, draws[i]))
  }

  // ------------------------------------------------------- player missile lock

  /** updatePlayerMissileLock(): the timer runs while the nearest opponent,
      dead or alive, is closer than 1000, and resets the moment none is. */
  function UpdatePlayerMissileLock(l: Lock, opps: seq<Plane>, playerPos: Point): (r: Lock)
    ensures var inRange := exists j :: 0 <= j < |opps| && DistSq(opps[j].pos, playerPos) < LOCK_RANGE * LOCK_RANGE;
      && (inRange ==> r.timer == l.timer + 1 && r.ready == (l.ready || l.timer + 1 > PLAYER_LOCK_TIME))
      && (!inRange ==> r == Lock(0, false))
    ensures LockValid(l) ==> LockValid(r)
  {
    var cs := Spread(Positions(opps), playerPos, AllTrue(|opps|));
    NearestBelowIffAnyBelow(cs, LOCK_RANGE * LOCK_RANGE);
    DistSqFlip(opps, playerPos);
    match NearestOfAll(opps, playerPos)
    case Some(k) =>
      if DistSq(opps[k].pos, playerPos) < LOCK_RANGE * LOCK_RANGE then
        Lock(l.timer + 1, l.ready || l.timer + 1 > PLAYER_LOCK_TIME)
      else Lock(0, false)
    case None => Lock(0, false)
  }

  lemma DistSqFlip(opps: seq<Plane>, from: Point)
    ensures forall j :: 0 <= j < |opps| ==>
      Spread(Positions(opps), from, AllTrue(|opps|))[j].dist == DistSq(opps[j].pos, from)
  {
  }

  /** The lock after a run of ticks; `inRange[t]` says whether tick `t` had
      an opponent within range. */
  function LockAfter(l: Lock, inRange: seq<bool>): Lock
    decreases |inRange|
  {
    if |inRange| == 0 then l
    else
      var next := if inRange[0] then Lock(l.timer + 1, l.ready || l.timer + 1 > PLAYER_LOCK_TIME)
                  else Lock(0, false);
      LockAfter(next, inRange[1..])
  }

  /** From a cleared lock, `n` in-range ticks leave the timer at `n`, and the
      lock is ready exactly when `n` exceeds 300: the first ready tick is the
      301st. */
  lemma {:induction false} LockReadyAfter301Ticks(l: Lock, n: nat)
    requires LockValid(l) && l.timer == 0
    ensures LockAfter(l, seq(n, _ => true)) == Lock(n, n > PLAYER_LOCK_TIME)
    decreases n
  {
    if n > 0 {
      LockRun(l, n);
    }
  }

  lemma {:induction false} LockRun(l: Lock, n: nat)
    requires LockValid(l)
    ensures LockAfter(l, seq(n, _ => true))
            == Lock(l.timer + n, l.ready || l.timer + n > PLAYER_LOCK_TIME)
    decreases n
  {
    if n > 0 {
      var next := Lock(l.timer + 1, l.ready || l.timer + 1 > PLAYER_LOCK_TIME);
      var run := seq(n, _ => true);
      assert run[0] && run[1..] == seq(n - 1, _ => true);
      assert LockAfter(l, run) == LockAfter(next, run[1..]);
      LockRun(next, n - 1);
    }
  }

  /** A single out-of-range tick anywhere in a run clears everything gathered
      before it. */
  lemma {:induction false} OutOfRangeTickForgets(l: Lock, before: seq<bool>, after: seq<bool>)
    ensures LockAfter(l, before + [false] + after) == LockAfter(Lock(0, false), after)
    decreases |before|
  {
    if |before| == 0 {
      assert ([false] + after)[1..] == after;
    } else {
      var next := if before[0] then Lock(l.timer + 1, l.ready || l.timer + 1 > PLAYER_LOCK_TIME)
                  else Lock(0, false);
      assert (before + [false] + after)[1..] == before[1..] + [false] + after;
      OutOfRangeTickForgets(next, before[1..], after);
    }
  }

  // ----------------------------------------------------------- warning banner

  const ALERT_RADIUS: real := 300.0
  const ALERT_HOLD: int := 60

  /** `missileLockAnnounced` and `lockOnAlertCooldown`. */
  datatype Alert = Alert(announced: bool, cooldown: int)

  /** Announced exactly while the hold counter is running. */
  predicate AlertValid(a: Alert) {
    0 <= a.cooldown <= ALERT_HOLD && (a.announced <==> a.cooldown > 0)
  }

  datatype AlertStep = AlertStep(alert: Alert, banner: bool)

  /** The first block of updateMissiles: any opponent missile within 300 of
      the player raises the banner once and holds the alert for 60 ticks
      after the last threatened tick. */
  function UpdateAlert(a: Alert, missilePos: seq<Point>, playerPos: Point): (r: AlertStep)
    ensures var threatened := AnyWithin(missilePos, playerPos, ALERT_RADIUS);
      && (r.banner <==> threatened && !a.announced)
      && (threatened ==> r.alert == Alert(true, ALERT_HOLD))
      && (!threatened && a.cooldown > 0 ==> r.alert.cooldown == a.cooldown - 1)
      && (!threatened && a.cooldown <= 0 ==> r.alert.cooldown == a.cooldown)
    ensures AlertValid(a) ==> AlertValid(r.alert)
  {
    if FirstWithin(missilePos, playerPos, ALERT_RADIUS).Some? then
      AlertStep(Alert(true, ALERT_HOLD), !a.announced)
    else
      var c := if a.cooldown > 0 then a.cooldown - 1 else a.cooldown;
      AlertStep(Alert(if c == 0 then false else a.announced, c), false)
  }

  /** The alert after `n` ticks without a threat. */
  function QuietTicks(a: Alert, playerPos: Point, n: nat): Alert
    decreases n
  {
    if n == 0 then a
    else QuietTicks(UpdateAlert(a, [], playerPos).alert, playerPos, n - 1)
  }

  /** Once the threats stop, the banner is re-armed after the remaining hold
      ticks (at most sixty). */
  lemma {:induction false} AlertRearmsAfterHold(a: Alert, playerPos: Point, n: nat)
    requires AlertValid(a) && n >= a.cooldown
    ensures QuietTicks(a, playerPos, n) == Alert(false, 0)
    decreases n
  {
    if n > 0 {
      AlertRearmsAfterHold(UpdateAlert(a, [], playerPos).alert, playerPos, n - 1);
    }
  }
}
